=== FILE: README.md ===
# Financial CRM backend: request normalisation, ownership guards and origin checks

This project models the functional core of a CRM backend for financial advisors.
It is an Express server over a relational store, and the model covers five
controllers plus two start-up selections:

- **Clients.** `buildClientData` turns a loosely typed JSON body into a client row.
  It has a *full* mode for creation, which fills in defaults, and a *partial* mode
  for updates, which writes only the supplied fields. `buildClientResponse` shapes
  a stored client for the API. The client handlers never filter by owner.
- **Collaboration notes.** Mentions are canonicalised (`normalizeMentionRecord`,
  `normalizeMentions`). The page size of the note listing is clamped. Create,
  update and delete each run their checks in a fixed order.
- **Transactions, opportunities and activities.** Each is a small state machine
  over an id-to-row store. Every operation answers a reply
  (201/200/204/400/404/500) together with the new store. A row belongs to the
  user whose id is in its `ownerId` column.
- **Allowed origins.** The cross-origin allow-list normalises origins, keeps exact
  entries, compiles `*` entries into anchored regular expressions and decides
  which request origins pass.
- **Database URL.** `pickDatabaseUrl` chooses the connection string from the
  process environment.

JavaScript values are a `Value` datatype (`JsValue`): undefined, null, booleans,
numbers, NaN, strings, arrays, objects and dates. Truthiness, `||`, `??` and
property access follow JavaScript. `trim`, `split(',')`, `join` and `toLowerCase`
are defined over `seq<char>` in `JsString`.

The store (`Store`) holds one table per entity, plus the partners table that
clients link to. Each table is a map from string id to a row
(`map<string, Value>`). A `findFirst` on id plus `ownerId` becomes the
`Owned` predicate, and a `findMany` on `ownerId` becomes `ListOwned`. An
`include` is a join. `include: {client: true}` adds the row named by
`clientId` (`LinkedClient`). The client include adds the row named by
`partnerId` and the client's notes, newest first, cut to the page size
(`JoinClient`). The id of a new row and the current time are parameters, and so
is the newest-first order of the notes, which would come from their creation
times. Parsing a number or a date, and
printing one, are functions supplied in a `Runtime` value, because the model
cannot see the JavaScript runtime.

`buildActivityResponse` returns its argument unchanged, so the activity
operations return stored rows as they are.

Where the code and its documentation disagree, the model follows the code:

- An activity with an unparseable `dueDate` passes validation. The store then
  refuses the Invalid Date and the request ends in a 500, not a 400.
- A mention given as `{name, email}` gets the email as its id. It is not `null`.

## Model

| member | source | states |
|---|---|---|
| JsString.Trim | backend/src/controllers/commentController.js:3-4 | the trimmed string is no longer than the input and has no whitespace at either end |
| JsString.TrimCut | backend/src/controllers/commentController.js:3-4 | trimming removes whitespace, and only whitespace, from the two ends of the input |
| JsString.TrimIdempotent | backend/src/controllers/commentController.js:3-4 | trimming twice is the same as trimming once |
| JsString.TrimEmptyIff | backend/src/controllers/commentController.js:3-4 | the trimmed string is empty exactly when every character of the input is whitespace |
| JsString.Split | backend/src/controllers/clientController.js:64 | `split` yields at least one piece, and no piece contains the separator |
| JsString.JoinSplit | backend/src/controllers/clientController.js:64 | joining the pieces of a split with the separator gives back the original string |
| JsString.SplitJoin | backend/src/controllers/clientController.js:64 | splitting a join of separator-free pieces gives back those pieces |
| JsString.ToLower | backend/src/index.js:21 | lower-casing keeps the length and lower-cases every character |
| JsString.TrimLower | backend/src/index.js:21 | trimming and lower-casing commute |
| JsValue.Or | backend/src/controllers/transactionController.js:57-60 | `a \|\| b` is truthy exactly when `a` or `b` is truthy |
| JsValue.Coalesce | backend/src/controllers/opportunityController.js:59 | `a ?? b` is nullish only when `b` is nullish |
| JsValue.NumberOrZero | backend/src/controllers/transactionController.js:3-10 | `toNumber` gives a number or NaN, and gives 0 for null and undefined |
| JsValue.ToNumberOrNull | backend/src/controllers/transactionController.js:10 | the unit value is null exactly when the stored value is null or undefined, and otherwise it is the value converted to a number |
| JsValue.TrimmedPieces | backend/src/controllers/clientController.js:64 | one trimmed string per comma-separated piece, in order |
| Store.Defined | backend/src/controllers/transactionController.js:53-74 | the stored row keeps exactly the columns whose value is not undefined, unchanged |
| Store.Insert | backend/src/controllers/transactionController.js:53-74 | an insert succeeds exactly when the id is new and the row is storable, and then it adds that one row |
| Store.Merge | backend/src/controllers/transactionController.js:102-106 | an update writes the given columns and keeps every other stored column |
| Store.ListOwned | backend/src/controllers/transactionController.js:25-31 | a listing filtered on `ownerId` holds exactly the rows the user owns |
| Store.IsolatedKeepsOthersListed | backend/src/controllers/transactionController.js:16-23 | a change confined to one user's rows keeps every row another user can list, unchanged |
| Store.JoinedClientName | backend/src/controllers/transactionController.js:12 | the client name is the joined client's name if truthy, else the stored name if truthy, else the empty string |
| Store.LinkedClient | backend/src/controllers/transactionController.js:29 | the joined client is the stored client row named by `clientId` when it exists, and null otherwise |
| Store.WithClient | backend/src/controllers/transactionController.js:29 | a row read with its client joined gains exactly a `client` column holding the linked client, and keeps every other column |
| Store.JoinedNameIsShown | backend/src/controllers/transactionController.js:6-31 | on a row read with its client joined, the response's client name is the linked client's name, falling back to the stored name and then to `''` |
| Clients.BuildClientInclude | backend/src/controllers/clientController.js:9-22 | the partner is always joined and notes come newest first; `take` is set exactly when the limit is a positive integer, and then equals it |
| Clients.ShapeNote | backend/src/controllers/clientController.js:24-32 | every shaped note has an array of mentions, keeps an array it already had, and keeps its other fields |
| Clients.BuildCollaborationNotes | backend/src/controllers/clientController.js:24-32 | the result is always an array, empty for a non-array, one entry per note, each with array mentions |
| Clients.BuildClientResponse | backend/src/controllers/clientController.js:34-54 | null for no client; otherwise the wallet is numeric (0 for null/undefined), `partners` is `partnerData` or `[]`, list fields are non-null, every note has array mentions, and all other columns are copied |
| Clients.CleanItems | backend/src/controllers/clientController.js:66-68 | the cleaned list is no longer than the input, and every element is trimmed and non-empty |
| Clients.NormalizeStringArray | backend/src/controllers/clientController.js:56-69 | undefined gives undefined; any value that is neither string nor array gives `[]`; the output holds only trimmed, non-empty strings |
| Clients.CleanItemsAppend | backend/src/controllers/clientController.js:66-68 | cleaning distributes over concatenation |
| Clients.CleanItemsOfClean | backend/src/controllers/clientController.js:66-68 | an already-clean list is left unchanged |
| Clients.NormalizeStringArrayIdempotent | backend/src/controllers/clientController.js:56-69 | normalising the array output again returns it unchanged |
| Clients.NormalizeStringArrayDropsNullish | backend/src/controllers/clientController.js:66-68 | a null or undefined element is dropped without affecting the rest |
| Clients.ArrayElementsNotSplit | backend/src/controllers/clientController.js:60-62 | an array element is kept whole, never split on commas |
| Clients.StringInputSplit | backend/src/controllers/clientController.js:63-68 | for any list of comma-free, trimmed, non-empty pieces, the string that joins them with commas normalises to exactly that list |
| Clients.NormalizeDecimalValue | backend/src/controllers/clientController.js:71-80 | undefined gives the fallback; null gives null; an unparseable value gives `fallback ?? null`; a parseable one gives its number |
| Clients.NormalizeDateValue | backend/src/controllers/clientController.js:82-94 | undefined gives the fallback; any other falsy value gives null; an invalid date gives `fallback ?? null`; a valid date is kept; nothing is thrown |
| Clients.BuildClientData | backend/src/controllers/clientController.js:99-182 | the built row writes only known client columns and never an undefined value |
| Clients.StringFieldsWritten | backend/src/controllers/clientController.js:107-126 | a supplied string field is stored exactly as given, untrimmed and unchecked; an unsupplied one is absent, except that a full build sets compliance status to `'Pendente'` |
| Clients.JsonFieldsWritten | backend/src/controllers/clientController.js:148-163 | a supplied JSON field is stored as given (null stays null); an unsupplied one is absent in a partial build and in a full build is null for financial profile and address and `[]` for the three lists |
| Clients.SingleFieldsWritten | backend/src/controllers/clientController.js:128-179 | the wallet is the decimal normalisation of the body's value with fallback 0 in a full build and none in a partial one; the last activity is the date normalisation with fallback the current time, or none |
| Clients.ArrayFieldsWritten | backend/src/controllers/clientController.js:134-146 | a supplied service-preference or advisor field is stored as its normalised string list; an unsupplied one is `[]` in a full build and absent in a partial one |
| Clients.PartnerDataWritten | backend/src/controllers/clientController.js:165-173 | `partnerData` wins when supplied, `partners` stands in for it otherwise, and with neither a full build stores `[]` and a partial one nothing |
| Clients.PartialWritesOnlySupplied | backend/src/controllers/clientController.js:99-182 | a partial build has a key exactly when that client field was supplied in the body |
| Clients.PartialStringKey | backend/src/controllers/clientController.js:107-126 | in partial mode a string column is written exactly when it was supplied |
| Clients.PartialJsonKey | backend/src/controllers/clientController.js:148-163 | in partial mode a JSON column is written exactly when it was supplied |
| Clients.PartialSingleKeys | backend/src/controllers/clientController.js:128-180 | in partial mode each of the five single columns is written exactly when it was supplied (`partners` counts for `partnerData`) |
| Clients.PartialOfNothingIsEmpty | backend/src/controllers/clientController.js:99-182 | a body that supplies no client field gives an empty partial build |
| Clients.FullWritesDefaulted | backend/src/controllers/clientController.js:120-179 | a full build always sets compliance status, wallet, service preferences, advisors, partner data, last activity and every JSON column |
| Clients.FullDefaults | backend/src/controllers/clientController.js:120-179 | missing fields default to `'Pendente'`, 0, `[]`, the current time, or the JSON column's own default |
| Clients.PartnerDataWins | backend/src/controllers/clientController.js:165-174 | when `partnerData` is supplied it is stored, whatever `partners` holds |
| Clients.NotesOf | backend/src/controllers/clientController.js:10-12 | the client's notes in newest-first order: exactly the ordered ids that name a note of that client, with no id repeated when the order repeats none |
| Clients.NotesOfClient | backend/src/controllers/clientController.js:10-12 | over an order that lists each stored note once, a client's joined notes are exactly its stored notes, each once |
| Clients.JoinedNoteCount | backend/src/controllers/clientController.js:10-16 | a join with a page size keeps min(page size, number of the client's stored notes) notes, and all of them with no page size |
| Clients.JoinedNoteIds | backend/src/controllers/clientController.js:10-16 | the joined notes are a newest-first prefix of the client's notes, no more than the page size, and all of them when fewer than the page size exist or no size is set |
| Clients.LinkedPartner | backend/src/controllers/clientController.js:18-21 | the joined partner is the stored partner row named by `partnerId` when there is one, and null otherwise |
| Clients.JoinClient | backend/src/controllers/clientController.js:9-22 | reading a client with its include keeps every stored column, adds the page of newest notes and, when included, the linked partner |
| Clients.ClientView | backend/src/controllers/clientController.js:9-54 | the response for a joined client: stored columns copied, shaped columns from the response builder, the linked partner, and its notes a newest-first prefix of the client's shaped notes, min(page size, number of the client's stored notes) of them |
| Clients.GetClientById | backend/src/controllers/clientController.js:197-211 | found exactly when the id exists, for any caller; the answer is the client read with the detail include, so it shows min(50, n) of the client's n stored notes |
| Clients.GetAllClients | backend/src/controllers/clientController.js:184-195 | every stored client is listed, with no owner filter, each read with the list include, so each shows min(5, n) of its n stored notes |
| Clients.ListAgreesWithDetail | backend/src/controllers/clientController.js:184-211 | a list entry and the detail answer for the same client have the same columns and agree on all but the notes; the list's notes are the first min(5, n) of the detail's |
| Clients.CreateClient | backend/src/controllers/clientController.js:213-233 | 400 exactly when name, email or type is falsy; otherwise 500 exactly when the id is taken or the full build holds an Invalid Date, and 201 inserting that build in every other case; nothing changes unless 201 |
| Clients.CreatedClientHasNoOwner | backend/src/controllers/clientController.js:213-233 | a created client row has no `ownerId` column |
| Clients.UpdateClient | backend/src/controllers/clientController.js:235-258 | 400 exactly when the partial build is empty; 404 for an unknown id; otherwise the built columns are merged into the row |
| Clients.UpdateWithNothingIsRejected | backend/src/controllers/clientController.js:236-242 | a body with no client field answers 400 and leaves the store unchanged |
| Clients.UpdateKeepsUnmentioned | backend/src/controllers/clientController.js:235-258 | a successful update keeps every column the body did not supply |
| Clients.DeleteClient | backend/src/controllers/clientController.js:260-271 | 204 removing exactly that client when it exists; otherwise 404 and no change |
| Notes.ToTrimmedString | backend/src/controllers/commentController.js:3-4 | a non-string gives `''`; a string gives its trim |
| Notes.NormalizeMentionRecord | backend/src/controllers/commentController.js:6-43 | nothing for values that are neither string nor object and for blank strings; a label for a non-blank string; an object is dropped exactly when id is falsy and name and email are blank |
| Notes.MentionIdPrecedence | backend/src/controllers/commentController.js:20-25 | the id is the first non-nullish of id, userId, value and email, else null |
| Notes.MentionName | backend/src/controllers/commentController.js:26-29 | the name is the first non-blank trimmed of name, fullName and label |
| Notes.RecordFields | backend/src/controllers/commentController.js:36-42 | a kept object has its id and role and avatar stringified when truthy, its name and email null when blank |
| Notes.EmailStandsInForId | backend/src/controllers/commentController.js:20-30 | `{name, email}` gets the email as its id |
| Notes.ReadBack | backend/src/controllers/commentController.js:6-43 | a stored canonical mention reads back as itself |
| Notes.LabelReadBack | backend/src/controllers/commentController.js:11-14 | a stored string mention reads back as a person with only a name |
| Notes.KeepMentions | backend/src/controllers/commentController.js:56-58 | the kept mentions are no more than the inputs, and none is null |
| Notes.KeepMentionsAppend | backend/src/controllers/commentController.js:56-58 | keeping distributes over concatenation |
| Notes.NormalizeMentions | backend/src/controllers/commentController.js:45-59 | a falsy input gives `[]`; an input that is neither array nor string gives `[]`; every kept mention is well formed |
| Notes.StringMentionsSplit | backend/src/controllers/commentController.js:45-58 | for any list of comma-free, trimmed, non-empty pieces, the string joining them with commas gives one label per piece, in order |
| Notes.NormalizeMentionsDropsBlank | backend/src/controllers/commentController.js:56-58 | null, undefined and empty entries are dropped without affecting the rest |
| Notes.NormalizeMentionsReadBack | backend/src/controllers/commentController.js:45-59 | normalising a stored list of canonical mentions gives the same list |
| Notes.BuildNoteResponse | backend/src/controllers/commentController.js:61-71 | mentions are always an array; an array is kept unchanged; the other columns are copied |
| Notes.ResponseNormalizesMentions | backend/src/controllers/commentController.js:63-65 | non-array mentions are replaced by their normalisation |
| Notes.SanitizeTake | backend/src/controllers/commentController.js:96-98 | a page size exists exactly when the limit is a positive integer; it lies in [1, 100], and equals the limit up to 100 |
| Notes.TakeExamples | backend/src/controllers/commentController.js:96-98 | 1000 is clamped to 100; missing, 0, negative and fractional limits give no page size |
| Notes.GetNotesByClient | backend/src/controllers/commentController.js:81-111 | 400 for an empty client id, 404 unless the caller owns the client, otherwise the listing query with the clamped page size |
| Notes.GetNoteById | backend/src/controllers/commentController.js:113-124 | found exactly when the note's client is the caller's; mentions are an array and the other columns are copied |
| Notes.CreateNote | backend/src/controllers/commentController.js:126-171 | 400 for no client id, then 404 unless the client is owned, then 400 for blank content; then 500 exactly when the id is taken or the row is not storable, and 201 inserting the note in every other case; nothing changes unless 201 |
| Notes.NoteRowColumns | backend/src/controllers/commentController.js:152-159 | the stored note holds the client, content and author id given, and the author name `name \|\| username`, which is left out when undefined |
| Notes.CreatedNoteIsTheCallers | backend/src/controllers/commentController.js:152-159 | the created note carries the caller as author and trimmed non-empty content, and the caller owns it |
| Notes.OwnershipBeforeContent | backend/src/controllers/commentController.js:136-147 | an unowned client answers 404 whatever the content |
| Notes.NoteChanges | backend/src/controllers/commentController.js:174-193 | the update holds exactly the supplied fields among content, mentions and authorName |
| Notes.AuthorNameChange | backend/src/controllers/commentController.js:191-193 | a blank author name becomes null |
| Notes.UpdateNote | backend/src/controllers/commentController.js:173-221 | blank content answers 400, then no field answers 400, both before the ownership check gives 404; otherwise the changes are merged |
| Notes.EmptyUpdateIsRejected | backend/src/controllers/commentController.js:195-199 | a body with none of the three fields answers 400 and changes nothing |
| Notes.UpdateKeepsClientAndAuthor | backend/src/controllers/commentController.js:201-210 | an update keeps the note's client and author, so the caller still owns it |
| Notes.DeleteNote | backend/src/controllers/commentController.js:223-243 | 204 removing exactly that note when the caller owns its client; otherwise 404 and no change |
| Notes.DeleteTwice | backend/src/controllers/commentController.js:223-243 | deleting the same note twice answers 204 and then 404 |
| Transactions.BuildTransactionResponse | backend/src/controllers/transactionController.js:6-14 | null for no record; otherwise it adds only value, unit value and client name, and copies every other column |
| Transactions.ResponseColumns | backend/src/controllers/transactionController.js:6-14 | value is numeric and 0 for null or undefined; unit value is null exactly when missing; the client name is never missing |
| Transactions.ListedTransaction | backend/src/controllers/transactionController.js:6-32 | a listed transaction keeps its stored columns, gains the linked client, and its client name comes from that client first |
| Transactions.GetAllTransactions | backend/src/controllers/transactionController.js:25-37 | exactly the caller's transactions are listed, each carrying the caller's id, its linked client, and the client name taken from that client first |
| Transactions.RowOwnerAndClient | backend/src/controllers/transactionController.js:53-74 | the created row belongs to the caller and to the requested client |
| Transactions.RowDefaults | backend/src/controllers/transactionController.js:57-60 | product, unit value and quantity default to null, and value defaults to 0 |
| Transactions.RowDates | backend/src/controllers/transactionController.js:61-69 | falsy reservation and liquidation dates become null, and a falsy timestamp becomes now |
| Transactions.CreateTransaction | backend/src/controllers/transactionController.js:39-82 | 400 exactly when clientId, type or status is falsy; then 404 unless the client is owned; then insert or 500; nothing changes unless 201 |
| Transactions.CreateIsolated | backend/src/controllers/transactionController.js:39-82 | a created transaction is the caller's, on a client the caller owns, and no other user's row changes |
| Transactions.UpdateTransaction | backend/src/controllers/transactionController.js:84-115 | 404 unless owned; then 404 when a different truthy client is not the caller's; otherwise the body is merged |
| Transactions.SameClientNotRechecked | backend/src/controllers/transactionController.js:95-100 | naming the current client again skips the client check |
| Transactions.UpdateIsolated | backend/src/controllers/transactionController.js:84-115 | an update changes no other user's row |
| Transactions.UpdateCanReassignOwner | backend/src/controllers/transactionController.js:102-106 | a body carrying `ownerId` hands the transaction to that user |
| Transactions.DeleteTransaction | backend/src/controllers/transactionController.js:117-135 | 204 removing exactly that row when owned; otherwise 404 and no change |
| Transactions.DeleteTwice | backend/src/controllers/transactionController.js:117-135 | the second delete of the same id answers 404, and the first touches no other user's row |
| Opportunities.BuildOpportunityResponse | backend/src/controllers/opportunityController.js:6-13 | null for no record; otherwise it adds only estimated value and client name, and copies every other column |
| Opportunities.ResponseColumns | backend/src/controllers/opportunityController.js:6-13 | estimated value is numeric and 0 for null or undefined; the client name is never missing |
| Opportunities.ListedOpportunity | backend/src/controllers/opportunityController.js:6-31 | a listed opportunity keeps its stored columns, gains the linked client, and its client name comes from that client first |
| Opportunities.GetAllOpportunities | backend/src/controllers/opportunityController.js:24-36 | exactly the caller's opportunities are listed, each carrying the caller's id, its linked client, and the client name taken from that client first |
| Opportunities.RowOwnerAndClient | backend/src/controllers/opportunityController.js:52-66 | the created row belongs to the caller and to the requested client |
| Opportunities.RowDefaults | backend/src/controllers/opportunityController.js:57-62 | estimated value uses `\|\| 0`, probability uses `?? 0` (an explicit 0 is kept), and a falsy close date becomes null |
| Opportunities.CreateOpportunity | backend/src/controllers/opportunityController.js:38-74 | 400 exactly when title, clientId or stage is falsy; then 404 unless the client is owned; then insert or 500 |
| Opportunities.CreateIsolated | backend/src/controllers/opportunityController.js:38-74 | a created opportunity is the caller's, on a client the caller owns, and no other user's row changes |
| Opportunities.UpdateOpportunity | backend/src/controllers/opportunityController.js:76-107 | 404 unless owned; then 404 when a changed truthy client is not the caller's; otherwise the body is merged |
| Opportunities.UnchangedClientNotRechecked | backend/src/controllers/opportunityController.js:87-92 | with no client or the same client, an owned opportunity is always updated |
| Opportunities.UpdateIsolated | backend/src/controllers/opportunityController.js:76-107 | an update changes no other user's row |
| Opportunities.DeleteOpportunity | backend/src/controllers/opportunityController.js:109-128 | 204 removing exactly that row when owned; otherwise 404 and no change |
| Opportunities.DeleteTwice | backend/src/controllers/opportunityController.js:109-128 | the second delete of the same id answers 404, and the first touches no other user's row |
| Activities.GetAllActivities | backend/src/controllers/activityController.js:43-54 | exactly the caller's activities are listed, each as stored |
| Activities.ValidateRelations | backend/src/controllers/activityController.js:20-41 | a truthy client id not owned fails as client first; only then a truthy opportunity id not owned fails as opportunity; falsy ids are skipped |
| Activities.AcceptedRelationsOwned | backend/src/controllers/activityController.js:20-41 | after validation passes, every truthy relation id is the caller's |
| Activities.RowColumns | backend/src/controllers/activityController.js:67-81 | the row is the caller's; client and opportunity default to null; guests are stored as given or `[]`, never split |
| Activities.RowDueDate | backend/src/controllers/activityController.js:76 | the due date is the parsed date, unvalidated |
| Activities.CreateActivity | backend/src/controllers/activityController.js:56-88 | 400 exactly when a required field is falsy; then the relation 404s; then 500 exactly when the id is taken or the row holds an Invalid Date, and 201 inserting the row in every other case |
| Activities.UnparseableDueDateIs500 | backend/src/controllers/activityController.js:56-88 | a valid request whose due date does not parse ends in 500 and changes nothing |
| Activities.CreateIsolated | backend/src/controllers/activityController.js:56-88 | a created activity is the caller's, and no other user's row changes |
| Activities.UpdateActivity | backend/src/controllers/activityController.js:90-113 | 404 unless owned; then the relation checks; otherwise the body is merged |
| Activities.SameClientRechecked | backend/src/controllers/activityController.js:96-99 | an unchanged client id that the caller no longer owns still answers 404 |
| Activities.OwnershipBeforeRelations | backend/src/controllers/activityController.js:92-95 | an unowned activity answers 404 before any relation is looked at |
| Activities.UpdateIsolated | backend/src/controllers/activityController.js:90-113 | an update changes no other user's row |
| Activities.DeleteActivity | backend/src/controllers/activityController.js:115-131 | 204 removing exactly that row when owned; otherwise 404 and no change |
| Activities.DeleteTwice | backend/src/controllers/activityController.js:115-131 | the second delete of the same id answers 404, and the first touches no other user's row |
| Origins.NormalizeOrigin | backend/src/index.js:20-21 | the normal form contains no upper-case letter and is no longer than the input |
| Origins.NormalizeIgnoresCase | backend/src/index.js:20-21 | an origin and its lower-case form normalise alike |
| Origins.NormalizeIgnoresTrailingSlash | backend/src/index.js:20-21 | one trailing slash makes no difference to the normal form |
| Origins.EscapeChar | backend/src/index.js:23-24 | each of the fifteen special characters is preceded by a backslash, and every other character is kept |
| Origins.CompiledIsGlob | backend/src/index.js:23-24 | the regular expression built from an entry is the entry with each star as `.*` and every other character literal |
| Origins.FillMatches | backend/src/index.js:45-52 | every filling of an entry's stars with line-terminator-free text matches the compiled pattern |
| Origins.MatchFills | backend/src/index.js:45-52 | every string the compiled pattern matches is such a filling |
| Origins.PatternAcceptsFillings | backend/src/index.js:45-52 | a compiled wildcard pattern accepts exactly the fillings of its entry |
| Origins.RawOrigins | backend/src/index.js:32-37 | the list never holds an empty entry, and holds exactly the non-empty normal forms of the defaults and the configured pieces |
| Origins.ExactOrigins | backend/src/index.js:41-43 | the exact entries are exactly the listed entries without a star |
| Origins.WildcardEntries | backend/src/index.js:45-52 | the compiled entries are exactly the listed entries with a star, other than a lone star |
| Origins.AllowedIff | backend/src/index.js:54-68 | an origin passes exactly when it is empty or `null`, the list holds `*`, its normal form is an exact entry, or that form fills a wildcard entry |
| Origins.OnlyDefaultsWhenUnset | backend/src/index.js:26-37 | with the variable unset, exactly the three defaults pass |
| Origins.DefaultsAllowed | backend/src/index.js:26-30 | the three local development origins always pass |
| Origins.ConfiguredOriginAllowed | backend/src/index.js:32-43 | an origin whose normal form is that of a configured star-free entry passes |
| Origins.StarAllowsAll | backend/src/index.js:39 | a configured lone star lets every origin through |
| Origins.CaseInsensitive | backend/src/index.js:59-63 | letter case makes no difference to the answer |
| Origins.TrailingSlashIgnored | backend/src/index.js:59-63 | a trailing slash makes no difference to the answer |
| DatabaseUrl.Candidate | backend/src/lib/prisma.js:19-25 | production reads `DATABASE_URL`; otherwise a non-empty `LOCAL_DATABASE_URL` wins and `DATABASE_URL` is the fallback |
| DatabaseUrl.PickDatabaseUrl | backend/src/lib/prisma.js:8-34 | the choice fails exactly when the candidate trims to nothing; otherwise the URL is the candidate with surrounding whitespace removed, and is non-empty |
| DatabaseUrl.ProductionIgnoresLocal | backend/src/lib/prisma.js:21-23 | in production, setting or unsetting `LOCAL_DATABASE_URL` changes nothing |
| DatabaseUrl.LocalWinsInDevelopment | backend/src/lib/prisma.js:24 | outside production a non-blank local URL is used, trimmed |
| DatabaseUrl.BlankLocalShadowsDatabaseUrl | backend/src/lib/prisma.js:24-31 | outside production a whitespace-only local URL still shadows `DATABASE_URL` and startup fails |
| DatabaseUrl.FallbackToDatabaseUrl | backend/src/lib/prisma.js:24 | outside production, with no local URL, `DATABASE_URL` is used, trimmed |
| DatabaseUrl.NodeEnvSpellingIrrelevant | backend/src/lib/prisma.js:12-13 | upper case or surrounding spaces in `NODE_ENV` change nothing |

## Left out

- Express routing, the CORS middleware, sessions, passport and `app.listen`: these are framework plumbing. Only the origin decision is modelled.
- Loading the `.env` file when neither URL is set (backend/src/lib/prisma.js:4-6): this is I/O. The environment is a parameter.
- Prisma itself: every store call becomes a pure map operation.
  - The P2025 error, raised when a row is deleted between a check and the write, cannot arise here, because nothing runs concurrently.
  - Referential integrity is not modelled. The database's foreign keys can reject a write, and the source answers 500 (a P2003 error), except in `createNote`, which maps P2003 to 404 (backend/src/controllers/commentController.js:164-168); there the error needs the client to disappear after the ownership check, which the item above rules out. The model has no foreign keys and lets the write through. The members that differ are listed below.
  - A lookup by a non-string id is treated as "not found".
  - Prisma's rejection of unknown body fields on update is not modelled: `BodyData` writes every defined body field.
- Ordering of the top-level listings (`createdAt`, `timestamp` or `dueDate` descending): a listing is a map from id to response. The notes joined into a client are ordered, by the `newestFirst` parameter, because their order decides which ones the page keeps.
- The responses of create and update: they carry the same joins as the reads, but a reply here is its status and the new store, not the response body.
- `Number()`, `String()`, `new Date()` and the clock are not modelled. Parsing and printing come from the `Runtime` parameter, and the current time is an argument.
- Floating point is not modelled. Numbers are exact reals, and NaN is its own value.
- The error-message texts and console logging: a reply is its status and the entity or problem it names.
- The AI, search and route files are not part of this model.
- `buildNoteResponse(null)` is not modelled: every call site passes a stored note.
- Clients.GetAllClients: returns a map from id to response. It does not model the newest-first order of the array.
- Clients.NotesOf: takes the newest-first order as a parameter. It does not derive that order from `createdAt`, which is not compared. The readers that use it require the order to list every stored note exactly once (`NoteOrder`).
- Clients.CreateClient: a `partnerId` that names no stored partner fails the partner foreign key, and the source answers 500 (backend/src/controllers/clientController.js:117, 224-231). The model answers Created, and reads of the client then link no partner.
- Clients.UpdateClient: a `partnerId` that names no stored partner makes the source answer 500. The model merges it.
- Clients.DeleteClient: a client that still has notes, transactions, opportunities or activities is either blocked by the store (500) or cascades, depending on the schema, which is not part of this model. The model answers 204, removes only the client row, and leaves those rows naming a client that no longer exists.
- Transactions.UpdateTransaction: a falsy but defined `clientId` such as `""` skips the client check and is written (backend/src/controllers/transactionController.js:95-106). The foreign key then makes the source answer 500, and the model answers Ok. An `ownerId` naming no user fails the same way.
- Opportunities.UpdateOpportunity: the same gap as Transactions.UpdateTransaction, for `clientId: ""` (backend/src/controllers/opportunityController.js:87-98).
- Activities.UpdateActivity: the same gap for `clientId: ""` or `opportunityId: ""`, which the relation checks skip and `data: req.body` writes (backend/src/controllers/activityController.js:21-29, 101-104).
- Notes.GetNotesByClient: returns the listing query (client id and page size), not the notes the store would return for it.
- JsString.ToLower: handles ASCII letters only. The configured origins and `NODE_ENV` values this code compares are ASCII.

=== FILE: activities.dfy ===
/** The activity controller: the relation check shared by create and update,
    and the owner-guarded create, update and delete transitions over the
    activity table. An activity answer is the stored row itself. */
module Activities {
  import opened Wrappers
  import opened JsValue
  import opened Store

  // ------------------------------------------------------------ relations

  /** `getAllActivities`: the caller's activities as stored
      (`buildActivityResponse` returns its argument unchanged). */
  function GetAllActivities(db: Db, user: string): (r: map<string, Row>)
    ensures forall id :: id in r <==> Owned(db.activities, Str(id), user)
    ensures forall id :: id in r ==> id in db.activities && r[id] == db.activities[id]
  {
    map id | id in ListOwned(db.activities, user) :: db.activities[id]
  }

  /** `validateActivityRelations`: `None` when the body's relations are
      acceptable, otherwise the entity the 404 names. A falsy id is not
      checked; the client is checked before the opportunity. */
  function ValidateRelations(db: Db, body: Value, user: string): (r: Option<Entity>)
    ensures r == Some(ClientEntity) <==> Truthy(Get(body, "clientId")) && !Owned(db.clients, Get(body, "clientId"), user)
    ensures r == Some(OpportunityEntity) <==>
      !(Truthy(Get(body, "clientId")) && !Owned(db.clients, Get(body, "clientId"), user))
      && Truthy(Get(body, "opportunityId")) && !Owned(db.opportunities, Get(body, "opportunityId"), user)
    ensures r.None? || r == Some(ClientEntity) || r == Some(OpportunityEntity)
  {
    var clientId, opportunityId := Get(body, "clientId"), Get(body, "opportunityId");
    if Truthy(clientId) && !Owned(db.clients, clientId, user) then Some(ClientEntity)
    else if Truthy(opportunityId) && !Owned(db.opportunities, opportunityId, user) then Some(OpportunityEntity)
    else None
  }

  /** Accepted relations are the caller's: a named client and a named
      opportunity are both owned by the caller. */
  lemma AcceptedRelationsOwned(db: Db, body: Value, user: string)
    requires ValidateRelations(db, body, user).None?
    ensures Truthy(Get(body, "clientId")) ==> Owned(db.clients, Get(body, "clientId"), user)
    ensures Truthy(Get(body, "opportunityId")) ==> Owned(db.opportunities, Get(body, "opportunityId"), user)
  {
  }

  // ------------------------------------------------------------ create

  /** The required body fields of `createActivity`. */
  predicate HasRequired(body: Value) {
    && Truthy(Get(body, "title")) && Truthy(Get(body, "dueDate")) && Truthy(Get(body, "priority"))
    && Truthy(Get(body, "status")) && Truthy(Get(body, "type"))
  }

  /** The columns `createActivity` writes, before `undefined` ones are
      dropped. */
  function ActivityData(body: Value, user: string, rt: Runtime): map<string, Value> {
    map[
      "title" := Get(body, "title"),
      "type" := Get(body, "type"),
      "clientId" := Or(Get(body, "clientId"), Null),
      "opportunityId" := Or(Get(body, "opportunityId"), Null),
      "assessor" := Get(body, "assessor"),
      "guests" := Or(Get(body, "guests"), Arr([])),
      "location" := Get(body, "location"),
      "dueDate" := NewDate(Get(body, "dueDate"), rt),
      "priority" := Get(body, "priority"),
      "status" := Get(body, "status"),
      "notes" := Get(body, "notes"),
      "ownerId" := Str(user)]
  }

  /** The row `createActivity` stores. */
  function ActivityRow(body: Value, user: string, rt: Runtime): Row {
    Defined(ActivityData(body, user, rt))
  }

  /** The row is stamped with the caller; missing relations are `null`, and
      `guests` is stored as given (a string is not split), `[]` when falsy. */
  lemma RowColumns(body: Value, user: string, rt: Runtime)
    ensures var row := ActivityRow(body, user, rt);
      && Col(row, "ownerId") == Str(user)
      && Col(row, "clientId") == (if Truthy(Get(body, "clientId")) then Get(body, "clientId") else Null)
      && Col(row, "opportunityId") == (if Truthy(Get(body, "opportunityId")) then Get(body, "opportunityId") else Null)
      && Col(row, "guests") == (if Truthy(Get(body, "guests")) then Get(body, "guests") else Arr([]))
  {
    var data := ActivityData(body, user, rt);
    assert data["ownerId"] == Str(user);
    assert data["clientId"] == Or(Get(body, "clientId"), Null);
    assert data["opportunityId"] == Or(Get(body, "opportunityId"), Null);
    assert data["guests"] == Or(Get(body, "guests"), Arr([]));
  }

  /** The due date is parsed and not validated: whatever `new Date` makes of
      it is what the store is asked to keep. */
  lemma RowDueDate(body: Value, user: string, rt: Runtime)
    ensures Col(ActivityRow(body, user, rt), "dueDate") == NewDate(Get(body, "dueDate"), rt)
  {
    assert ActivityData(body, user, rt)["dueDate"] == NewDate(Get(body, "dueDate"), rt);
  }

  /** `createActivity`: 400 when a required field is falsy, then 404 for the
      first relation the caller does not own, then 500 when the store refuses
      the row (an unparseable due date among others), else the row is added. */
  function CreateActivity(db: Db, body: Value, user: string, newId: string, rt: Runtime): (o: Outcome)
    ensures o.reply in {Created, BadRequest(MissingRequired), NotFound(ClientEntity), NotFound(OpportunityEntity), ServerError}
    ensures o.reply != Created ==> o.db == db
    ensures o.reply == BadRequest(MissingRequired) <==> !HasRequired(body)
    ensures o.reply == NotFound(ClientEntity) <==> HasRequired(body) && ValidateRelations(db, body, user) == Some(ClientEntity)
    ensures o.reply == NotFound(OpportunityEntity) <==>
      HasRequired(body) && ValidateRelations(db, body, user) == Some(OpportunityEntity)
    ensures o.reply == ServerError <==>
      HasRequired(body) && ValidateRelations(db, body, user).None?
      && (newId in db.activities || !Storable(ActivityRow(body, user, rt)))
    ensures o.reply == Created ==>
      o.db == db.(activities := db.activities[newId := ActivityRow(body, user, rt)])
  {
    if !HasRequired(body) then Outcome(BadRequest(MissingRequired), db)
    else
      match ValidateRelations(db, body, user)
      case Some(e) => Outcome(NotFound(e), db)
      case None =>
        match Insert(db.activities, newId, ActivityRow(body, user, rt))
        case None => Outcome(ServerError, db)
        case Some(t) => Outcome(Created, db.(activities := t))
  }

  /** A due date that does not parse passes validation and is refused by the
      store: the answer is 500, not 400. */
  lemma UnparseableDueDateIs500(db: Db, body: Value, user: string, newId: string, rt: Runtime)
    requires HasRequired(body) && ValidateRelations(db, body, user).None?
    requires NewDate(Get(body, "dueDate"), rt).InvalidDate?
    ensures CreateActivity(db, body, user, newId, rt) == Outcome(ServerError, db)
  {
    RowDueDate(body, user, rt);
    assert !Storable(ActivityRow(body, user, rt));
  }

  /** A created activity belongs to the caller and no other user's activity
      is touched. */
  lemma CreateIsolated(db: Db, body: Value, user: string, newId: string, rt: Runtime)
    requires CreateActivity(db, body, user, newId, rt).reply == Created
    ensures var db' := CreateActivity(db, body, user, newId, rt).db;
      Isolated(db.activities, db'.activities, user) && Owned(db'.activities, Str(newId), user)
  {
    RowColumns(body, user, rt);
    AdditionIsolated(db.activities, newId, ActivityRow(body, user, rt), user);
  }

  // ------------------------------------------------------------ update

  /** `updateActivity`: 404 unless the caller owns the activity, then the
      relation check, then the body's fields are written over the row. */
  function UpdateActivity(db: Db, id: string, body: Value, user: string): (o: Outcome)
    ensures o.reply in {Ok, NotFound(ActivityEntity), NotFound(ClientEntity), NotFound(OpportunityEntity)}
    ensures o.reply != Ok ==> o.db == db
    ensures o.reply == NotFound(ActivityEntity) <==> !Owned(db.activities, Str(id), user)
    ensures o.reply == NotFound(ClientEntity) <==>
      Owned(db.activities, Str(id), user) && ValidateRelations(db, body, user) == Some(ClientEntity)
    ensures o.reply == NotFound(OpportunityEntity) <==>
      Owned(db.activities, Str(id), user) && ValidateRelations(db, body, user) == Some(OpportunityEntity)
    ensures o.reply == Ok ==>
      o.db == db.(activities := db.activities[id := Merge(db.activities[id], BodyData(body))])
  {
    if !Owned(db.activities, Str(id), user) then Outcome(NotFound(ActivityEntity), db)
    else
      match ValidateRelations(db, body, user)
      case Some(e) => Outcome(NotFound(e), db)
      case None => Outcome(Ok, db.(activities := db.activities[id := Merge(db.activities[id], BodyData(body))]))
  }

  /** Unlike transactions and opportunities, an update re-checks the client
      even when the body repeats the activity's current one: a client the
      caller no longer owns makes the update a 404. */
  lemma SameClientRechecked(db: Db, id: string, body: Value, user: string)
    requires Owned(db.activities, Str(id), user)
    requires Get(body, "clientId") == Col(db.activities[id], "clientId")
    requires Truthy(Get(body, "clientId")) && !Owned(db.clients, Get(body, "clientId"), user)
    ensures UpdateActivity(db, id, body, user) == Outcome(NotFound(ClientEntity), db)
  {
  }

  /** Ownership of the activity is checked first: someone else's activity is
      a 404 for the activity whatever relations the body names. */
  lemma OwnershipBeforeRelations(db: Db, id: string, body: Value, user: string)
    requires !Owned(db.activities, Str(id), user)
    ensures UpdateActivity(db, id, body, user) == Outcome(NotFound(ActivityEntity), db)
  {
  }

  /** An update changes only the caller's own activity. */
  lemma UpdateIsolated(db: Db, id: string, body: Value, user: string)
    requires UpdateActivity(db, id, body, user).reply == Ok
    ensures Isolated(db.activities, UpdateActivity(db, id, body, user).db.activities, user)
  {
    RewriteIsolated(db.activities, id, Merge(db.activities[id], BodyData(body)), user);
  }

  // ------------------------------------------------------------ delete

  /** `deleteActivity`: 404 unless the caller owns the activity, and otherwise
      204 removing exactly that row. */
  function DeleteActivity(db: Db, id: string, user: string): (o: Outcome)
    ensures o.reply == NoContent <==> Owned(db.activities, Str(id), user)
    ensures o.reply != NoContent ==> o == Outcome(NotFound(ActivityEntity), db)
    ensures o.reply == NoContent ==> o.db == db.(activities := db.activities - {id})
  {
    if Owned(db.activities, Str(id), user) then Outcome(NoContent, db.(activities := db.activities - {id}))
    else Outcome(NotFound(ActivityEntity), db)
  }

  /** Deleting the same activity twice answers 204 and then 404, and the
      removal touches no other user's activity. */
  lemma DeleteTwice(db: Db, id: string, user: string)
    requires Owned(db.activities, Str(id), user)
    ensures DeleteActivity(db, id, user).reply == NoContent
    ensures Isolated(db.activities, DeleteActivity(db, id, user).db.activities, user)
    ensures var db' := DeleteActivity(db, id, user).db;
      DeleteActivity(db', id, user) == Outcome(NotFound(ActivityEntity), db')
  {
    RemovalIsolated(db.activities, id, user);
  }
}

=== FILE: clients.dfy ===
/** The client controller: the normalisation of a loosely typed request body into
    a client row (`buildClientData` and its helpers), the response shaping of a
    stored client, the note-join query, and the create/update/delete decisions.
    Clients are never filtered by owner: no operation here takes the caller. */
module Clients {
  import opened Wrappers
  import opened JsString
  import opened JsValue
  import opened Store

  // ------------------------------------------------------------ note join query

  /** How many notes the list and detail views join onto a client. */
  const ListNoteLimit: Value := Num(5.0)
  const DetailNoteLimit: Value := Num(50.0)

  /** The relations `buildClientInclude` asks the store to join: the partner,
      and the client's notes newest first, at most `take` of them. */
  datatype Include = Include(partner: bool, notesNewestFirst: bool, take: Option<int>)

  function BuildClientInclude(noteLimit: Value): (inc: Include)
    ensures inc.partner && inc.notesNewestFirst
    ensures inc.take.Some? <==> IsInteger(noteLimit) && noteLimit.n > 0.0
    ensures inc.take.Some? ==> inc.take.value >= 1 && inc.take.value as real == noteLimit.n
  {
    var take := if IsInteger(noteLimit) && noteLimit.n > 0.0 then Some(noteLimit.n.Floor) else None;
    Include(true, true, take)
  }

  /** The list view joins five notes and the detail view fifty. */
  lemma ViewIncludes()
    ensures BuildClientInclude(ListNoteLimit).take == Some(5)
    ensures BuildClientInclude(DetailNoteLimit).take == Some(50)
  {
  }

  // ------------------------------------------------------------ response shaping

  /** A joined note with its `mentions` forced to an array. */
  function ShapeNote(note: Value): (r: Value)
    ensures r.Obj? && "mentions" in r.fields && r.fields["mentions"].Arr?
    ensures Get(note, "mentions").Arr? ==> r.fields["mentions"] == Get(note, "mentions")
    ensures forall k :: k in Fields(note) && k != "mentions" ==> k in r.fields && r.fields[k] == Fields(note)[k]
  {
    var mentions := Get(note, "mentions");
    Obj(Fields(note)["mentions" := if mentions.Arr? then mentions else Arr([])])
  }

  /** `buildCollaborationNotes`: always an array, every note carrying an array
      of mentions, an array of mentions kept as it is. */
  function BuildCollaborationNotes(notes: Value): (r: Value)
    ensures r.Arr?
    ensures !notes.Arr? ==> r.items == []
    ensures notes.Arr? ==> |r.items| == |notes.items|
    ensures forall i :: 0 <= i < |r.items| ==> Get(r.items[i], "mentions").Arr?
    ensures notes.Arr? ==> forall i :: 0 <= i < |r.items| ==>
      Get(notes.items[i], "mentions").Arr? ==> Get(r.items[i], "mentions") == Get(notes.items[i], "mentions")
  {
    if !notes.Arr? then Arr([])
    else Arr(seq(|notes.items|, i requires 0 <= i < |notes.items| => ShapeNote(notes.items[i])))
  }

  /** The financial profile a response shows when none is stored. */
  const DefaultFinancialProfile: Value := Obj(map[
    "investorProfile" := Str("Moderado"),
    "assetPreferences" := Arr([]),
    "financialNeeds" := Arr([]),
    "meetingAgendaSuggestions" := Arr([])])

  /** The columns `buildClientResponse` writes over the stored row. */
  function ResponseOverlay(row: Row, rt: Runtime): (m: map<string, Value>)
    ensures m.Keys == ShapedColumns
  {
    map[
      "walletValue" := NumberOrZero(Col(row, "walletValue"), rt),
      "financialProfile" := Or(Col(row, "financialProfile"), DefaultFinancialProfile),
      "address" := Or(Col(row, "address"), Null),
      "contactPersons" := Or(Col(row, "contactPersons"), Arr([])),
      "partners" := Or(Col(row, "partnerData"), Arr([])),
      "interactionHistory" := Or(Col(row, "interactionHistory"), Arr([])),
      "reminders" := Or(Col(row, "reminders"), Arr([])),
      "partner" := Or(Col(row, "partner"), Null),
      "collaborationNotes" := BuildCollaborationNotes(Col(row, "collaborationNotes"))]
  }

  /** The wallet value always reads as a number, and a missing one as zero. */
  lemma OverlayWallet(row: Row, rt: Runtime)
    ensures var m := ResponseOverlay(row, rt);
      && (Col(m, "walletValue").Num? || Col(m, "walletValue").NaN?)
      && (Nullish(Col(row, "walletValue")) ==> Col(m, "walletValue") == Num(0.0))
  {
  }

  /** `partners` reads the stored `partnerData`, and the list fields and the
      financial profile are never falsy. */
  lemma OverlayLists(row: Row, rt: Runtime)
    ensures var m := ResponseOverlay(row, rt);
      && Col(m, "partners") == (if Truthy(Col(row, "partnerData")) then Col(row, "partnerData") else Arr([]))
      && Truthy(Col(m, "financialProfile")) && Truthy(Col(m, "contactPersons"))
      && Truthy(Col(m, "interactionHistory")) && Truthy(Col(m, "reminders"))
  {
  }

  lemma OverlayNotes(row: Row, rt: Runtime)
    ensures Col(ResponseOverlay(row, rt), "collaborationNotes") == BuildCollaborationNotes(Col(row, "collaborationNotes"))
  {
  }

  /** The keys `buildClientResponse` rewrites; all others are copied. */
  const ShapedColumns: set<string> := {
    "walletValue", "financialProfile", "address", "contactPersons", "partners",
    "interactionHistory", "reminders", "partner", "collaborationNotes"}

  /** `buildClientResponse`: `null` for no client; otherwise the stored row with
      a numeric wallet value, non-null list fields, `partners` read from
      `partnerData`, and every joined note carrying an array of mentions. */
  function BuildClientResponse(client: Option<Row>, rt: Runtime): (r: Value)
    ensures client.None? <==> r == Null
    ensures client.Some? ==> r.Obj? && r.fields.Keys == client.value.Keys + ShapedColumns
    ensures client.Some? ==>
      && (Get(r, "walletValue").Num? || Get(r, "walletValue").NaN?)
      && (Nullish(Col(client.value, "walletValue")) ==> Get(r, "walletValue") == Num(0.0))
      && Get(r, "partners") == (if Truthy(Col(client.value, "partnerData")) then Col(client.value, "partnerData") else Arr([]))
      && Truthy(Get(r, "contactPersons")) && Truthy(Get(r, "interactionHistory")) && Truthy(Get(r, "reminders"))
      && Truthy(Get(r, "financialProfile"))
    ensures client.Some? ==> Get(r, "collaborationNotes").Arr?
    ensures client.Some? ==> forall i :: 0 <= i < |Get(r, "collaborationNotes").items| ==>
      Get(Get(r, "collaborationNotes").items[i], "mentions").Arr?
    ensures client.Some? ==> forall k :: k in client.value && k !in ShapedColumns ==> Get(r, k) == client.value[k]
  {
    match client
    case None => Null
    case Some(row) =>
      OverlayWallet(row, rt);
      OverlayLists(row, rt);
      OverlayNotes(row, rt);
      Obj(row + ResponseOverlay(row, rt))
  }

  // ------------------------------------------------------------ joined reads

  /** No id occurs twice. */
  predicate Distinct(s: seq<string>) {
    forall i, j :: 0 <= i < j < |s| ==> s[i] != s[j]
  }

  /** `newestFirst` orders the note table: it lists every stored note id, and
      each exactly once. The store orders notes by `createdAt`, newest first;
      that order is the store's and is taken as a parameter. */
  ghost predicate NoteOrder(notes: Table, newestFirst: seq<string>) {
    Distinct(newestFirst) && forall id :: id in notes <==> id in newestFirst
  }

  /** The ids of the stored notes that belong to a client. */
  function ClientNoteIds(notes: Table, clientId: string): set<string> {
    set id | id in notes && Col(notes[id], "clientId") == Str(clientId)
  }

  /** The ids of a client's notes in the order `newestFirst` lists note ids. */
  function NotesOf(notes: Table, clientId: string, newestFirst: seq<string>): (ids: seq<string>)
    ensures |ids| <= |newestFirst|
    ensures forall i :: 0 <= i < |ids| ==> ids[i] in notes && Col(notes[ids[i]], "clientId") == Str(clientId)
    ensures forall id :: id in ids <==> id in newestFirst && id in notes && Col(notes[id], "clientId") == Str(clientId)
    ensures Distinct(newestFirst) ==> Distinct(ids)
  {
    if newestFirst == [] then []
    else
      var id := newestFirst[0];
      var rest := NotesOf(notes, clientId, newestFirst[1..]);
      assert forall x :: x in newestFirst <==> x == id || x in newestFirst[1..];
      assert Distinct(newestFirst) ==> id !in newestFirst[1..] && Distinct(newestFirst[1..]);
      if id in notes && Col(notes[id], "clientId") == Str(clientId) then [id] + rest else rest
  }

  /** Over an order of the note table, a client's notes are exactly its
      stored notes, each once. */
  lemma NotesOfClient(notes: Table, clientId: string, newestFirst: seq<string>)
    requires NoteOrder(notes, newestFirst)
    ensures var ids := NotesOf(notes, clientId, newestFirst);
      && Distinct(ids)
      && (forall id :: id in ids <==> id in ClientNoteIds(notes, clientId))
      && |ids| == |ClientNoteIds(notes, clientId)|
  {
    var ids := NotesOf(notes, clientId, newestFirst);
    DistinctCard(ids);
    assert (set x | x in ids) == ClientNoteIds(notes, clientId);
  }

  /** A sequence without repeats has as many elements as its set. */
  lemma {:induction false} DistinctCard(s: seq<string>)
    requires Distinct(s)
    ensures |set x | x in s| == |s|
  {
    if s != [] {
      var t := s[1..];
      assert Distinct(t);
      DistinctCard(t);
      assert (set x | x in s) == {s[0]} + (set x | x in t);
      assert s[0] !in t;
    }
  }

  /** A join with a page size keeps that many of a client's notes, or all of
      them when it has fewer. */
  lemma JoinedNoteCount(notes: Table, clientId: string, newestFirst: seq<string>, take: Option<int>)
    requires NoteOrder(notes, newestFirst)
    requires take.Some? ==> take.value >= 1
    ensures var n := |ClientNoteIds(notes, clientId)|;
      |JoinedNoteIds(notes, clientId, newestFirst, take)| == (if take.Some? && take.value < n then take.value else n)
  {
    NotesOfClient(notes, clientId, newestFirst);
  }

  /** The note ids a join with `take` returns: the first `take` of the
      client's notes, or all of them when there is no limit. */
  function JoinedNoteIds(notes: Table, clientId: string, newestFirst: seq<string>, take: Option<int>): (ids: seq<string>)
    ensures var all := NotesOf(notes, clientId, newestFirst);
      && |ids| <= |all| && ids == all[..|ids|]
      && (take.Some? && take.value >= 0 ==> |ids| <= take.value)
      && (take.None? || take.value < 0 || |ids| < take.value ==> ids == all)
  {
    var all := NotesOf(notes, clientId, newestFirst);
    if take.Some? && 0 <= take.value < |all| then all[..take.value] else all
  }

  /** The partner a client's `partnerId` links to, as `partner: true` joins it:
      the partner's row as an object, or `null`. */
  function LinkedPartner(db: Db, row: Row): (p: Value)
    ensures p.Obj? <==> Col(row, "partnerId").Str? && Col(row, "partnerId").s in db.partners
    ensures p.Obj? ==> p.fields == db.partners[Col(row, "partnerId").s]
    ensures !p.Obj? ==> p == Null
  {
    var id := Col(row, "partnerId");
    if id.Str? && id.s in db.partners then Obj(db.partners[id.s]) else Null
  }

  /** Note rows as objects. */
  function NoteObjects(notes: Table, ids: seq<string>): (vs: seq<Value>)
    requires forall i :: 0 <= i < |ids| ==> ids[i] in notes
    ensures |vs| == |ids| && forall i :: 0 <= i < |ids| ==> vs[i] == Obj(notes[ids[i]])
  {
    seq(|ids|, i requires 0 <= i < |ids| => Obj(notes[ids[i]]))
  }

  /** A stored client as a query with `inc` returns it: with its notes, and
      with the linked partner when `inc` asks for it. */
  function JoinClient(db: Db, id: string, inc: Include, newestFirst: seq<string>): (row: Row)
    requires id in db.clients
    ensures forall k :: k in db.clients[id] ==> k in row
    ensures forall k :: k in row && k != "collaborationNotes" && k != "partner" ==>
      k in db.clients[id] && row[k] == db.clients[id][k]
    ensures Col(row, "collaborationNotes") ==
      Arr(NoteObjects(db.notes, JoinedNoteIds(db.notes, id, newestFirst, inc.take)))
    ensures inc.partner ==> Col(row, "partner") == LinkedPartner(db, db.clients[id])
  {
    var stored := db.clients[id];
    var notes := Arr(NoteObjects(db.notes, JoinedNoteIds(db.notes, id, newestFirst, inc.take)));
    var withNotes := stored["collaborationNotes" := notes];
    if inc.partner then withNotes["partner" := LinkedPartner(db, stored)] else withNotes
  }

  /** Every note of a client, newest first, as a response shows it. */
  function ShownNotes(db: Db, id: string, newestFirst: seq<string>): (vs: seq<Value>)
    ensures |vs| == |NotesOf(db.notes, id, newestFirst)|
    ensures forall i :: 0 <= i < |vs| ==> Get(vs[i], "clientId") == Str(id) && Get(vs[i], "mentions").Arr?
  {
    var all := NotesOf(db.notes, id, newestFirst);
    seq(|all|, i requires 0 <= i < |all| => ShapeNote(Obj(db.notes[all[i]])))
  }

  /** The shaped notes of a join are the first of the client's shown notes. */
  lemma ShapedJoinedNotes(db: Db, id: string, newestFirst: seq<string>, take: Option<int>)
    ensures var ids := JoinedNoteIds(db.notes, id, newestFirst, take);
      BuildCollaborationNotes(Arr(NoteObjects(db.notes, ids))).items == ShownNotes(db, id, newestFirst)[..|ids|]
  {
    var ids := JoinedNoteIds(db.notes, id, newestFirst, take);
    var all := NotesOf(db.notes, id, newestFirst);
    var shown := ShownNotes(db, id, newestFirst);
    var r := BuildCollaborationNotes(Arr(NoteObjects(db.notes, ids)));
    forall i | 0 <= i < |ids|
      ensures r.items[i] == shown[i]
    {
      assert ids[i] == all[i];
    }
  }

  /** A stored client read with `buildClientInclude({ noteLimit })` and shaped
      by `buildClientResponse`: the stored columns and the columns shaped from
      them, the linked partner, and the first of the client's own notes,
      newest first, no more than the limit allows and all of them when fewer. */
  function ClientView(db: Db, id: string, noteLimit: Value, newestFirst: seq<string>, rt: Runtime): (r: Value)
    requires id in db.clients && NoteOrder(db.notes, newestFirst)
    ensures r.Obj? && r.fields.Keys == db.clients[id].Keys + ShapedColumns
    ensures forall k :: k in db.clients[id] && k !in ShapedColumns ==> r.fields[k] == db.clients[id][k]
    ensures forall k :: k in ShapedColumns && k != "collaborationNotes" && k != "partner" ==>
      r.fields[k] == ResponseOverlay(db.clients[id], rt)[k]
    ensures r.fields["partner"] == LinkedPartner(db, db.clients[id])
    ensures var notes := r.fields["collaborationNotes"];
      var shown := ShownNotes(db, id, newestFirst);
      var take := BuildClientInclude(noteLimit).take;
      && notes.Arr? && |notes.items| <= |shown| && notes.items == shown[..|notes.items|]
      && (take.Some? ==> |notes.items| <= take.value)
      && (take.None? || |notes.items| < take.value ==> |notes.items| == |shown|)
    ensures var n := |ClientNoteIds(db.notes, id)|;
      var take := BuildClientInclude(noteLimit).take;
      r.fields["collaborationNotes"].Arr? &&
      |r.fields["collaborationNotes"].items| == (if take.Some? && take.value < n then take.value else n)
  {
    var inc := BuildClientInclude(noteLimit);
    ViewColumns(db, id, inc, newestFirst, rt);
    ViewShaped(db, id, inc, newestFirst, rt);
    ViewNotes(db, id, inc, newestFirst, rt);
    JoinedNoteCount(db.notes, id, newestFirst, inc.take);
    BuildClientResponse(Some(JoinClient(db, id, inc, newestFirst)), rt)
  }

  lemma ViewColumns(db: Db, id: string, inc: Include, newestFirst: seq<string>, rt: Runtime)
    requires id in db.clients
    ensures var r := BuildClientResponse(Some(JoinClient(db, id, inc, newestFirst)), rt);
      && r.Obj? && r.fields.Keys == db.clients[id].Keys + ShapedColumns
      && forall k :: k in db.clients[id] && k !in ShapedColumns ==> r.fields[k] == db.clients[id][k]
  {
    var joined := JoinClient(db, id, inc, newestFirst);
    assert joined.Keys + ShapedColumns == db.clients[id].Keys + ShapedColumns;
  }

  lemma ViewShaped(db: Db, id: string, inc: Include, newestFirst: seq<string>, rt: Runtime)
    requires id in db.clients && inc.partner
    ensures var r := BuildClientResponse(Some(JoinClient(db, id, inc, newestFirst)), rt);
      && r.Obj? && ShapedColumns <= r.fields.Keys
      && (forall k :: k in ShapedColumns && k != "collaborationNotes" && k != "partner" ==>
            r.fields[k] == ResponseOverlay(db.clients[id], rt)[k])
      && r.fields["partner"] == LinkedPartner(db, db.clients[id])
  {
    var joined := JoinClient(db, id, inc, newestFirst);
    OverlayAgrees(joined, db.clients[id], rt);
    OverlayPartner(joined, rt);
  }

  lemma OverlayPartner(row: Row, rt: Runtime)
    requires Col(row, "partner").Obj? || Col(row, "partner").Null?
    ensures ResponseOverlay(row, rt)["partner"] == Col(row, "partner")
  {
  }

  lemma ViewNotes(db: Db, id: string, inc: Include, newestFirst: seq<string>, rt: Runtime)
    requires id in db.clients
    ensures var r := BuildClientResponse(Some(JoinClient(db, id, inc, newestFirst)), rt);
      && r.Obj? && "collaborationNotes" in r.fields
      && r.fields["collaborationNotes"] ==
           Arr(ShownNotes(db, id, newestFirst)[..|JoinedNoteIds(db.notes, id, newestFirst, inc.take)|])
  {
    var joined := JoinClient(db, id, inc, newestFirst);
    ShapedJoinedNotes(db, id, newestFirst, inc.take);
    OverlayNotes(joined, rt);
  }

  /** Two rows that agree on every column but the notes and the partner shape
      alike in every other column. */
  lemma OverlayAgrees(a: Row, b: Row, rt: Runtime)
    requires forall k :: k != "collaborationNotes" && k != "partner" ==> Col(a, k) == Col(b, k)
    ensures forall k :: k in ShapedColumns && k != "collaborationNotes" && k != "partner" ==>
      ResponseOverlay(a, rt)[k] == ResponseOverlay(b, rt)[k]
  {
    assert Col(a, "walletValue") == Col(b, "walletValue");
    assert Col(a, "financialProfile") == Col(b, "financialProfile");
    assert Col(a, "address") == Col(b, "address");
    assert Col(a, "contactPersons") == Col(b, "contactPersons");
    assert Col(a, "partnerData") == Col(b, "partnerData");
    assert Col(a, "interactionHistory") == Col(b, "interactionHistory");
    assert Col(a, "reminders") == Col(b, "reminders");
  }

  // ------------------------------------------------------------ normalisers

  /** One array element after `item == null ? '' : String(item).trim()`. */
  function CleanItem(v: Value, rt: Runtime): (r: string)
    ensures IsTrimmed(r)
  {
    if Nullish(v) then "" else Trim(ToStr(v, rt))
  }

  /** What a normalised string array holds: non-empty trimmed strings. */
  predicate AllClean(xs: seq<string>) {
    forall i :: 0 <= i < |xs| ==> xs[i] != "" && IsTrimmed(xs[i])
  }

  lemma AllCleanAppend(a: seq<string>, b: seq<string>)
    requires AllClean(a) && AllClean(b)
    ensures AllClean(a + b)
  {
    forall i | 0 <= i < |a + b|
      ensures (a + b)[i] != "" && IsTrimmed((a + b)[i])
    {
      if i < |a| {
        assert (a + b)[i] == a[i];
      } else {
        assert (a + b)[i] == b[i - |a|];
      }
    }
  }

  /** The elements of an array after the `map` to cleaned strings and
      `filter(Boolean)`. */
  function CleanItems(raw: seq<Value>, rt: Runtime): (out: seq<string>)
    ensures |out| <= |raw|
    ensures AllClean(out)
  {
    if raw == [] then []
    else
      var head := NonEmpty(CleanItem(raw[0], rt));
      var rest := CleanItems(raw[1..], rt);
      AllCleanAppend(head, rest);
      head + rest
  }

  /** `filter(Boolean)` on one string. */
  function NonEmpty(s: string): (r: seq<string>)
    ensures r == [] <==> s == ""
    ensures r != [] ==> r == [s]
  {
    if s == "" then [] else [s]
  }

  /** Strings as string values. */
  function StrValues(xs: seq<string>): (vs: seq<Value>)
    ensures |vs| == |xs| && forall i :: 0 <= i < |xs| ==> vs[i] == Str(xs[i])
  {
    seq(|xs|, i requires 0 <= i < |xs| => Str(xs[i]))
  }

  /** `normalizeStringArray`: `None` stands for `undefined`. An array is taken
      element by element, a string is split on commas, anything else is empty. */
  function NormalizeStringArray(v: Value, rt: Runtime): (r: Option<seq<string>>)
    ensures r.None? <==> v.Undefined?
    ensures !v.Undefined? && !v.Arr? && !v.Str? ==> r == Some([])
    ensures r.Some? ==> AllClean(r.value)
  {
    if v.Undefined? then None
    else
      var raw := if v.Arr? then v.items else if v.Str? then TrimmedPieces(v.s) else [];
      Some(CleanItems(raw, rt))
  }

  lemma {:induction false} CleanItemsAppend(a: seq<Value>, b: seq<Value>, rt: Runtime)
    ensures CleanItems(a + b, rt) == CleanItems(a, rt) + CleanItems(b, rt)
  {
    if a == [] {
      assert a + b == b;
    } else {
      assert (a + b)[0] == a[0];
      assert (a + b)[1..] == a[1..] + b;
      CleanItemsAppend(a[1..], b, rt);
    }
  }

  lemma {:induction false} CleanItemsOfClean(xs: seq<string>, rt: Runtime)
    requires AllClean(xs)
    ensures CleanItems(StrValues(xs), rt) == xs
  {
    if xs != [] {
      CleanItemsCons(xs, rt);
      CleanItemsOfClean(xs[1..], rt);
    }
  }

  /** A clean first string survives cleaning, ahead of the rest. */
  lemma CleanItemsCons(xs: seq<string>, rt: Runtime)
    requires xs != [] && AllClean(xs)
    ensures AllClean(xs[1..]) && xs == [xs[0]] + xs[1..]
    ensures CleanItems(StrValues(xs), rt) == [xs[0]] + CleanItems(StrValues(xs[1..]), rt)
  {
    StrValuesCons(xs);
    CleanHead(xs[0], StrValues(xs[1..]), rt);
  }

  lemma StrValuesCons(xs: seq<string>)
    requires xs != []
    ensures StrValues(xs) == [Str(xs[0])] + StrValues(xs[1..])
    ensures xs == [xs[0]] + xs[1..]
  {
  }

  lemma CleanHead(x: string, vs: seq<Value>, rt: Runtime)
    requires x != "" && IsTrimmed(x)
    ensures CleanItems([Str(x)] + vs, rt) == [x] + CleanItems(vs, rt)
  {
    CleanString(x, rt);
    CleanItemsAppend([Str(x)], vs, rt);
  }

  /** Normalising the array a normalisation produced gives it back unchanged. */
  lemma NormalizeStringArrayIdempotent(v: Value, rt: Runtime)
    requires !v.Undefined?
    ensures NormalizeStringArray(Arr(StrValues(NormalizeStringArray(v, rt).value)), rt)
         == NormalizeStringArray(v, rt)
  {
    CleanItemsOfClean(NormalizeStringArray(v, rt).value, rt);
  }

  /** `null` and `undefined` elements of an array are dropped without a trace. */
  lemma NormalizeStringArrayDropsNullish(a: seq<Value>, x: Value, b: seq<Value>, rt: Runtime)
    requires Nullish(x)
    ensures NormalizeStringArray(Arr(a + [x] + b), rt) == NormalizeStringArray(Arr(a + b), rt)
  {
    CleanSingle(x, rt);
    var front := CleanItems(a, rt);
    assert CleanItems([x], rt) == [];
    CleanItemsAppend(a, [x], rt);
    assert CleanItems(a + [x], rt) == front + [];
    assert front + [] == front;
    CleanItemsAppend(a + [x], b, rt);
    CleanItemsAppend(a, b, rt);
  }

  /** Array elements are kept whole: an element holding a comma is not split. */
  lemma ArrayElementsNotSplit(s: string, rt: Runtime)
    requires s != "" && IsTrimmed(s)
    ensures NormalizeStringArray(Arr([Str(s)]), rt) == Some([s])
  {
    TrimOfTrimmed(s);
    CleanStr(s, rt);
    CleanSingle(Str(s), rt);
    assert CleanItems([Str(s)], rt) == [s];
  }

  /** A string input is split on commas and its pieces trimmed: any list of
      non-empty, trimmed, comma-free strings joined with commas comes back as
      that list. */
  lemma StringInputSplit(ps: seq<string>, rt: Runtime)
    requires AllClean(ps)
    requires forall i :: 0 <= i < |ps| ==> ',' !in ps[i]
    ensures NormalizeStringArray(Str(Join(ps, ',')), rt) == Some(ps)
  {
    if ps == [] {
      EmptyStringInput(rt);
    } else {
      TrimmedPiecesOfJoin(ps);
      PiecesAreStrValues(ps, TrimmedPieces(Join(ps, ',')));
      CleanItemsOfClean(ps, rt);
    }
  }

  /** The empty string splits into one empty piece, which is dropped. */
  lemma EmptyStringInput(rt: Runtime)
    ensures NormalizeStringArray(Str(""), rt) == Some([])
  {
    EmptyPieces();
    EmptyItemDropped(rt);
  }

  lemma EmptyPieces()
    ensures TrimmedPieces("") == [Str("")]
  {
    assert Split("", ',') == [""];
    assert Trim("") == "";
  }

  lemma EmptyItemDropped(rt: Runtime)
    ensures CleanItems([Str("")], rt) == []
  {
    CleanStr("", rt);
    CleanSingle(Str(""), rt);
  }

  lemma CleanStr(s: string, rt: Runtime)
    ensures CleanItem(Str(s), rt) == Trim(s)
  {
    assert ToStr(Str(s), rt) == s;
  }

  lemma PiecesAreStrValues(ps: seq<string>, vs: seq<Value>)
    requires vs == seq(|ps|, i requires 0 <= i < |ps| => Str(ps[i]))
    ensures vs == StrValues(ps)
  {
  }

  lemma CleanString(a: string, rt: Runtime)
    requires a != "" && IsTrimmed(a)
    ensures CleanItems([Str(a)], rt) == [a]
  {
    TrimOfTrimmed(a);
    assert ToStr(Str(a), rt) == a;
    assert CleanItem(Str(a), rt) == a;
    CleanSingle(Str(a), rt);
    assert NonEmpty(a) == [a];
  }

  lemma CleanSingle(v: Value, rt: Runtime)
    ensures CleanItems([v], rt) == NonEmpty(CleanItem(v, rt))
  {
    assert [v][1..] == [];
  }

  /** `normalizeDecimalValue`: `undefined` takes the fallback, `null` stays
      `null`, a number is kept, and what does not parse takes `fallback ?? null`. */
  function NormalizeDecimalValue(v: Value, fallback: Value, rt: Runtime): (r: Value)
    ensures v.Undefined? ==> r == fallback
    ensures v.Null? ==> r == Null
    ensures !Nullish(v) && ToNumber(v, rt).Some? ==> r == Num(ToNumber(v, rt).value)
    ensures !Nullish(v) && ToNumber(v, rt).None? ==> r == Coalesce(fallback, Null)
    ensures r.NaN? ==> r == fallback
    ensures r.Undefined? ==> v.Undefined? && fallback.Undefined?
  {
    if v.Undefined? then fallback
    else
      var parsed := ToNumberOrNull(v, rt);
      if parsed.Null? then Null
      else if parsed.NaN? then Coalesce(fallback, Null)
      else parsed
  }

  /** `normalizeDateValue`: `undefined` takes the fallback, any other falsy
      value is `null`, a date that does not parse takes `fallback ?? null`. It
      never throws and never produces an Invalid Date of its own. */
  function NormalizeDateValue(v: Value, fallback: Value, rt: Runtime): (r: Value)
    ensures v.Undefined? ==> r == fallback
    ensures !v.Undefined? && !Truthy(v) ==> r == Null
    ensures Truthy(v) && NewDate(v, rt).InvalidDate? ==> r == Coalesce(fallback, Null)
    ensures Truthy(v) && NewDate(v, rt).Date? ==> r == NewDate(v, rt)
    ensures r.InvalidDate? ==> r == fallback
    ensures r.Undefined? ==> v.Undefined? && fallback.Undefined?
  {
    if v.Undefined? then fallback
    else if !Truthy(v) then Null
    else
      var parsed := if v.Date? || v.InvalidDate? then v else NewDate(v, rt);
      if parsed.InvalidDate? then Coalesce(fallback, Null) else parsed
  }

  /** `buildJsonValue`: `value === undefined ? undefined : value ?? null` hands
      back every value unchanged. */
  function BuildJsonValue(v: Value): (r: Value)
    ensures r == v
  {
    if v.Undefined? then Undefined else Coalesce(v, Null)
  }

  // ------------------------------------------------------------ buildClientData

  /** `buildClientData`'s `partial` flag; a full build also reads the clock for
      the default last activity. */
  datatype Mode = Full(now: int) | Partial

  const StringFields: seq<string> := [
    "name", "email", "type", "phone", "cpf", "cnpj", "sector",
    "complianceStatus", "citizenship", "partnerId"]

  const JsonFields: seq<string> := [
    "financialProfile", "address", "contactPersons", "interactionHistory", "reminders"]

  /** Every key `buildClientData` may emit. */
  const ClientKeys: set<string> := set k | k in StringFields + JsonFields + SingleKeys

  /** The payload supplies a field `key` is read from: the key itself, or
      for `partnerData` also its alias `partners`. */
  predicate Supplied(payload: Value, key: string) {
    || !Get(payload, key).Undefined?
    || (key == "partnerData" && !Get(payload, "partners").Undefined?)
  }

  function StringFieldValue(payload: Value, mode: Mode, field: string): Value {
    if !Get(payload, field).Undefined? then Get(payload, field)
    else if mode.Full? && field == "complianceStatus" then Str("Pendente")
    else Undefined
  }

  function JsonFallback(field: string): Value {
    if field == "financialProfile" || field == "address" then Null else Arr([])
  }

  function JsonFieldValue(payload: Value, mode: Mode, field: string): Value {
    var normalized := BuildJsonValue(Get(payload, field));
    if !normalized.Undefined? then normalized
    else if mode.Full? then JsonFallback(field)
    else Undefined
  }

  function ArrayFieldValue(payload: Value, mode: Mode, field: string, rt: Runtime): Value {
    match NormalizeStringArray(Get(payload, field), rt)
    case Some(xs) => Arr(StrValues(xs))
    case None => if mode.Full? then Arr([]) else Undefined
  }

  function PartnerDataValue(payload: Value, mode: Mode): Value {
    if !Get(payload, "partnerData").Undefined? then BuildJsonValue(Get(payload, "partnerData"))
    else if !Get(payload, "partners").Undefined? then BuildJsonValue(Get(payload, "partners"))
    else if mode.Full? then Arr([])
    else Undefined
  }

  function WalletValue(payload: Value, mode: Mode, rt: Runtime): Value {
    NormalizeDecimalValue(Get(payload, "walletValue"), if mode.Full? then Num(0.0) else Undefined, rt)
  }

  function LastActivityValue(payload: Value, mode: Mode, rt: Runtime): Value {
    NormalizeDateValue(Get(payload, "lastActivity"), if mode.Full? then Date(mode.now) else Undefined, rt)
  }

  /** `data` holds `v` under `key` exactly when `v` is defined. */
  predicate Writes(data: Row, key: string, v: Value) {
    (key in data <==> !v.Undefined?) && (key in data ==> data[key] == v)
  }

  /** The keys assigned one by one rather than by a `forEach`. */
  const SingleKeys: seq<string> := ["walletValue", "servicePreferences", "advisors", "partnerData", "lastActivity"]

  lemma KeyGroupsDisjoint()
    ensures forall k :: k in StringFields ==> k !in JsonFields && k !in SingleKeys
    ensures forall k :: k in JsonFields ==> k !in SingleKeys
  {
  }

  /** What `buildClientData` hands to `assign`: one value per key of each
      `forEach` group and one value for each key assigned on its own. */
  datatype Assignments = Assignments(
    strings: string -> Value,
    wallet: Value,
    prefs: Value,
    advisors: Value,
    json: string -> Value,
    partners: Value,
    last: Value)

  /** The values `buildClientData` computes from the payload. */
  function Plan(payload: Value, mode: Mode, rt: Runtime): Assignments {
    Assignments(
      f => StringFieldValue(payload, mode, f),
      WalletValue(payload, mode, rt),
      ArrayFieldValue(payload, mode, "servicePreferences", rt),
      ArrayFieldValue(payload, mode, "advisors", rt),
      f => JsonFieldValue(payload, mode, f),
      PartnerDataValue(payload, mode),
      LastActivityValue(payload, mode, rt))
  }

  /** The value assigned to `key`. */
  function ValueFor(a: Assignments, key: string): Value {
    if key == "walletValue" then a.wallet
    else if key == "servicePreferences" then a.prefs
    else if key == "advisors" then a.advisors
    else if key == "partnerData" then a.partners
    else if key == "lastActivity" then a.last
    else if key in StringFields then a.strings(key)
    else if key in JsonFields then a.json(key)
    else Undefined
  }

  /** The object the assignments build. The source assigns the string fields,
      the wallet value, the two string arrays, the JSON fields, the partner
      data and the last activity in turn; each key is assigned at most once and
      `assign` skips `undefined`, so the object is the key-wise table of the
      defined values. */
  function Table(a: Assignments): (data: Row)
    ensures forall k :: k in data ==> k in ClientKeys && !data[k].Undefined?
  {
    map k | k in ClientKeys && !ValueFor(a, k).Undefined? :: ValueFor(a, k)
  }

  /** A key of the table holds its assigned value exactly when that is defined. */
  lemma TableAt(a: Assignments, k: string)
    requires k in ClientKeys
    ensures Writes(Table(a), k, ValueFor(a, k))
  {
  }

  lemma TableStrings(a: Assignments)
    ensures forall k :: k in StringFields ==> Writes(Table(a), k, a.strings(k))
  {
    KeyGroupsDisjoint();
    forall k | k in StringFields
      ensures Writes(Table(a), k, a.strings(k))
    {
      assert k in ClientKeys;
      TableAt(a, k);
    }
  }

  lemma TableJson(a: Assignments)
    ensures forall k :: k in JsonFields ==> Writes(Table(a), k, a.json(k))
  {
    KeyGroupsDisjoint();
    forall k | k in JsonFields
      ensures Writes(Table(a), k, a.json(k))
    {
      assert k in ClientKeys;
      TableAt(a, k);
    }
  }

  lemma TableSingles(a: Assignments)
    ensures var data := Table(a);
      && Writes(data, "walletValue", a.wallet)
      && Writes(data, "servicePreferences", a.prefs)
      && Writes(data, "advisors", a.advisors)
      && Writes(data, "partnerData", a.partners)
      && Writes(data, "lastActivity", a.last)
  {
    SingleKeysAreClientKeys();
    TableAt(a, "walletValue");
    TableAt(a, "servicePreferences");
    TableAt(a, "advisors");
    TableAt(a, "partnerData");
    TableAt(a, "lastActivity");
  }

  lemma SingleKeysAreClientKeys()
    ensures forall k :: k in SingleKeys ==> k in ClientKeys
  {
  }

  /** `buildClientData(payload, { partial })`. */
  function BuildClientData(payload: Value, mode: Mode, rt: Runtime): (data: Row)
    ensures forall k :: k in data ==> k in ClientKeys && !data[k].Undefined?
  {
    Table(Plan(payload, mode, rt))
  }

  /** The plan's values land in the built object, key by key. */
  lemma StringPlanWritten(payload: Value, mode: Mode, rt: Runtime)
    ensures forall k :: k in StringFields ==>
      Writes(BuildClientData(payload, mode, rt), k, StringFieldValue(payload, mode, k))
  {
    TableStrings(Plan(payload, mode, rt));
  }

  lemma JsonPlanWritten(payload: Value, mode: Mode, rt: Runtime)
    ensures forall k :: k in JsonFields ==>
      Writes(BuildClientData(payload, mode, rt), k, JsonFieldValue(payload, mode, k))
  {
    TableJson(Plan(payload, mode, rt));
  }

  lemma SinglePlanWritten(payload: Value, mode: Mode, rt: Runtime)
    ensures var data := BuildClientData(payload, mode, rt);
      && Writes(data, "walletValue", WalletValue(payload, mode, rt))
      && Writes(data, "servicePreferences", ArrayFieldValue(payload, mode, "servicePreferences", rt))
      && Writes(data, "advisors", ArrayFieldValue(payload, mode, "advisors", rt))
      && Writes(data, "partnerData", PartnerDataValue(payload, mode))
      && Writes(data, "lastActivity", LastActivityValue(payload, mode, rt))
  {
    TableSingles(Plan(payload, mode, rt));
  }

  /** A supplied string field is stored exactly as given: it is neither
      trimmed nor converted. An unsupplied one is left out, except that a full
      build sets the compliance status to 'Pendente'. */
  lemma StringFieldsWritten(payload: Value, mode: Mode, rt: Runtime)
    ensures var data := BuildClientData(payload, mode, rt);
      forall k :: k in StringFields ==>
        && (!Get(payload, k).Undefined? ==> k in data && data[k] == Get(payload, k))
        && (Get(payload, k).Undefined? ==> (k in data <==> mode.Full? && k == "complianceStatus"))
    ensures mode.Full? && Get(payload, "complianceStatus").Undefined? ==>
      Col(BuildClientData(payload, mode, rt), "complianceStatus") == Str("Pendente")
  {
    StringPlanWritten(payload, mode, rt);
    assert "complianceStatus" in StringFields;
  }

  /** A supplied JSON field is stored as given, `null` included. An unsupplied
      one is left out of a partial build and takes its fallback (`null` for the
      financial profile and the address, `[]` for the others) in a full one. */
  lemma JsonFieldsWritten(payload: Value, mode: Mode, rt: Runtime)
    ensures var data := BuildClientData(payload, mode, rt);
      forall k :: k in JsonFields ==>
        && (!Get(payload, k).Undefined? ==> k in data && data[k] == Get(payload, k))
        && (Get(payload, k).Undefined? ==> (k in data <==> mode.Full?))
        && (Get(payload, k).Undefined? && mode.Full? ==>
              Col(data, k) == (if k == "financialProfile" || k == "address" then Null else Arr([])))
  {
    JsonPlanWritten(payload, mode, rt);
  }

  /** The wallet value and the last activity are the payload's, normalised
      with 0 and the current time as full-build fallbacks. */
  lemma SingleFieldsWritten(payload: Value, mode: Mode, rt: Runtime)
    ensures var data := BuildClientData(payload, mode, rt);
      && Col(data, "walletValue") ==
           NormalizeDecimalValue(Get(payload, "walletValue"), if mode.Full? then Num(0.0) else Undefined, rt)
      && Col(data, "lastActivity") ==
           NormalizeDateValue(Get(payload, "lastActivity"), if mode.Full? then Date(mode.now) else Undefined, rt)
  {
    SinglePlanWritten(payload, mode, rt);
  }

  /** The two string arrays hold the payload's entries, normalised; an
      unsupplied one is `[]` in a full build and left out of a partial one. */
  lemma ArrayFieldsWritten(payload: Value, mode: Mode, rt: Runtime, k: string)
    requires k == "servicePreferences" || k == "advisors"
    ensures var data := BuildClientData(payload, mode, rt);
      && (!Get(payload, k).Undefined? ==>
            Col(data, k) == Arr(StrValues(NormalizeStringArray(Get(payload, k), rt).value)))
      && (Get(payload, k).Undefined? ==> Col(data, k) == (if mode.Full? then Arr([]) else Undefined))
  {
    SinglePlanWritten(payload, mode, rt);
  }

  /** `partnerData` is stored as supplied, else its alias `partners`, else
      `[]` in a full build; a partial build without either leaves it out. */
  lemma PartnerDataWritten(payload: Value, mode: Mode, rt: Runtime)
    ensures var data := BuildClientData(payload, mode, rt);
      && (!Get(payload, "partnerData").Undefined? ==> Col(data, "partnerData") == Get(payload, "partnerData"))
      && (Get(payload, "partnerData").Undefined? && !Get(payload, "partners").Undefined? ==>
            Col(data, "partnerData") == Get(payload, "partners"))
      && (!Supplied(payload, "partnerData") ==> Col(data, "partnerData") == (if mode.Full? then Arr([]) else Undefined))
  {
    SinglePlanWritten(payload, mode, rt);
  }

  /** A partial build writes a key exactly when the payload supplies one of the
      fields it is read from. */
  lemma PartialWritesOnlySupplied(payload: Value, rt: Runtime)
    ensures forall k :: k in BuildClientData(payload, Partial, rt) <==> k in ClientKeys && Supplied(payload, k)
  {
    var data := BuildClientData(payload, Partial, rt);
    KeyGroupsDisjoint();
    forall k
      ensures k in data <==> k in ClientKeys && Supplied(payload, k)
    {
      if k in StringFields {
        PartialStringKey(payload, rt, k);
      } else if k in JsonFields {
        PartialJsonKey(payload, rt, k);
      } else if k in SingleKeys {
        PartialSingleKeys(payload, rt);
        assert k == "walletValue" || k == "servicePreferences" || k == "advisors" || k == "partnerData" || k == "lastActivity";
      }
    }
  }

  lemma PartialStringKey(payload: Value, rt: Runtime, k: string)
    requires k in StringFields
    ensures k in BuildClientData(payload, Partial, rt) <==> Supplied(payload, k)
  {
    StringPlanWritten(payload, Partial, rt);
    assert k != "partnerData";
  }

  lemma PartialJsonKey(payload: Value, rt: Runtime, k: string)
    requires k in JsonFields
    ensures k in BuildClientData(payload, Partial, rt) <==> Supplied(payload, k)
  {
    JsonPlanWritten(payload, Partial, rt);
    assert k != "partnerData";
  }

  lemma PartialSingleKeys(payload: Value, rt: Runtime)
    ensures var data := BuildClientData(payload, Partial, rt);
      && ("walletValue" in data <==> Supplied(payload, "walletValue"))
      && ("servicePreferences" in data <==> Supplied(payload, "servicePreferences"))
      && ("advisors" in data <==> Supplied(payload, "advisors"))
      && ("partnerData" in data <==> Supplied(payload, "partnerData"))
      && ("lastActivity" in data <==> Supplied(payload, "lastActivity"))
  {
    SinglePlanWritten(payload, Partial, rt);
    PartialSingleValues(payload, rt);
  }

  /** In a partial build each single value is `undefined` exactly when the
      payload does not supply its key. */
  lemma PartialSingleValues(payload: Value, rt: Runtime)
    ensures WalletValue(payload, Partial, rt).Undefined? <==> !Supplied(payload, "walletValue")
    ensures ArrayFieldValue(payload, Partial, "servicePreferences", rt).Undefined? <==> !Supplied(payload, "servicePreferences")
    ensures ArrayFieldValue(payload, Partial, "advisors", rt).Undefined? <==> !Supplied(payload, "advisors")
    ensures PartnerDataValue(payload, Partial).Undefined? <==> !Supplied(payload, "partnerData")
    ensures LastActivityValue(payload, Partial, rt).Undefined? <==> !Supplied(payload, "lastActivity")
  {
  }

  /** An update body that supplies none of the recognised fields builds no
      update at all. */
  lemma PartialOfNothingIsEmpty(payload: Value, rt: Runtime)
    requires forall k :: k in ClientKeys ==> !Supplied(payload, k)
    ensures BuildClientData(payload, Partial, rt) == map[]
  {
    PartialWritesOnlySupplied(payload, rt);
  }

  /** A full build always writes the compliance status, the wallet value, the
      string arrays, the JSON fields, the partner data and the last activity,
      whatever the payload holds. */
  lemma FullWritesDefaulted(payload: Value, now: int, rt: Runtime)
    ensures var data := BuildClientData(payload, Full(now), rt);
      && "complianceStatus" in data
      && "walletValue" in data && "servicePreferences" in data && "advisors" in data
      && "partnerData" in data && "lastActivity" in data
      && forall k :: k in JsonFields ==> k in data
  {
    StringPlanWritten(payload, Full(now), rt);
    SinglePlanWritten(payload, Full(now), rt);
    FullWritesJson(payload, now, rt);
    assert "complianceStatus" in StringFields;
  }

  lemma FullWritesJson(payload: Value, now: int, rt: Runtime)
    ensures forall k :: k in JsonFields ==> k in BuildClientData(payload, Full(now), rt)
  {
    JsonPlanWritten(payload, Full(now), rt);
  }

  /** The defaults of a full build for the fields the payload leaves out. */
  lemma FullDefaults(payload: Value, now: int, rt: Runtime)
    ensures var data := BuildClientData(payload, Full(now), rt);
      && (Get(payload, "complianceStatus").Undefined? ==> Col(data, "complianceStatus") == Str("Pendente"))
      && (Get(payload, "walletValue").Undefined? ==> Col(data, "walletValue") == Num(0.0))
      && (Get(payload, "lastActivity").Undefined? ==> Col(data, "lastActivity") == Date(now))
      && (Get(payload, "servicePreferences").Undefined? ==> Col(data, "servicePreferences") == Arr([]))
      && (Get(payload, "advisors").Undefined? ==> Col(data, "advisors") == Arr([]))
      && (!Supplied(payload, "partnerData") ==> Col(data, "partnerData") == Arr([]))
      && (forall k :: k in JsonFields && Get(payload, k).Undefined? ==> Col(data, k) == JsonFallback(k))
  {
    StringFieldsWritten(payload, Full(now), rt);
    JsonFieldsWritten(payload, Full(now), rt);
    SingleFieldsWritten(payload, Full(now), rt);
    ArrayFieldsWritten(payload, Full(now), rt, "servicePreferences");
    ArrayFieldsWritten(payload, Full(now), rt, "advisors");
    PartnerDataWritten(payload, Full(now), rt);
  }

  /** `partnerData` wins over its alias `partners` when both are supplied. */
  lemma PartnerDataWins(payload: Value, mode: Mode, rt: Runtime)
    requires !Get(payload, "partnerData").Undefined?
    ensures Col(BuildClientData(payload, mode, rt), "partnerData") == Get(payload, "partnerData")
  {
    SinglePlanWritten(payload, mode, rt);
  }

  // ------------------------------------------------------------ controller

  /** `getClientById`: the client read with the detail join (its partner and
      at most fifty of its notes, newest first) and shaped, or `None` for 404.
      The lookup is by id alone: whoever owns the client, it is returned. */
  function GetClientById(db: Db, id: string, newestFirst: seq<string>, rt: Runtime): (r: Option<Value>)
    requires NoteOrder(db.notes, newestFirst)
    ensures r.Some? <==> id in db.clients
    ensures r.Some? ==> r.value == ClientView(db, id, DetailNoteLimit, newestFirst, rt)
    ensures r.Some? ==> var n := |ClientNoteIds(db.notes, id)|;
      Get(r.value, "collaborationNotes").Arr? &&
      |Get(r.value, "collaborationNotes").items| == (if n < 50 then n else 50)
  {
    ViewIncludes();
    if id in db.clients then Some(ClientView(db, id, DetailNoteLimit, newestFirst, rt)) else None
  }

  /** `getAllClients`: every stored client, with no owner filter, read with the
      list join (its partner and at most five of its notes) and shaped. */
  function GetAllClients(db: Db, newestFirst: seq<string>, rt: Runtime): (r: map<string, Value>)
    requires NoteOrder(db.notes, newestFirst)
    ensures r.Keys == db.clients.Keys
    ensures forall id :: id in r ==> r[id] == ClientView(db, id, ListNoteLimit, newestFirst, rt)
    ensures forall id :: id in r ==> var n := |ClientNoteIds(db.notes, id)|;
      Get(r[id], "collaborationNotes").Arr? &&
      |Get(r[id], "collaborationNotes").items| == (if n < 5 then n else 5)
  {
    ViewIncludes();
    map id | id in db.clients :: ClientView(db, id, ListNoteLimit, newestFirst, rt)
  }

  /** A client's entry in the list and its detail answer agree on every column
      but the notes; the list shows the first five of the detail's notes, or
      all of them when there are fewer. */
  lemma ListAgreesWithDetail(db: Db, id: string, newestFirst: seq<string>, rt: Runtime)
    requires id in db.clients && NoteOrder(db.notes, newestFirst)
    ensures var l := GetAllClients(db, newestFirst, rt)[id].fields;
      var d := GetClientById(db, id, newestFirst, rt).value.fields;
      && l.Keys == d.Keys
      && (forall k :: k in l && k != "collaborationNotes" ==> l[k] == d[k])
      && var ln := l["collaborationNotes"].items;
         var dn := d["collaborationNotes"].items;
         && |ln| == (if |dn| < 5 then |dn| else 5)
         && ln == dn[..|ln|]
  {
    ViewIncludes();
    var l := ClientView(db, id, ListNoteLimit, newestFirst, rt).fields;
    var d := ClientView(db, id, DetailNoteLimit, newestFirst, rt).fields;
    ViewsAgree(db, id, ListNoteLimit, DetailNoteLimit, newestFirst, rt);
    var shown := ShownNotes(db, id, newestFirst);
    var ln := l["collaborationNotes"].items;
    var dn := d["collaborationNotes"].items;
    assert |ln| == (if |shown| < 5 then |shown| else 5);
    assert |dn| == (if |shown| < 50 then |shown| else 50);
    PrefixOfPrefix(shown, ln, dn);
  }

  /** Two views of the same client agree on every column but the notes. */
  lemma ViewsAgree(db: Db, id: string, limit1: Value, limit2: Value, newestFirst: seq<string>, rt: Runtime)
    requires id in db.clients && NoteOrder(db.notes, newestFirst)
    ensures var a := ClientView(db, id, limit1, newestFirst, rt).fields;
      var b := ClientView(db, id, limit2, newestFirst, rt).fields;
      a.Keys == b.Keys && forall k :: k in a && k != "collaborationNotes" ==> a[k] == b[k]
  {
  }

  lemma PrefixOfPrefix(s: seq<Value>, a: seq<Value>, b: seq<Value>)
    requires |a| <= |b| <= |s|
    requires a == s[..|a|] && b == s[..|b|]
    ensures a == b[..|a|]
  {
  }

  /** `createClient`: 400 unless `name`, `email` and `type` are all truthy;
      otherwise the full build is inserted under the store-chosen `newId`. */
  function CreateClient(db: Db, body: Value, newId: string, now: int, rt: Runtime): (o: Outcome)
    ensures o.reply == BadRequest(MissingRequired) <==>
      !Truthy(Get(body, "name")) || !Truthy(Get(body, "email")) || !Truthy(Get(body, "type"))
    ensures o.reply in {Created, BadRequest(MissingRequired), ServerError}
    ensures o.reply != Created ==> o.db == db
    ensures o.reply == ServerError <==>
      Truthy(Get(body, "name")) && Truthy(Get(body, "email")) && Truthy(Get(body, "type"))
      && (newId in db.clients || !Storable(BuildClientData(body, Full(now), rt)))
    ensures o.reply == Created ==>
      o.db == db.(clients := db.clients[newId := BuildClientData(body, Full(now), rt)])
  {
    if !Truthy(Get(body, "name")) || !Truthy(Get(body, "email")) || !Truthy(Get(body, "type")) then
      Outcome(BadRequest(MissingRequired), db)
    else
      match Insert(db.clients, newId, BuildClientData(body, Full(now), rt))
      case None => Outcome(ServerError, db)
      case Some(t) => Outcome(Created, db.(clients := t))
  }

  /** A created client row carries no `ownerId`: the body cannot set one and
      the controller does not stamp the caller. */
  lemma CreatedClientHasNoOwner(db: Db, body: Value, newId: string, now: int, rt: Runtime)
    requires CreateClient(db, body, newId, now, rt).reply == Created
    ensures Col(CreateClient(db, body, newId, now, rt).db.clients[newId], "ownerId") == Undefined
  {
    NoOwnerKey(body, Full(now), rt);
  }

  lemma NoOwnerKey(payload: Value, mode: Mode, rt: Runtime)
    ensures "ownerId" !in BuildClientData(payload, mode, rt)
  {
    assert "ownerId" !in ClientKeys;
  }

  /** `updateClient`: a partial build that writes nothing is 400 before the
      store is touched; a missing id is 404 (P2025); otherwise the built columns
      replace the stored ones. */
  function UpdateClient(db: Db, id: string, body: Value, rt: Runtime): (o: Outcome)
    ensures o.reply == BadRequest(NothingToUpdate) <==> BuildClientData(body, Partial, rt) == map[]
    ensures o.reply in {Ok, BadRequest(NothingToUpdate), NotFound(ClientEntity)}
    ensures o.reply != Ok ==> o.db == db
    ensures o.reply == NotFound(ClientEntity) <==> BuildClientData(body, Partial, rt) != map[] && id !in db.clients
    ensures o.reply == Ok ==>
      o.db == db.(clients := db.clients[id := Merge(db.clients[id], BuildClientData(body, Partial, rt))])
  {
    var data := BuildClientData(body, Partial, rt);
    if data == map[] then Outcome(BadRequest(NothingToUpdate), db)
    else if id !in db.clients then Outcome(NotFound(ClientEntity), db)
    else Outcome(Ok, db.(clients := db.clients[id := Merge(db.clients[id], data)]))
  }

  /** An update with no recognised field answers 400 and writes nothing. */
  lemma UpdateWithNothingIsRejected(db: Db, id: string, body: Value, rt: Runtime)
    requires forall k :: k in ClientKeys ==> !Supplied(body, k)
    ensures UpdateClient(db, id, body, rt) == Outcome(BadRequest(NothingToUpdate), db)
  {
    PartialOfNothingIsEmpty(body, rt);
  }

  /** A partial update never clears or changes a column the body does not
      mention. */
  lemma UpdateKeepsUnmentioned(db: Db, id: string, body: Value, rt: Runtime, k: string)
    requires UpdateClient(db, id, body, rt).reply == Ok
    requires k in db.clients[id]
    requires !Supplied(body, k)
    ensures k in UpdateClient(db, id, body, rt).db.clients[id]
    ensures UpdateClient(db, id, body, rt).db.clients[id][k] == db.clients[id][k]
  {
    PartialWritesOnlySupplied(body, rt);
  }

  /** `deleteClient`: 204 removing exactly that row, or 404 (P2025). */
  function DeleteClient(db: Db, id: string): (o: Outcome)
    ensures o.reply == NoContent <==> id in db.clients
    ensures o.reply != NoContent ==> o == Outcome(NotFound(ClientEntity), db)
    ensures o.reply == NoContent ==> o.db == db.(clients := db.clients - {id})
  {
    if id in db.clients then Outcome(NoContent, db.(clients := db.clients - {id}))
    else Outcome(NotFound(ClientEntity), db)
  }
}

=== FILE: database_url.dfy ===
/** How the server picks its database connection string from the process
    environment: production and Cloud Run deployments use `DATABASE_URL`,
    everything else prefers `LOCAL_DATABASE_URL`. The environment is a map from
    variable names to values; an unset variable is a missing key. */
module DatabaseUrl {
  import opened Wrappers
  import opened JsString

  type Env = map<string, string>

  const NodeEnvKey := "NODE_ENV"
  const DatabaseUrlKey := "DATABASE_URL"
  const LocalDatabaseUrlKey := "LOCAL_DATABASE_URL"
  const ServiceKey := "K_SERVICE"
  const JobKey := "CLOUD_RUN_JOB"
  const ProjectKey := "GOOGLE_CLOUD_PROJECT"

  /** The value of `process.env[key]`, if set. */
  function Lookup(env: Env, key: string): (r: Option<string>)
    ensures r.Some? <==> key in env
    ensures r.Some? ==> r.value == env[key]
  {
    if key in env then Some(env[key]) else None
  }

  /** The local `normalize`: a set variable trimmed, an unset one empty. */
  function Normalize(v: Option<string>): (r: string)
    ensures IsTrimmed(r)
    ensures v.None? ==> r == ""
  {
    match v
    case Some(s) => Trim(s)
    case None => ""
  }

  /** `Boolean(process.env[key])`: set and not empty. */
  predicate IsSet(env: Env, key: string) {
    key in env && env[key] != ""
  }

  /** `isProdEnv`: `NODE_ENV`, trimmed and lower-cased, names production. */
  predicate IsProdEnv(env: Env) {
    var e := ToLower(Normalize(Lookup(env, NodeEnvKey)));
    e == "production" || e == "prod"
  }

  /** `isCloudRun`: any of the Cloud Run variables is set and non-empty. */
  predicate IsCloudRun(env: Env) {
    IsSet(env, ServiceKey) || IsSet(env, JobKey) || IsSet(env, ProjectKey)
  }

  predicate UseProductionUrl(env: Env) {
    IsProdEnv(env) || IsCloudRun(env)
  }

  /** The variable whose value is used, before trimming: `DATABASE_URL` in
      production, otherwise `LOCAL_DATABASE_URL` when it is non-empty and
      `DATABASE_URL` when it is not. */
  function Candidate(env: Env): (r: Option<string>)
    ensures UseProductionUrl(env) ==> r == Lookup(env, DatabaseUrlKey)
    ensures !UseProductionUrl(env) && IsSet(env, LocalDatabaseUrlKey) ==> r == Lookup(env, LocalDatabaseUrlKey)
    ensures !UseProductionUrl(env) && !IsSet(env, LocalDatabaseUrlKey) ==> r == Lookup(env, DatabaseUrlKey)
  {
    if UseProductionUrl(env) then Lookup(env, DatabaseUrlKey)
    else if IsSet(env, LocalDatabaseUrlKey) then Lookup(env, LocalDatabaseUrlKey)
    else Lookup(env, DatabaseUrlKey)
  }

  /** The outcome of `pickDatabaseUrl`: a connection string, or the error it
      throws when none is configured. */
  datatype Choice = Url(url: string) | NotConfigured

  /** `pickDatabaseUrl`. */
  function PickDatabaseUrl(env: Env): (r: Choice)
    ensures r.NotConfigured? <==> Normalize(Candidate(env)) == ""
    ensures r.Url? ==> r.url != "" && IsTrimmed(r.url)
    ensures r.Url? ==> Candidate(env).Some? && CutFrom(Candidate(env).value, r.url)
  {
    var url := Normalize(Candidate(env));
    if url == "" then NotConfigured
    else
      TrimCut(Candidate(env).value);
      Url(url)
  }

  /** A setting of `LOCAL_DATABASE_URL` makes no difference in production. */
  lemma ProductionIgnoresLocal(env: Env, local: Option<string>)
    requires UseProductionUrl(env)
    ensures var env' := if local.Some? then env[LocalDatabaseUrlKey := local.value] else env - {LocalDatabaseUrlKey};
      PickDatabaseUrl(env') == PickDatabaseUrl(env)
  {
    var env' := if local.Some? then env[LocalDatabaseUrlKey := local.value] else env - {LocalDatabaseUrlKey};
    SameExceptLocal(env, env');
  }

  /** Outside production a non-blank `LOCAL_DATABASE_URL` is used, trimmed,
      whatever `DATABASE_URL` holds. */
  lemma LocalWinsInDevelopment(env: Env)
    requires !UseProductionUrl(env)
    requires LocalDatabaseUrlKey in env && Trim(env[LocalDatabaseUrlKey]) != ""
    ensures PickDatabaseUrl(env) == Url(Trim(env[LocalDatabaseUrlKey]))
  {
  }

  /** Outside production a `LOCAL_DATABASE_URL` of spaces still shadows
      `DATABASE_URL`: it counts as set, then trims to nothing, and startup
      fails. */
  lemma BlankLocalShadowsDatabaseUrl(env: Env)
    requires !UseProductionUrl(env)
    requires LocalDatabaseUrlKey in env && env[LocalDatabaseUrlKey] != "" && Trim(env[LocalDatabaseUrlKey]) == ""
    ensures PickDatabaseUrl(env) == NotConfigured
  {
  }

  /** Outside production, with `LOCAL_DATABASE_URL` unset or empty,
      `DATABASE_URL` is used, trimmed. */
  lemma FallbackToDatabaseUrl(env: Env)
    requires !UseProductionUrl(env) && !IsSet(env, LocalDatabaseUrlKey)
    requires DatabaseUrlKey in env && Trim(env[DatabaseUrlKey]) != ""
    ensures PickDatabaseUrl(env) == Url(Trim(env[DatabaseUrlKey]))
  {
  }

  /** Writing `NODE_ENV` in upper case or with surrounding spaces changes
      nothing. */
  lemma NodeEnvSpellingIrrelevant(env: Env, v: string)
    ensures PickDatabaseUrl(env[NodeEnvKey := v]) == PickDatabaseUrl(env[NodeEnvKey := ToLower(Trim(v))])
  {
    var e1 := env[NodeEnvKey := v];
    var e2 := env[NodeEnvKey := ToLower(Trim(v))];
    SameProdEnv(e1, e2, v);
    UpdatesAgreeElsewhere(env, e1, e2);
    SameExceptNodeEnv(e1, e2);
  }

  /** Setting `NODE_ENV` to two different values changes no other lookup. */
  lemma UpdatesAgreeElsewhere(env: Env, e1: Env, e2: Env)
    requires NodeEnvKey in e1 && e1 == env[NodeEnvKey := e1[NodeEnvKey]]
    requires NodeEnvKey in e2 && e2 == env[NodeEnvKey := e2[NodeEnvKey]]
    ensures forall k :: k != NodeEnvKey ==> Lookup(e1, k) == Lookup(e2, k)
  {
  }

  /** The normal form of `NODE_ENV` is a fixed point of normalisation. */
  lemma NodeEnvNormalForm(v: string)
    ensures ToLower(Trim(ToLower(Trim(v)))) == ToLower(Trim(v))
  {
    TrimLower(Trim(v));
    TrimIdempotent(v);
    LowerIsLower(Trim(v));
    LowerOfLower(ToLower(Trim(v)));
  }

  lemma SameProdEnv(e1: Env, e2: Env, v: string)
    requires NodeEnvKey in e1 && e1[NodeEnvKey] == v
    requires NodeEnvKey in e2 && e2[NodeEnvKey] == ToLower(Trim(v))
    ensures IsProdEnv(e1) == IsProdEnv(e2)
  {
    NodeEnvNormalForm(v);
    assert Normalize(Lookup(e2, NodeEnvKey)) == Trim(ToLower(Trim(v)));
  }

  /** Two environments that agree on everything but `LOCAL_DATABASE_URL` pick
      alike in production. */
  lemma SameExceptLocal(env: Env, env': Env)
    requires UseProductionUrl(env)
    requires forall k :: k != LocalDatabaseUrlKey ==> Lookup(env, k) == Lookup(env', k)
    ensures PickDatabaseUrl(env') == PickDatabaseUrl(env)
  {
    assert Lookup(env, NodeEnvKey) == Lookup(env', NodeEnvKey);
    assert IsProdEnv(env) == IsProdEnv(env');
    assert Lookup(env, ServiceKey) == Lookup(env', ServiceKey);
    assert Lookup(env, JobKey) == Lookup(env', JobKey);
    assert Lookup(env, ProjectKey) == Lookup(env', ProjectKey);
    assert Lookup(env, DatabaseUrlKey) == Lookup(env', DatabaseUrlKey);
  }

  /** Two environments that agree on everything but `NODE_ENV`, and agree on
      whether that names production, pick alike. */
  lemma SameExceptNodeEnv(env: Env, env': Env)
    requires IsProdEnv(env) == IsProdEnv(env')
    requires forall k :: k != NodeEnvKey ==> Lookup(env, k) == Lookup(env', k)
    ensures PickDatabaseUrl(env') == PickDatabaseUrl(env)
  {
    assert Lookup(env, ServiceKey) == Lookup(env', ServiceKey);
    assert Lookup(env, JobKey) == Lookup(env', JobKey);
    assert Lookup(env, ProjectKey) == Lookup(env', ProjectKey);
    assert Lookup(env, DatabaseUrlKey) == Lookup(env', DatabaseUrlKey);
    assert Lookup(env, LocalDatabaseUrlKey) == Lookup(env', LocalDatabaseUrlKey);
    assert IsCloudRun(env) == IsCloudRun(env');
    CandidatesAgree(env, env');
    PickFollowsCandidate(env, env');
  }

  /** The candidate depends only on the mode and the two URL variables. */
  lemma CandidatesAgree(env: Env, env': Env)
    requires UseProductionUrl(env) == UseProductionUrl(env')
    requires Lookup(env, DatabaseUrlKey) == Lookup(env', DatabaseUrlKey)
    requires Lookup(env, LocalDatabaseUrlKey) == Lookup(env', LocalDatabaseUrlKey)
    ensures Candidate(env) == Candidate(env')
  {
    assert IsSet(env, LocalDatabaseUrlKey) == IsSet(env', LocalDatabaseUrlKey);
  }

  /** The choice depends only on the candidate. */
  lemma PickFollowsCandidate(env: Env, env': Env)
    requires Candidate(env) == Candidate(env')
    ensures PickDatabaseUrl(env') == PickDatabaseUrl(env)
  {
  }
}

=== FILE: js_string.dfy ===
/** The JavaScript string operations the controllers rely on:
    `String.prototype.trim`, `split(',')`, `join(',')` and `toLowerCase`. */
module JsString {

  /** The code points `trim` removes: ECMAScript's WhiteSpace (tab, vertical tab,
      form feed, space, no-break space, byte-order mark and the Zs category) and
      LineTerminator (line feed, carriage return, line and paragraph separator). */
  predicate IsSpace(c: char) {
    || c == '\t' || c == '\n' || c == '\U{000B}' || c == '\U{000C}' || c == '\r'
    || c == ' ' || c == '\U{00A0}' || c == '\U{1680}'
    || ('\U{2000}' <= c <= '\U{200A}')
    || c == '\U{2028}' || c == '\U{2029}' || c == '\U{202F}' || c == '\U{205F}'
    || c == '\U{3000}' || c == '\U{FEFF}'
  }

  /** The code points a regular-expression `.` refuses to match. */
  predicate IsLineTerminator(c: char) {
    c == '\n' || c == '\r' || c == '\U{2028}' || c == '\U{2029}'
  }

  /** Neither end of `s` is whitespace: what `trim` leaves behind. */
  predicate IsTrimmed(s: string) {
    s == [] || (!IsSpace(s[0]) && !IsSpace(s[|s| - 1]))
  }

  /** `r` is `s` with whitespace, and only whitespace, cut from its two ends. */
  ghost predicate CutFrom(s: string, r: string) {
    exists a :: CutAt(s, r, a)
  }

  /** `r` is the slice of `s` starting at `a`, with only whitespace around it. */
  ghost predicate CutAt(s: string, r: string, a: int) {
    && 0 <= a <= |s| - |r|
    && s[a..a + |r|] == r
    && (forall i :: 0 <= i < a ==> IsSpace(s[i]))
    && (forall i :: a + |r| <= i < |s| ==> IsSpace(s[i]))
  }

  function TrimStart(s: string): (r: string)
    ensures |r| <= |s| && r == s[|s| - |r|..]
    ensures forall i :: 0 <= i < |s| - |r| ==> IsSpace(s[i])
    ensures r == [] || !IsSpace(r[0])
  {
    if |s| > 0 && IsSpace(s[0]) then TrimStart(s[1..]) else s
  }

  function TrimEnd(s: string): (r: string)
    ensures |r| <= |s| && r == s[..|r|]
    ensures forall i :: |r| <= i < |s| ==> IsSpace(s[i])
    ensures r == [] || !IsSpace(r[|r| - 1])
  {
    if |s| > 0 && IsSpace(s[|s| - 1]) then TrimEnd(s[..|s| - 1]) else s
  }

  /** `String.prototype.trim`. */
  function Trim(s: string): (r: string)
    ensures |r| <= |s|
    ensures IsTrimmed(r)
  {
    var t := TrimStart(s);
    var r := TrimEnd(t);
    assert r != [] ==> r[0] == t[0];
    r
  }

  /** `trim` cuts whitespace, and only whitespace, from the two ends. */
  lemma TrimCut(s: string)
    ensures CutFrom(s, Trim(s))
  {
    var t := TrimStart(s);
    var r := TrimEnd(t);
    var a := |s| - |t|;
    assert t == s[a..];
    assert r == t[..|r|];
    assert s[a..a + |r|] == r;
    forall i | a + |r| <= i < |s|
      ensures IsSpace(s[i])
    {
      assert s[i] == t[i - a];
    }
    assert CutAt(s, r, a);
  }

  /** Trimming leaves an already-trimmed string alone, so `Trim` is idempotent. */
  lemma TrimOfTrimmed(s: string)
    requires IsTrimmed(s)
    ensures Trim(s) == s
  {
    assert TrimStart(s) == s;
    assert TrimEnd(s) == s;
  }

  lemma TrimIdempotent(s: string)
    ensures Trim(Trim(s)) == Trim(s)
  {
    TrimOfTrimmed(Trim(s));
  }

  /** `trim` yields the empty string exactly when `s` is all whitespace. */
  lemma TrimEmptyIff(s: string)
    ensures Trim(s) == [] <==> forall i :: 0 <= i < |s| ==> IsSpace(s[i])
  {
    var t := TrimStart(s);
    if Trim(s) == [] {
      assert TrimEnd(t) == [];
    } else {
      assert |t| > 0 ==> t[0] == s[|s| - |t|];
    }
  }

  // ---------------------------------------------------------------- split/join

  /** `s.split(sep)` for a one-character separator: the pieces between separators,
      empty pieces included, and a single empty piece for the empty string. */
  function Split(s: string, sep: char): (parts: seq<string>)
    ensures |parts| >= 1
    ensures forall i :: 0 <= i < |parts| ==> sep !in parts[i]
  {
    if |s| == 0 then [""]
    else
      var rest := Split(s[1..], sep);
      if s[0] == sep then [""] + rest
      else [[s[0]] + rest[0]] + rest[1..]
  }

  /** `parts.join(sep)`. */
  function Join(parts: seq<string>, sep: char): string
  {
    if |parts| == 0 then ""
    else if |parts| == 1 then parts[0]
    else parts[0] + [sep] + Join(parts[1..], sep)
  }

  lemma {:induction false} JoinCons(c: char, p: string, q: seq<string>, sep: char)
    ensures Join([[c] + p] + q, sep) == [c] + Join([p] + q, sep)
  {
    if |q| > 0 {
      assert ([[c] + p] + q)[1..] == q;
      assert ([p] + q)[1..] == q;
    }
  }

  /** Joining the pieces of a split restores the string. */
  lemma {:induction false} JoinSplit(s: string, sep: char)
    ensures Join(Split(s, sep), sep) == s
  {
    if |s| > 0 {
      var rest := Split(s[1..], sep);
      JoinSplit(s[1..], sep);
      if s[0] == sep {
        assert ([""] + rest)[1..] == rest;
        assert s == [s[0]] + s[1..];
      } else {
        assert rest == [rest[0]] + rest[1..];
        JoinCons(s[0], rest[0], rest[1..], sep);
        assert s == [s[0]] + s[1..];
      }
    }
  }

  lemma {:induction false} SplitSeparatorFree(a: string, sep: char)
    requires sep !in a
    ensures Split(a, sep) == [a]
  {
    if |a| > 0 {
      SplitSeparatorFree(a[1..], sep);
      assert [a[0]] + a[1..] == a;
    }
  }

  lemma {:induction false} SplitAfterPiece(a: string, t: string, sep: char)
    requires sep !in a
    ensures Split(a + [sep] + t, sep) == [a] + Split(t, sep)
  {
    var s := a + [sep] + t;
    if |a| == 0 {
      assert s[1..] == t;
    } else {
      assert s[1..] == a[1..] + [sep] + t;
      SplitAfterPiece(a[1..], t, sep);
      assert [a[0]] + a[1..] == a;
    }
  }

  /** Splitting a join of separator-free pieces gives the pieces back. */
  lemma {:induction false} SplitJoin(parts: seq<string>, sep: char)
    requires |parts| >= 1
    requires forall i :: 0 <= i < |parts| ==> sep !in parts[i]
    ensures Split(Join(parts, sep), sep) == parts
  {
    if |parts| == 1 {
      SplitSeparatorFree(parts[0], sep);
    } else {
      SplitJoin(parts[1..], sep);
      SplitAfterPiece(parts[0], Join(parts[1..], sep), sep);
      assert [parts[0]] + parts[1..] == parts;
    }
  }

  // ---------------------------------------------------------------- lower case

  /** `toLowerCase` on one character, for the ASCII letters. */
  function LowerChar(c: char): char {
    if 'A' <= c <= 'Z' then (c as int + 32) as char else c
  }

  /** `toLowerCase`, restricted to ASCII letters. */
  function ToLower(s: string): (r: string)
    ensures |r| == |s|
    ensures forall i :: 0 <= i < |s| ==> r[i] == LowerChar(s[i])
  {
    seq(|s|, i requires 0 <= i < |s| => LowerChar(s[i]))
  }

  predicate IsLower(s: string) {
    forall i :: 0 <= i < |s| ==> !('A' <= s[i] <= 'Z')
  }

  /** Lower-casing leaves no upper-case letter. */
  lemma LowerIsLower(s: string)
    ensures IsLower(ToLower(s))
  {
  }

  lemma LowerOfLower(s: string)
    requires IsLower(s)
    ensures ToLower(s) == s
  {
  }

  lemma {:induction false} TrimStartLower(s: string)
    ensures TrimStart(ToLower(s)) == ToLower(TrimStart(s))
  {
    if |s| > 0 && IsSpace(s[0]) {
      assert ToLower(s)[1..] == ToLower(s[1..]);
      TrimStartLower(s[1..]);
    }
  }

  lemma {:induction false} TrimEndLower(s: string)
    ensures TrimEnd(ToLower(s)) == ToLower(TrimEnd(s))
  {
    if |s| > 0 && IsSpace(s[|s| - 1]) {
      assert ToLower(s)[..|s| - 1] == ToLower(s[..|s| - 1]);
      TrimEndLower(s[..|s| - 1]);
    }
  }

  /** Lower-casing and trimming commute: letters are never whitespace. */
  lemma TrimLower(s: string)
    ensures Trim(ToLower(s)) == ToLower(Trim(s))
  {
    TrimStartLower(s);
    TrimEndLower(TrimStart(s));
  }
}

=== FILE: js_value.dfy ===
/** JavaScript values as they reach the controllers (parsed JSON bodies, query
    strings, rows read back from the database) and the coercions the controllers
    apply to them: truthiness, `??`, `||`, `String(x)`, `Number(x)`,
    `new Date(x)`, `Number.isInteger` and `===`. */
module JsValue {
  import opened Wrappers
  import opened JsString

  /** A JavaScript value. `Num` is a finite number (floating-point rounding is
      not modelled) and `NaN` is the not-a-number value; `Date` is a valid Date
      object holding milliseconds since the epoch and `InvalidDate` a Date whose
      time is NaN. */
  datatype Value =
    | Undefined
    | Null
    | Bool(b: bool)
    | Num(n: real)
    | NaN
    | Str(s: string)
    | Arr(items: seq<Value>)
    | Obj(fields: map<string, Value>)
    | Date(time: int)
    | InvalidDate

  /** The parts of the JavaScript runtime the model cannot see, supplied from
      outside: `Number(s)` on a string (`None` is NaN), the time `new Date(v)`
      reads from a non-Date value (`None` is an Invalid Date), and the text
      `String(x)` gives for a number and for a valid Date. */
  datatype Runtime = Runtime(
    parseNumber: string -> Option<real>,
    parseDate: Value -> Option<int>,
    numberText: real -> string,
    dateText: int -> string)

  /** JavaScript truthiness: `if (v)`. */
  predicate Truthy(v: Value) {
    match v
    case Undefined => false
    case Null => false
    case Bool(b) => b
    case Num(n) => n != 0.0
    case NaN => false
    case Str(s) => s != ""
    case _ => true
  }

  /** `v == null`: the values `??` and `?.` look through. */
  predicate Nullish(v: Value) {
    v.Undefined? || v.Null?
  }

  /** `typeof v === 'object'` for a non-null value: arrays, plain objects and
      Dates. */
  predicate IsObjectLike(v: Value) {
    v.Arr? || v.Obj? || v.Date? || v.InvalidDate?
  }

  /** Property read `v[key]`, for the keys the controllers use (none of which
      names a built-in property). */
  function Get(v: Value, key: string): (r: Value)
    ensures !v.Obj? ==> r == Undefined
  {
    if v.Obj? && key in v.fields then v.fields[key] else Undefined
  }

  /** The own properties an object spread `{...v}` copies. */
  function Fields(v: Value): map<string, Value> {
    if v.Obj? then v.fields else map[]
  }

  /** `a || b`. */
  function Or(a: Value, b: Value): (r: Value)
    ensures Truthy(r) <==> Truthy(a) || Truthy(b)
  {
    if Truthy(a) then a else b
  }

  /** `a ?? b`. */
  function Coalesce(a: Value, b: Value): (r: Value)
    ensures Nullish(r) ==> Nullish(b)
  {
    if Nullish(a) then b else a
  }

  /** `a === b` for a value from a request body and one read from the store:
      primitives compare by value, NaN equals nothing, and two object values
      are never the same object. */
  predicate StrictEquals(a: Value, b: Value) {
    match a
    case Undefined => b.Undefined?
    case Null => b.Null?
    case Bool(x) => b == Bool(x)
    case Num(x) => b == Num(x)
    case Str(x) => b == Str(x)
    case _ => false
  }

  /** `String(v)`. Arrays join their elements with `,`, writing nothing for
      `null` and `undefined`. */
  function ToStr(v: Value, rt: Runtime): string
    decreases v, 1
  {
    match v
    case Undefined => "undefined"
    case Null => "null"
    case Bool(b) => if b then "true" else "false"
    case Num(n) => rt.numberText(n)
    case NaN => "NaN"
    case Str(s) => s
    case Arr(items) => JoinItems(v, items, rt)
    case Obj(_) => "[object Object]"
    case Date(t) => rt.dateText(t)
    case InvalidDate => "Invalid Date"
  }

  function JoinItems(ghost whole: Value, items: seq<Value>, rt: Runtime): string
    requires forall i :: 0 <= i < |items| ==> items[i] < whole
    decreases whole, 0, |items|
  {
    if |items| == 0 then ""
    else
      var first := if Nullish(items[0]) then "" else ToStr(items[0], rt);
      if |items| == 1 then first
      else first + "," + JoinItems(whole, items[1..], rt)
  }

  /** `Number(v)`; `None` is NaN. Objects convert through their string form. */
  function ToNumber(v: Value, rt: Runtime): Option<real> {
    match v
    case Undefined => None
    case Null => Some(0.0)
    case Bool(b) => Some(if b then 1.0 else 0.0)
    case Num(n) => Some(n)
    case NaN => None
    case Str(s) => rt.parseNumber(s)
    case Date(t) => Some(t as real)
    case InvalidDate => None
    case _ => rt.parseNumber(ToStr(v, rt))
  }

  /** `Number(v)` as a value: a number or NaN. */
  function NumberValue(v: Value, rt: Runtime): (r: Value)
    ensures r.Num? || r.NaN?
  {
    match ToNumber(v, rt)
    case Some(n) => Num(n)
    case None => NaN
  }

  /** The controllers' `toNumber`: `null` for a nullish value, `Number(v)`
      otherwise. */
  function ToNumberOrNull(v: Value, rt: Runtime): (r: Value)
    ensures r.Null? <==> Nullish(v)
    ensures !Nullish(v) ==> r == NumberValue(v, rt)
  {
    if Nullish(v) then Null else NumberValue(v, rt)
  }

  /** `toNumber(v) ?? 0`, the response builders' monetary coercion. */
  function NumberOrZero(v: Value, rt: Runtime): (r: Value)
    ensures r.Num? || r.NaN?
    ensures Nullish(v) ==> r == Num(0.0)
  {
    Coalesce(ToNumberOrNull(v, rt), Num(0.0))
  }

  /** `new Date(v)`: a Date argument is copied, anything else is parsed. */
  function NewDate(v: Value, rt: Runtime): (r: Value)
    ensures r.Date? || r.InvalidDate?
  {
    match v
    case Date(t) => Date(t)
    case InvalidDate => InvalidDate
    case _ =>
      match rt.parseDate(v)
      case Some(t) => Date(t)
      case None => InvalidDate
  }

  /** `Number.isInteger(v)`. */
  predicate IsInteger(v: Value) {
    v.Num? && v.n == v.n.Floor as real
  }

  /** `s.split(',').map((item) => item.trim())`. */
  function TrimmedPieces(s: string): (vs: seq<Value>)
    ensures |vs| == |Split(s, ',')|
    ensures forall i :: 0 <= i < |vs| ==> vs[i] == Str(Trim(Split(s, ',')[i]))
  {
    var parts := Split(s, ',');
    seq(|parts|, i requires 0 <= i < |parts| => Str(Trim(parts[i])))
  }

  /** Splitting a join of trimmed, comma-free pieces and trimming each piece
      hands back the pieces, as string values. */
  lemma TrimmedPiecesOfJoin(ps: seq<string>)
    requires |ps| >= 1
    requires forall i :: 0 <= i < |ps| ==> ',' !in ps[i] && IsTrimmed(ps[i])
    ensures TrimmedPieces(Join(ps, ',')) == seq(|ps|, i requires 0 <= i < |ps| => Str(ps[i]))
  {
    SplitJoin(ps, ',');
    forall i | 0 <= i < |ps|
      ensures Trim(ps[i]) == ps[i]
    {
      TrimOfTrimmed(ps[i]);
    }
  }
}

=== FILE: notes.dfy ===
/** The collaboration-note controller: mention canonicalisation, the page-size
    clamp of the note listing, and the order in which note creation, update and
    removal check their inputs and the caller's ownership. A note belongs to
    whoever owns its client. */
module Notes {
  import opened Wrappers
  import opened JsString
  import opened JsValue
  import opened Store

  // ------------------------------------------------------------ strings

  /** `toTrimmedString`: a string trimmed, anything else the empty string. */
  function ToTrimmedString(v: Value): (r: string)
    ensures IsTrimmed(r)
    ensures !v.Str? ==> r == ""
    ensures v.Str? ==> CutFrom(v.s, r)
  {
    if v.Str? then TrimCut(v.s); Trim(v.s) else ""
  }

  /** A trimmed string, `null` when it is empty: `s || null`. */
  function NonBlank(s: string): (r: Option<string>)
    ensures r.None? <==> s == ""
    ensures r.Some? ==> r.value == s
  {
    if s == "" then None else Some(s)
  }

  // ------------------------------------------------------------ mentions

  /** A canonical mention. A bare string names someone by label only; an object
      record keeps its identifier, display name, e-mail, role and avatar, each
      `null` (`None`) when absent. */
  datatype Mention =
    | Label(text: string)
    | Person(id: Option<string>, name: Option<string>, email: Option<string>,
             role: Option<string>, avatar: Option<string>)

  function OptionValue(o: Option<string>): (v: Value)
    ensures v.Null? <==> o.None?
    ensures o.Some? ==> v == Str(o.value)
  {
    match o
    case Some(s) => Str(s)
    case None => Null
  }

  /** The JSON object a mention is stored and answered as. A label carries no
      role or avatar key. */
  function MentionValue(m: Mention): Value {
    match m
    case Label(l) => Obj(map["id" := Null, "name" := Str(l), "email" := Null])
    case Person(id, name, email, role, avatar) =>
      Obj(map["id" := OptionValue(id), "name" := OptionValue(name), "email" := OptionValue(email),
              "role" := OptionValue(role), "avatar" := OptionValue(avatar)])
  }

  function MentionValues(ms: seq<Mention>): (vs: seq<Value>)
    ensures |vs| == |ms| && forall i :: 0 <= i < |ms| ==> vs[i] == MentionValue(ms[i])
  {
    seq(|ms|, i requires 0 <= i < |ms| => MentionValue(ms[i]))
  }

  /** The identifier of a mention record: `id ?? userId ?? value ?? email ?? null`. */
  function MentionId(raw: Value): Value {
    Coalesce(Coalesce(Coalesce(Coalesce(Get(raw, "id"), Get(raw, "userId")), Get(raw, "value")), Get(raw, "email")), Null)
  }

  /** The first of `id`, `userId`, `value`, `email` that is neither `null` nor
      `undefined` is the identifier; a record with none of them has a `null` one. */
  lemma MentionIdPrecedence(raw: Value)
    ensures !Nullish(Get(raw, "id")) ==> MentionId(raw) == Get(raw, "id")
    ensures Nullish(Get(raw, "id")) && !Nullish(Get(raw, "userId")) ==> MentionId(raw) == Get(raw, "userId")
    ensures Nullish(Get(raw, "id")) && Nullish(Get(raw, "userId")) && !Nullish(Get(raw, "value")) ==>
      MentionId(raw) == Get(raw, "value")
    ensures Nullish(Get(raw, "id")) && Nullish(Get(raw, "userId")) && Nullish(Get(raw, "value")) ==>
      MentionId(raw) == (if Nullish(Get(raw, "email")) then Null else Get(raw, "email"))
  {
  }

  /** The display name of a mention record: the first non-blank of the trimmed
      `name`, `fullName` and `label`, or the empty string. */
  function MentionName(raw: Value): (r: string)
    ensures IsTrimmed(r)
    ensures r == "" <==>
      ToTrimmedString(Get(raw, "name")) == "" && ToTrimmedString(Get(raw, "fullName")) == ""
      && ToTrimmedString(Get(raw, "label")) == ""
    ensures ToTrimmedString(Get(raw, "name")) != "" ==> r == ToTrimmedString(Get(raw, "name"))
    ensures ToTrimmedString(Get(raw, "name")) == "" && ToTrimmedString(Get(raw, "fullName")) != "" ==>
      r == ToTrimmedString(Get(raw, "fullName"))
  {
    var name := ToTrimmedString(Get(raw, "name"));
    if name != "" then name
    else
      var fullName := ToTrimmedString(Get(raw, "fullName"));
      if fullName != "" then fullName else ToTrimmedString(Get(raw, "label"))
  }

  /** `v ? String(v) : null`. */
  function Stringified(v: Value, rt: Runtime): (r: Option<string>)
    ensures r.Some? <==> Truthy(v)
  {
    if Truthy(v) then Some(ToStr(v, rt)) else None
  }

  /** What the normaliser guarantees of every mention it keeps: a label is a
      non-blank trimmed string, and a person record has an identifier, a name
      or an e-mail, its name and e-mail being non-blank trimmed strings. */
  predicate WellFormed(m: Mention) {
    match m
    case Label(l) => l != "" && IsTrimmed(l)
    case Person(id, name, email, _, _) =>
      && (id.Some? || name.Some? || email.Some?)
      && (name.Some? ==> name.value != "" && IsTrimmed(name.value))
      && (email.Some? ==> email.value != "" && IsTrimmed(email.value))
  }

  /** `normalizeMentionRecord`; `None` is the `null` that the list drops. */
  function NormalizeMentionRecord(raw: Value, rt: Runtime): (r: Option<Mention>)
    ensures r.Some? ==> WellFormed(r.value)
    ensures !raw.Str? && !raw.Obj? ==> r.None?
    ensures raw.Str? ==> (r.None? <==> Trim(raw.s) == "") && (r.Some? ==> r.value == Label(Trim(raw.s)))
    ensures raw.Obj? ==> r.None? || r.value.Person?
    ensures raw.Obj? ==> (r.None? <==>
      !Truthy(MentionId(raw)) && MentionName(raw) == "" && ToTrimmedString(Get(raw, "email")) == "")
  {
    if Nullish(raw) then None
    else if raw.Str? then
      var text := Trim(raw.s);
      if text != "" then Some(Label(text)) else None
    else if !IsObjectLike(raw) then None
    else
      var id := MentionId(raw);
      var name := MentionName(raw);
      var email := ToTrimmedString(Get(raw, "email"));
      if !Truthy(id) && name == "" && email == "" then None
      else Some(Person(Stringified(id, rt), NonBlank(name), NonBlank(email),
                       Stringified(Get(raw, "role"), rt), Stringified(Get(raw, "avatar"), rt)))
  }

  /** The fields of a kept object record, each read from the raw record. */
  lemma RecordFields(raw: Value, rt: Runtime)
    requires raw.Obj? && NormalizeMentionRecord(raw, rt).Some?
    ensures var m := NormalizeMentionRecord(raw, rt).value;
      && m.Person?
      && m.id == Stringified(MentionId(raw), rt)
      && m.name == NonBlank(MentionName(raw))
      && m.email == NonBlank(ToTrimmedString(Get(raw, "email")))
      && m.role == Stringified(Get(raw, "role"), rt)
      && m.avatar == Stringified(Get(raw, "avatar"), rt)
  {
  }

  /** A record with a name and an e-mail but no `id`, `userId` or `value` takes
      its e-mail, untrimmed, as its identifier. */
  lemma EmailStandsInForId(name: string, email: string, rt: Runtime)
    requires email != ""
    ensures NormalizeMentionRecord(Obj(map["name" := Str(name), "email" := Str(email)]), rt)
      == Some(Person(Some(email), NonBlank(Trim(name)), NonBlank(Trim(email)), None, None))
  {
    var raw := Obj(map["name" := Str(name), "email" := Str(email)]);
    NameEmailReads(name, email);
    assert MentionId(raw) == Str(email);
    assert MentionName(raw) == Trim(name);
    RecordFields(raw, rt);
  }

  lemma NameEmailReads(name: string, email: string)
    ensures var raw := Obj(map["name" := Str(name), "email" := Str(email)]);
      && Get(raw, "id") == Undefined && Get(raw, "userId") == Undefined && Get(raw, "value") == Undefined
      && Get(raw, "name") == Str(name) && Get(raw, "email") == Str(email)
      && Get(raw, "fullName") == Undefined && Get(raw, "label") == Undefined
      && Get(raw, "role") == Undefined && Get(raw, "avatar") == Undefined
  {
  }

  /** A stored person mention read back through the normaliser is itself,
      provided it has non-empty strings where it has any and does not lack an
      identifier while having an e-mail (the e-mail would become the identifier). */
  predicate Stable(m: Mention) {
    && m.Person?
    && WellFormed(m)
    && (m.id.Some? ==> m.id.value != "")
    && (m.id.None? ==> m.email.None?)
    && (m.role.Some? ==> m.role.value != "")
    && (m.avatar.Some? ==> m.avatar.value != "")
  }

  lemma {:induction false} ReadBack(m: Mention, rt: Runtime)
    requires Stable(m)
    ensures NormalizeMentionRecord(MentionValue(m), rt) == Some(m)
  {
    var raw := MentionValue(m);
    ReadBackFields(m);
    OptionStringified(m.role, rt);
    OptionStringified(m.avatar, rt);
    OptionStringified(m.id, rt);
    ReadBackId(m);
    ReadBackName(m);
    OptionTrimmed(m.email);
  }

  /** The five keys of a stored person mention read back as written. */
  lemma ReadBackFields(m: Mention)
    requires m.Person?
    ensures var raw := MentionValue(m);
      && Get(raw, "id") == OptionValue(m.id) && Get(raw, "name") == OptionValue(m.name)
      && Get(raw, "email") == OptionValue(m.email) && Get(raw, "role") == OptionValue(m.role)
      && Get(raw, "avatar") == OptionValue(m.avatar)
  {
  }

  lemma ReadBackId(m: Mention)
    requires Stable(m)
    ensures MentionId(MentionValue(m)) == OptionValue(m.id)
  {
    var raw := MentionValue(m);
    ReadBackFields(m);
    assert Get(raw, "userId") == Undefined && Get(raw, "value") == Undefined;
  }

  lemma ReadBackName(m: Mention)
    requires Stable(m)
    ensures MentionName(MentionValue(m)) == (if m.name.Some? then m.name.value else "")
  {
    var raw := MentionValue(m);
    ReadBackFields(m);
    OptionTrimmed(m.name);
    assert Get(raw, "fullName") == Undefined && Get(raw, "label") == Undefined;
  }

  lemma OptionStringified(o: Option<string>, rt: Runtime)
    requires o.Some? ==> o.value != ""
    ensures Stringified(OptionValue(o), rt) == o
  {
  }

  lemma OptionTrimmed(o: Option<string>)
    requires o.Some? ==> o.value != "" && IsTrimmed(o.value)
    ensures ToTrimmedString(OptionValue(o)) == (if o.Some? then o.value else "")
    ensures NonBlank(ToTrimmedString(OptionValue(o))) == o
  {
    if o.Some? {
      TrimOfTrimmed(o.value);
    }
  }

  lemma ReadBackKept(m: Mention, rt: Runtime)
    requires Stable(m)
    ensures Kept(MentionValue(m), rt) == [m]
  {
    ReadBack(m, rt);
  }

  /** A label read back becomes a person with only that name. */
  lemma LabelReadBack(l: string, rt: Runtime)
    requires l != "" && IsTrimmed(l)
    ensures NormalizeMentionRecord(MentionValue(Label(l)), rt) == Some(Person(None, Some(l), None, None, None))
  {
    var raw := MentionValue(Label(l));
    assert Get(raw, "id") == Null && Get(raw, "name") == Str(l) && Get(raw, "email") == Null;
    assert Get(raw, "userId") == Undefined && Get(raw, "value") == Undefined;
    assert MentionId(raw) == Null;
    TrimOfTrimmed(l);
    assert MentionName(raw) == l;
    assert Get(raw, "role") == Undefined && Get(raw, "avatar") == Undefined;
  }

  /** One raw record's contribution to the list: the `null` is filtered out. */
  function Kept(x: Value, rt: Runtime): (ms: seq<Mention>)
    ensures ms == [] <==> NormalizeMentionRecord(x, rt).None?
    ensures ms != [] ==> ms == [NormalizeMentionRecord(x, rt).value]
  {
    match NormalizeMentionRecord(x, rt)
    case Some(m) => [m]
    case None => []
  }

  /** Every mention of a list satisfies `WellFormed`. */
  predicate AllWellFormed(ms: seq<Mention>) {
    forall i :: 0 <= i < |ms| ==> WellFormed(ms[i])
  }

  lemma AllWellFormedAppend(a: seq<Mention>, b: seq<Mention>)
    requires AllWellFormed(a) && AllWellFormed(b)
    ensures AllWellFormed(a + b)
  {
    forall i | 0 <= i < |a + b|
      ensures WellFormed((a + b)[i])
    {
      if i < |a| {
        assert (a + b)[i] == a[i];
      } else {
        assert (a + b)[i] == b[i - |a|];
      }
    }
  }

  /** The mentions kept from a list of raw records, in order. */
  function KeepMentions(raw: seq<Value>, rt: Runtime): (ms: seq<Mention>)
    ensures |ms| <= |raw|
    ensures AllWellFormed(ms)
  {
    if raw == [] then []
    else
      var head := Kept(raw[0], rt);
      var rest := KeepMentions(raw[1..], rt);
      AllWellFormedAppend(head, rest);
      head + rest
  }

  lemma KeepCons(x: Value, rest: seq<Value>, rt: Runtime)
    ensures KeepMentions([x] + rest, rt) == Kept(x, rt) + KeepMentions(rest, rt)
  {
    assert ([x] + rest)[1..] == rest;
  }

  lemma KeepSingle(x: Value, rt: Runtime)
    ensures KeepMentions([x], rt) == Kept(x, rt)
  {
    assert [x][1..] == [];
  }

  lemma {:induction false} KeepMentionsAppend(a: seq<Value>, b: seq<Value>, rt: Runtime)
    ensures KeepMentions(a + b, rt) == KeepMentions(a, rt) + KeepMentions(b, rt)
  {
    if a == [] {
      assert a + b == b;
    } else {
      assert (a + b)[0] == a[0];
      assert (a + b)[1..] == a[1..] + b;
      KeepMentionsAppend(a[1..], b, rt);
    }
  }

  /** A non-blank trimmed string is kept as a label of itself. */
  lemma LabelOf(s: string, rt: Runtime)
    requires s != "" && IsTrimmed(s)
    ensures Kept(Str(s), rt) == [Label(s)]
  {
    TrimOfTrimmed(s);
  }

  /** `null`, `undefined` and the empty string are dropped. */
  lemma BlankDropped(x: Value, rt: Runtime)
    requires Nullish(x) || x == Str("")
    ensures Kept(x, rt) == []
  {
    if x == Str("") {
      assert Trim("") == "";
    }
  }

  /** The raw records `normalizeMentions` looks at: an array as it is, a string
      split on commas with each piece trimmed, nothing for anything else. */
  function MentionList(mentions: Value): (raw: seq<Value>)
    ensures !Truthy(mentions) ==> raw == []
    ensures !mentions.Arr? && !mentions.Str? ==> raw == []
  {
    if !Truthy(mentions) then []
    else if mentions.Arr? then mentions.items
    else if mentions.Str? then TrimmedPieces(mentions.s)
    else []
  }

  /** `normalizeMentions`. The result holds only mentions, never `null`. */
  function NormalizeMentions(mentions: Value, rt: Runtime): (ms: seq<Mention>)
    ensures !Truthy(mentions) ==> ms == []
    ensures !mentions.Arr? && !mentions.Str? ==> ms == []
    ensures forall i :: 0 <= i < |ms| ==> WellFormed(ms[i])
  {
    KeepMentions(MentionList(mentions), rt)
  }

  /** The labels of a list of strings. */
  function Labels(ps: seq<string>): (ms: seq<Mention>)
    ensures |ms| == |ps| && forall i :: 0 <= i < |ps| ==> ms[i] == Label(ps[i])
  {
    seq(|ps|, i requires 0 <= i < |ps| => Label(ps[i]))
  }

  /** A comma-separated string becomes one label per piece: any list of
      non-empty, trimmed, comma-free strings joined with commas normalises to
      their labels, in order. */
  lemma StringMentionsSplit(ps: seq<string>, rt: Runtime)
    requires forall i :: 0 <= i < |ps| ==> ps[i] != "" && IsTrimmed(ps[i]) && ',' !in ps[i]
    ensures NormalizeMentions(Str(Join(ps, ',')), rt) == Labels(ps)
  {
    if ps != [] {
      JoinedMentionList(ps);
      KeepLabels(ps, rt);
    }
  }

  lemma JoinedMentionList(ps: seq<string>)
    requires |ps| >= 1
    requires forall i :: 0 <= i < |ps| ==> ps[i] != "" && IsTrimmed(ps[i]) && ',' !in ps[i]
    ensures MentionList(Str(Join(ps, ','))) == seq(|ps|, i requires 0 <= i < |ps| => Str(ps[i]))
  {
    JoinNonEmpty(ps);
    TrimmedPiecesOfJoin(ps);
  }

  lemma JoinNonEmpty(ps: seq<string>)
    requires |ps| >= 1 && ps[0] != ""
    ensures Join(ps, ',') != ""
  {
    if |ps| > 1 {
      assert Join(ps, ',')[0] == ps[0][0];
    }
  }

  lemma {:induction false} KeepLabels(ps: seq<string>, rt: Runtime)
    requires forall i :: 0 <= i < |ps| ==> ps[i] != "" && IsTrimmed(ps[i])
    ensures KeepMentions(seq(|ps|, i requires 0 <= i < |ps| => Str(ps[i])), rt) == Labels(ps)
  {
    if ps != [] {
      var vs := seq(|ps|, i requires 0 <= i < |ps| => Str(ps[i]));
      assert vs[1..] == seq(|ps[1..]|, i requires 0 <= i < |ps[1..]| => Str(ps[1..][i]));
      KeepLabels(ps[1..], rt);
      assert Labels(ps)[1..] == Labels(ps[1..]);
      LabelOf(ps[0], rt);
      KeepStep(vs, Labels(ps), rt);
    }
  }

  /** `null`, `undefined` and blank entries of an array are dropped without
      disturbing the others. */
  lemma NormalizeMentionsDropsBlank(a: seq<Value>, x: Value, b: seq<Value>, rt: Runtime)
    requires Nullish(x) || x == Str("")
    ensures NormalizeMentions(Arr(a + [x] + b), rt) == NormalizeMentions(Arr(a + b), rt)
  {
    assert MentionList(Arr(a + [x] + b)) == a + [x] + b;
    assert MentionList(Arr(a + b)) == a + b;
    KeepDropsBlank(a, x, b, rt);
  }

  lemma KeepDropsBlank(a: seq<Value>, x: Value, b: seq<Value>, rt: Runtime)
    requires Nullish(x) || x == Str("")
    ensures KeepMentions(a + [x] + b, rt) == KeepMentions(a + b, rt)
  {
    BlankDropped(x, rt);
    KeepSingle(x, rt);
    var front := KeepMentions(a, rt);
    KeepMentionsAppend(a, [x], rt);
    assert KeepMentions(a + [x], rt) == front + [];
    assert front + [] == front;
    KeepMentionsAppend(a + [x], b, rt);
    KeepMentionsAppend(a, b, rt);
  }

  /** Stored person mentions normalise back to themselves. */
  predicate AllStable(ms: seq<Mention>) {
    forall i :: 0 <= i < |ms| ==> Stable(ms[i])
  }

  lemma {:induction false} NormalizeMentionsReadBack(ms: seq<Mention>, rt: Runtime)
    requires AllStable(ms)
    ensures KeepMentions(MentionValues(ms), rt) == ms
  {
    if ms != [] {
      var vs := MentionValues(ms);
      ReadBackKept(ms[0], rt);
      AllStableTail(ms);
      assert vs[1..] == MentionValues(ms[1..]);
      NormalizeMentionsReadBack(ms[1..], rt);
      KeepStep(vs, ms, rt);
    }
  }

  lemma AllStableTail(ms: seq<Mention>)
    requires AllStable(ms) && ms != []
    ensures Stable(ms[0]) && AllStable(ms[1..])
  {
    forall i | 0 <= i < |ms[1..]|
      ensures Stable(ms[1..][i])
    {
      assert ms[1..][i] == ms[i + 1];
    }
  }

  /** A list whose head is kept as itself and whose tail normalises to the
      rest normalises to the whole. */
  lemma KeepStep(vs: seq<Value>, ms: seq<Mention>, rt: Runtime)
    requires vs != [] && ms != []
    requires Kept(vs[0], rt) == [ms[0]] && KeepMentions(vs[1..], rt) == ms[1..]
    ensures KeepMentions(vs, rt) == ms
  {
    assert vs == [vs[0]] + vs[1..];
    KeepCons(vs[0], vs[1..], rt);
    assert ms == [ms[0]] + ms[1..];
  }

  // ------------------------------------------------------------ responses

  /** `buildNoteResponse` on a stored note: `mentions` becomes an array, an
      array already there is kept, every other column is copied. */
  function BuildNoteResponse(note: Row, rt: Runtime): (r: Row)
    ensures r.Keys == note.Keys + {"mentions"}
    ensures "mentions" in r && r["mentions"].Arr?
    ensures Col(note, "mentions").Arr? ==> r == note
    ensures forall k :: k in note && k != "mentions" ==> r[k] == note[k]
  {
    var mentions := Col(note, "mentions");
    if mentions.Arr? then note
    else note["mentions" := Arr(MentionValues(NormalizeMentions(mentions, rt)))]
  }

  /** A note whose mentions are not an array answers them normalised. */
  lemma ResponseNormalizesMentions(note: Row, rt: Runtime)
    requires !Col(note, "mentions").Arr?
    ensures BuildNoteResponse(note, rt)["mentions"] == Arr(MentionValues(NormalizeMentions(Col(note, "mentions"), rt)))
  {
  }

  // ------------------------------------------------------------ listing

  /** The most notes one listing returns. */
  const MaxPageSize := 100

  /** The listing's `take`: `None` (everything) unless `Number(limit)` is a
      positive integer, which is then capped at 100. */
  function SanitizeTake(limit: Value, rt: Runtime): (take: Option<int>)
    ensures take.Some? <==> IsInteger(NumberValue(limit, rt)) && NumberValue(limit, rt).n > 0.0
    ensures take.Some? ==> 1 <= take.value <= MaxPageSize
    ensures take.Some? && NumberValue(limit, rt).n <= MaxPageSize as real ==>
      take.value as real == NumberValue(limit, rt).n
    ensures take.Some? && NumberValue(limit, rt).n > MaxPageSize as real ==> take.value == MaxPageSize
  {
    var n := NumberValue(limit, rt);
    if IsInteger(n) && n.n > 0.0 then
      Some(if n.n.Floor < MaxPageSize then n.n.Floor else MaxPageSize)
    else None
  }

  /** A limit of 1000 reads 100; a missing, zero, negative or fractional one
      lifts the cap. */
  lemma TakeExamples(rt: Runtime)
    ensures SanitizeTake(Num(1000.0), rt) == Some(100)
    ensures SanitizeTake(Undefined, rt) == None
    ensures SanitizeTake(Num(0.0), rt) == None
    ensures SanitizeTake(Num(-5.0), rt) == None
    ensures SanitizeTake(Num(2.5), rt) == None
  {
  }

  /** The store query a listing makes: the client's notes, newest first, at
      most `take` of them. */
  datatype NoteQuery = NoteQuery(clientId: string, take: Option<int>)

  /** A listing either refuses with a reply or answers the query's notes. */
  datatype Listing = Refused(reply: Reply) | Listed(query: NoteQuery)

  /** `getNotesByClient`: 400 without a client id, 404 unless the caller owns
      the client, and only then the page size is read. */
  function GetNotesByClient(db: Db, clientId: string, limit: Value, user: string, rt: Runtime): (r: Listing)
    ensures r == Refused(BadRequest(MissingClientId)) <==> clientId == ""
    ensures r == Refused(NotFound(ClientEntity)) <==> clientId != "" && !Owned(db.clients, Str(clientId), user)
    ensures r.Listed? <==> clientId != "" && Owned(db.clients, Str(clientId), user)
    ensures r.Listed? ==> r.query.clientId == clientId && r.query.take == SanitizeTake(limit, rt)
  {
    if clientId == "" then Refused(BadRequest(MissingClientId))
    else if !Owned(db.clients, Str(clientId), user) then Refused(NotFound(ClientEntity))
    else Listed(NoteQuery(clientId, SanitizeTake(limit, rt)))
  }

  // ------------------------------------------------------------ ownership

  /** `ensureNoteOwnership`: the note exists and its client is owned by `user`. */
  predicate NoteOwned(db: Db, id: string, user: string) {
    id in db.notes && Owned(db.clients, Col(db.notes[id], "clientId"), user)
  }

  /** `getNoteById`: the shaped note, or `None` for 404. */
  function GetNoteById(db: Db, id: string, user: string, rt: Runtime): (r: Option<Row>)
    ensures r.Some? <==> NoteOwned(db, id, user)
    ensures r.Some? ==> "mentions" in r.value && r.value["mentions"].Arr?
    ensures r.Some? ==> forall k :: k in db.notes[id] && k != "mentions" ==> k in r.value && r.value[k] == db.notes[id][k]
  {
    if NoteOwned(db, id, user) then Some(BuildNoteResponse(db.notes[id], rt)) else None
  }

  // ------------------------------------------------------------ create

  /** The signed-in user as the note controller reads it. */
  datatype Author = Author(id: string, name: Value, username: Value)

  /** The row `createNote` stores; an author with neither a name nor a
      username leaves `authorName` unset, as the store skips `undefined`. */
  function NoteRow(clientId: string, content: string, mentions: seq<Mention>, author: Author): Row {
    Defined(map[
      "clientId" := Str(clientId),
      "content" := Str(content),
      "mentions" := Arr(MentionValues(mentions)),
      "authorId" := Str(author.id),
      "authorName" := Or(author.name, author.username)])
  }

  /** `createNote`: 400 without a client id, then 404 unless the caller owns
      the client, then 400 for blank content; the note is stored with trimmed
      content and normalised mentions. */
  function CreateNote(db: Db, clientId: string, body: Value, author: Author, newId: string, rt: Runtime): (o: Outcome)
    ensures o.reply in {Created, BadRequest(MissingClientId), NotFound(ClientEntity), BadRequest(EmptyContent), ServerError}
    ensures o.reply != Created ==> o.db == db
    ensures o.reply == BadRequest(MissingClientId) <==> clientId == ""
    ensures o.reply == NotFound(ClientEntity) <==> clientId != "" && !Owned(db.clients, Str(clientId), author.id)
    ensures o.reply == BadRequest(EmptyContent) <==>
      clientId != "" && Owned(db.clients, Str(clientId), author.id) && ToTrimmedString(Get(body, "content")) == ""
    ensures o.reply == ServerError <==>
      clientId != "" && Owned(db.clients, Str(clientId), author.id) && ToTrimmedString(Get(body, "content")) != ""
      && (newId in db.notes || !Storable(NoteRow(clientId, ToTrimmedString(Get(body, "content")),
                                                 NormalizeMentions(Get(body, "mentions"), rt), author)))
    ensures o.reply == Created ==> o.db == db.(notes := db.notes[newId :=
      NoteRow(clientId, ToTrimmedString(Get(body, "content")), NormalizeMentions(Get(body, "mentions"), rt), author)])
  {
    if clientId == "" then Outcome(BadRequest(MissingClientId), db)
    else if !Owned(db.clients, Str(clientId), author.id) then Outcome(NotFound(ClientEntity), db)
    else
      var content := ToTrimmedString(Get(body, "content"));
      if content == "" then Outcome(BadRequest(EmptyContent), db)
      else
        match Insert(db.notes, newId, NoteRow(clientId, content, NormalizeMentions(Get(body, "mentions"), rt), author))
        case None => Outcome(ServerError, db)
        case Some(t) => Outcome(Created, db.(notes := t))
  }

  /** A created note is authored by the caller, belongs to a client the caller
      owns, and has non-blank trimmed content. */
  lemma CreatedNoteIsTheCallers(db: Db, clientId: string, body: Value, author: Author, newId: string, rt: Runtime)
    requires CreateNote(db, clientId, body, author, newId, rt).reply == Created
    ensures var note := CreateNote(db, clientId, body, author, newId, rt).db.notes[newId];
      && Col(note, "authorId") == Str(author.id)
      && Col(note, "content").Str? && Col(note, "content").s != "" && IsTrimmed(Col(note, "content").s)
    ensures NoteOwned(CreateNote(db, clientId, body, author, newId, rt).db, newId, author.id)
  {
    var content := ToTrimmedString(Get(body, "content"));
    NoteRowColumns(clientId, content, NormalizeMentions(Get(body, "mentions"), rt), author);
  }

  lemma NoteRowColumns(clientId: string, content: string, mentions: seq<Mention>, author: Author)
    ensures var row := NoteRow(clientId, content, mentions, author);
      && Col(row, "clientId") == Str(clientId) && Col(row, "authorId") == Str(author.id)
      && Col(row, "content") == Str(content)
      && Col(row, "authorName") == Or(author.name, author.username)
      && ("authorName" in row <==> !Or(author.name, author.username).Undefined?)
  {
  }

  /** Ownership is checked before content: blank content on someone else's
      client is a 404, not a 400. */
  lemma OwnershipBeforeContent(db: Db, clientId: string, body: Value, author: Author, newId: string, rt: Runtime)
    requires clientId != "" && !Owned(db.clients, Str(clientId), author.id)
    ensures CreateNote(db, clientId, body, author, newId, rt) == Outcome(NotFound(ClientEntity), db)
  {
  }

  // ------------------------------------------------------------ update

  /** A supplied `content` that trims to nothing. */
  predicate BlankContent(body: Value) {
    !Get(body, "content").Undefined? && ToTrimmedString(Get(body, "content")) == ""
  }

  /** The body fields `updateNote` reads. */
  const NoteFields: set<string> := {"content", "mentions", "authorName"}

  /** The column written for a supplied body field: trimmed content,
      normalised mentions, the trimmed author name or `null` when blank. */
  function NoteFieldValue(body: Value, key: string, rt: Runtime): Value {
    var v := Get(body, key);
    if key == "content" then Str(ToTrimmedString(v))
    else if key == "mentions" then Arr(MentionValues(NormalizeMentions(v, rt)))
    else OptionValue(NonBlank(ToTrimmedString(v)))
  }

  /** The columns `updateNote` writes: exactly the note fields the body
      supplies, none other. */
  function NoteChanges(body: Value, rt: Runtime): (data: Row)
    ensures forall k :: k in data <==> k in NoteFields && !Get(body, k).Undefined?
  {
    map k | k in NoteFields && !Get(body, k).Undefined? :: NoteFieldValue(body, k, rt)
  }

  /** A supplied author name is stored trimmed, or `null` when blank. */
  lemma AuthorNameChange(body: Value, rt: Runtime)
    requires !Get(body, "authorName").Undefined?
    ensures var t := ToTrimmedString(Get(body, "authorName"));
      NoteChanges(body, rt)["authorName"] == (if t == "" then Null else Str(t))
  {
  }

  /** `updateNote`: the body is validated (blank content, then nothing to
      change) before the note is looked up; 404 unless the caller owns the
      note's client. */
  function UpdateNote(db: Db, id: string, body: Value, user: string, rt: Runtime): (o: Outcome)
    ensures o.reply in {Ok, BadRequest(EmptyContent), BadRequest(NothingToUpdate), NotFound(NoteEntity)}
    ensures o.reply != Ok ==> o.db == db
    ensures o.reply == BadRequest(EmptyContent) <==> BlankContent(body)
    ensures o.reply == BadRequest(NothingToUpdate) <==> !BlankContent(body) && NoteChanges(body, rt) == map[]
    ensures o.reply == NotFound(NoteEntity) <==>
      !BlankContent(body) && NoteChanges(body, rt) != map[] && !NoteOwned(db, id, user)
    ensures o.reply == Ok ==> o.db == db.(notes := db.notes[id := Merge(db.notes[id], NoteChanges(body, rt))])
  {
    if BlankContent(body) then Outcome(BadRequest(EmptyContent), db)
    else
      var data := NoteChanges(body, rt);
      if data == map[] then Outcome(BadRequest(NothingToUpdate), db)
      else if !NoteOwned(db, id, user) then Outcome(NotFound(NoteEntity), db)
      else Outcome(Ok, db.(notes := db.notes[id := Merge(db.notes[id], data)]))
  }

  /** A body with none of `content`, `mentions` and `authorName` is refused
      whatever the store holds, even for a note that does not exist. */
  lemma EmptyUpdateIsRejected(db: Db, id: string, body: Value, user: string, rt: Runtime)
    requires Get(body, "content").Undefined? && Get(body, "mentions").Undefined? && Get(body, "authorName").Undefined?
    ensures UpdateNote(db, id, body, user, rt) == Outcome(BadRequest(NothingToUpdate), db)
  {
    assert NoteChanges(body, rt).Keys == {};
  }

  /** An update never moves a note to another client, never changes its
      author, and leaves the note owned by the caller. */
  lemma UpdateKeepsClientAndAuthor(db: Db, id: string, body: Value, user: string, rt: Runtime)
    requires UpdateNote(db, id, body, user, rt).reply == Ok
    ensures var db' := UpdateNote(db, id, body, user, rt).db;
      && Col(db'.notes[id], "clientId") == Col(db.notes[id], "clientId")
      && Col(db'.notes[id], "authorId") == Col(db.notes[id], "authorId")
      && NoteOwned(db', id, user)
  {
    ChangesLeaveOwnership(body, rt);
  }

  lemma ChangesLeaveOwnership(body: Value, rt: Runtime)
    ensures "clientId" !in NoteChanges(body, rt) && "authorId" !in NoteChanges(body, rt)
  {
    assert "clientId" !in NoteFields && "authorId" !in NoteFields;
  }

  // ------------------------------------------------------------ delete

  /** `deleteNote`: 404 unless the caller owns the note's client, otherwise
      204 removing exactly that note. */
  function DeleteNote(db: Db, id: string, user: string): (o: Outcome)
    ensures o.reply == NoContent <==> NoteOwned(db, id, user)
    ensures o.reply != NoContent ==> o == Outcome(NotFound(NoteEntity), db)
    ensures o.reply == NoContent ==> o.db == db.(notes := db.notes - {id})
  {
    if NoteOwned(db, id, user) then Outcome(NoContent, db.(notes := db.notes - {id}))
    else Outcome(NotFound(NoteEntity), db)
  }

  /** Deleting the same note twice answers 204 and then 404. */
  lemma DeleteTwice(db: Db, id: string, user: string)
    requires NoteOwned(db, id, user)
    ensures DeleteNote(db, id, user).reply == NoContent
    ensures DeleteNote(DeleteNote(db, id, user).db, id, user) == Outcome(NotFound(NoteEntity), DeleteNote(db, id, user).db)
  {
  }
}

=== FILE: opportunities.dfy ===
/** The opportunity controller: response shaping and the owner-guarded create,
    update and delete transitions over the opportunity table. */
module Opportunities {
  import opened Wrappers
  import opened JsValue
  import opened Store

  // ------------------------------------------------------------ response

  /** `buildOpportunityResponse`: `None` for no record; otherwise the record
      with a numeric `estimatedValue` (0 when missing) and a `clientName` that
      is never missing. */
  function BuildOpportunityResponse(opp: Option<Row>, rt: Runtime): (r: Option<Row>)
    ensures r.None? <==> opp.None?
    ensures r.Some? ==> r.value.Keys == opp.value.Keys + {"estimatedValue", "clientName"}
    ensures r.Some? ==> forall k :: k in opp.value && k !in {"estimatedValue", "clientName"} ==> r.value[k] == opp.value[k]
  {
    match opp
    case None => None
    case Some(row) =>
      Some(row["estimatedValue" := NumberOrZero(Col(row, "estimatedValue"), rt)]
              ["clientName" := JoinedClientName(row)])
  }

  /** The estimated value defaults to 0 and the client name falls back to the
      stored one and then to the empty string. */
  lemma ResponseColumns(row: Row, rt: Runtime)
    ensures var r := BuildOpportunityResponse(Some(row), rt).value;
      && (r["estimatedValue"].Num? || r["estimatedValue"].NaN?)
      && (Nullish(Col(row, "estimatedValue")) ==> r["estimatedValue"] == Num(0.0))
      && (Truthy(r["clientName"]) || r["clientName"] == Str(""))
      && r["clientName"] == JoinedClientName(row)
  {
  }

  /** `getAllOpportunities`: the caller's opportunities, each read with its
      client joined and then shaped; every listed record carries the caller's
      id, the linked client, and that client's name when it has one. */
  function GetAllOpportunities(db: Db, user: string, rt: Runtime): (r: map<string, Row>)
    ensures r.Keys == ListOwned(db.opportunities, user)
    ensures forall id :: id in r ==>
      && r[id].Keys == db.opportunities[id].Keys + {"client", "estimatedValue", "clientName"}
      && r[id]["ownerId"] == Str(user)
      && r[id]["client"] == LinkedClient(db, db.opportunities[id])
      && r[id]["clientName"] == ShownClientName(db, db.opportunities[id])
  {
    map id | id in ListOwned(db.opportunities, user) :: ListedOpportunity(db, id, rt)
  }

  /** One entry of the listing. */
  function ListedOpportunity(db: Db, id: string, rt: Runtime): (r: Row)
    requires id in db.opportunities
    ensures r.Keys == db.opportunities[id].Keys + {"client", "estimatedValue", "clientName"}
    ensures forall k :: k in db.opportunities[id] && k !in {"client", "estimatedValue", "clientName"} ==>
      r[k] == db.opportunities[id][k]
    ensures r["client"] == LinkedClient(db, db.opportunities[id])
    ensures r["clientName"] == ShownClientName(db, db.opportunities[id])
  {
    var row := WithClient(db, db.opportunities[id]);
    JoinedNameIsShown(db, db.opportunities[id]);
    BuildOpportunityResponse(Some(row), rt).value
  }

  // ------------------------------------------------------------ create

  /** The required body fields of `createOpportunity`. */
  predicate HasRequired(body: Value) {
    Truthy(Get(body, "title")) && Truthy(Get(body, "clientId")) && Truthy(Get(body, "stage"))
  }

  /** The columns `createOpportunity` writes, before `undefined` ones are
      dropped. */
  function OpportunityData(body: Value, user: string, rt: Runtime): map<string, Value> {
    map[
      "title" := Get(body, "title"),
      "clientId" := Get(body, "clientId"),
      "source" := Get(body, "source"),
      "estimatedValue" := Or(Get(body, "estimatedValue"), Num(0.0)),
      "stage" := Get(body, "stage"),
      "probability" := Coalesce(Get(body, "probability"), Num(0.0)),
      "expectedCloseDate" :=
        if Truthy(Get(body, "expectedCloseDate")) then NewDate(Get(body, "expectedCloseDate"), rt) else Null,
      "responsible" := Get(body, "responsible"),
      "nextAction" := Get(body, "nextAction"),
      "ownerId" := Str(user)]
  }

  /** The row `createOpportunity` stores. */
  function OpportunityRow(body: Value, user: string, rt: Runtime): Row {
    Defined(OpportunityData(body, user, rt))
  }

  lemma RowOwnerAndClient(body: Value, user: string, rt: Runtime)
    requires Truthy(Get(body, "clientId"))
    ensures var row := OpportunityRow(body, user, rt);
      Col(row, "ownerId") == Str(user) && Col(row, "clientId") == Get(body, "clientId")
  {
    var data := OpportunityData(body, user, rt);
    assert data["ownerId"] == Str(user);
    assert data["clientId"] == Get(body, "clientId");
  }

  /** The estimated value defaults with `||`, so any falsy value becomes 0;
      the probability defaults with `??`, so only a missing one becomes 0 and
      an explicit 0 (or any other falsy value) is kept. */
  lemma RowDefaults(body: Value, user: string, rt: Runtime)
    ensures var row := OpportunityRow(body, user, rt);
      && Col(row, "estimatedValue") == (if Truthy(Get(body, "estimatedValue")) then Get(body, "estimatedValue") else Num(0.0))
      && Col(row, "probability") == (if Nullish(Get(body, "probability")) then Num(0.0) else Get(body, "probability"))
      && (!Truthy(Get(body, "expectedCloseDate")) ==> Col(row, "expectedCloseDate") == Null)
  {
    var data := OpportunityData(body, user, rt);
    assert data["estimatedValue"] == Or(Get(body, "estimatedValue"), Num(0.0));
    assert data["probability"] == Coalesce(Get(body, "probability"), Num(0.0));
    assert !Truthy(Get(body, "expectedCloseDate")) ==> data["expectedCloseDate"] == Null;
  }

  /** `createOpportunity`: 400 before any lookup when `title`, `clientId` or
      `stage` is falsy, 404 unless the caller owns the client, 500 when the
      store refuses the row, and otherwise the row is added under `newId`. */
  function CreateOpportunity(db: Db, body: Value, user: string, newId: string, rt: Runtime): (o: Outcome)
    ensures o.reply in {Created, BadRequest(MissingRequired), NotFound(ClientEntity), ServerError}
    ensures o.reply != Created ==> o.db == db
    ensures o.reply == BadRequest(MissingRequired) <==> !HasRequired(body)
    ensures o.reply == NotFound(ClientEntity) <==> HasRequired(body) && !Owned(db.clients, Get(body, "clientId"), user)
    ensures o.reply == ServerError <==>
      HasRequired(body) && Owned(db.clients, Get(body, "clientId"), user)
      && (newId in db.opportunities || !Storable(OpportunityRow(body, user, rt)))
    ensures o.reply == Created ==>
      o.db == db.(opportunities := db.opportunities[newId := OpportunityRow(body, user, rt)])
  {
    if !HasRequired(body) then Outcome(BadRequest(MissingRequired), db)
    else if !Owned(db.clients, Get(body, "clientId"), user) then Outcome(NotFound(ClientEntity), db)
    else
      match Insert(db.opportunities, newId, OpportunityRow(body, user, rt))
      case None => Outcome(ServerError, db)
      case Some(t) => Outcome(Created, db.(opportunities := t))
  }

  /** A created opportunity belongs to the caller and to a client the caller
      owns, and no other user's opportunity is touched. */
  lemma CreateIsolated(db: Db, body: Value, user: string, newId: string, rt: Runtime)
    requires CreateOpportunity(db, body, user, newId, rt).reply == Created
    ensures var db' := CreateOpportunity(db, body, user, newId, rt).db;
      && Isolated(db.opportunities, db'.opportunities, user)
      && Owned(db'.opportunities, Str(newId), user)
      && Owned(db.clients, Col(db'.opportunities[newId], "clientId"), user)
  {
    RowOwnerAndClient(body, user, rt);
    AdditionIsolated(db.opportunities, newId, OpportunityRow(body, user, rt), user);
  }

  // ------------------------------------------------------------ update

  /** The client re-check of an update: only for a truthy `clientId` that is
      not the stored one, failing when the caller does not own that client. */
  predicate ClientRecheckFails(db: Db, existing: Row, body: Value, user: string) {
    var clientId := Get(body, "clientId");
    Truthy(clientId) && !StrictEquals(clientId, Col(existing, "clientId")) && !Owned(db.clients, clientId, user)
  }

  /** `updateOpportunity`: 404 unless the caller owns the opportunity, then
      404 when a newly named client is not the caller's; otherwise the body's
      fields are written over the row. */
  function UpdateOpportunity(db: Db, id: string, body: Value, user: string): (o: Outcome)
    ensures o.reply in {Ok, NotFound(OpportunityEntity), NotFound(ClientEntity)}
    ensures o.reply != Ok ==> o.db == db
    ensures o.reply == NotFound(OpportunityEntity) <==> !Owned(db.opportunities, Str(id), user)
    ensures o.reply == NotFound(ClientEntity) <==>
      Owned(db.opportunities, Str(id), user) && ClientRecheckFails(db, db.opportunities[id], body, user)
    ensures o.reply == Ok ==>
      o.db == db.(opportunities := db.opportunities[id := Merge(db.opportunities[id], BodyData(body))])
  {
    if !Owned(db.opportunities, Str(id), user) then Outcome(NotFound(OpportunityEntity), db)
    else if ClientRecheckFails(db, db.opportunities[id], body, user) then Outcome(NotFound(ClientEntity), db)
    else Outcome(Ok, db.(opportunities := db.opportunities[id := Merge(db.opportunities[id], BodyData(body))]))
  }

  /** A body without a client, or naming the current one, skips the client
      lookup. */
  lemma UnchangedClientNotRechecked(db: Db, id: string, body: Value, user: string)
    requires Owned(db.opportunities, Str(id), user)
    requires !Truthy(Get(body, "clientId")) || StrictEquals(Get(body, "clientId"), Col(db.opportunities[id], "clientId"))
    ensures UpdateOpportunity(db, id, body, user).reply == Ok
  {
  }

  /** An update changes only the caller's own opportunity. */
  lemma UpdateIsolated(db: Db, id: string, body: Value, user: string)
    requires UpdateOpportunity(db, id, body, user).reply == Ok
    ensures Isolated(db.opportunities, UpdateOpportunity(db, id, body, user).db.opportunities, user)
  {
    RewriteIsolated(db.opportunities, id, Merge(db.opportunities[id], BodyData(body)), user);
  }

  // ------------------------------------------------------------ delete

  /** `deleteOpportunity`: 404 unless the caller owns the opportunity, and
      otherwise 204 removing exactly that row. */
  function DeleteOpportunity(db: Db, id: string, user: string): (o: Outcome)
    ensures o.reply == NoContent <==> Owned(db.opportunities, Str(id), user)
    ensures o.reply != NoContent ==> o == Outcome(NotFound(OpportunityEntity), db)
    ensures o.reply == NoContent ==> o.db == db.(opportunities := db.opportunities - {id})
  {
    if Owned(db.opportunities, Str(id), user) then Outcome(NoContent, db.(opportunities := db.opportunities - {id}))
    else Outcome(NotFound(OpportunityEntity), db)
  }

  /** Deleting the same opportunity twice answers 204 and then 404, and the
      removal touches no other user's opportunity. */
  lemma DeleteTwice(db: Db, id: string, user: string)
    requires Owned(db.opportunities, Str(id), user)
    ensures DeleteOpportunity(db, id, user).reply == NoContent
    ensures Isolated(db.opportunities, DeleteOpportunity(db, id, user).db.opportunities, user)
    ensures var db' := DeleteOpportunity(db, id, user).db;
      DeleteOpportunity(db', id, user) == Outcome(NotFound(OpportunityEntity), db')
  {
    RemovalIsolated(db.opportunities, id, user);
  }
}

=== FILE: origins.dfy ===
/** The cross-origin allow-list of the HTTP server: how configured origins are
    normalised, split into exact entries and `*` patterns, how a pattern is
    compiled into a regular expression, and which request origins pass. The
    `FRONTEND_URLS` environment variable is a parameter. */
module Origins {
  import opened Wrappers
  import opened JsString

  // ------------------------------------------------------------ normalisation

  /** `.replace(/\/$/, '')`: one trailing slash removed. */
  function DropTrailingSlash(s: string): (r: string)
    ensures |s| > 0 && s[|s| - 1] == '/' ==> s == r + "/"
    ensures !(|s| > 0 && s[|s| - 1] == '/') ==> r == s
  {
    if |s| > 0 && s[|s| - 1] == '/' then s[..|s| - 1] else s
  }

  /** `normalizeOrigin`: trimmed, one trailing slash removed, lower-cased. */
  function NormalizeOrigin(s: string): (r: string)
    ensures IsLower(r)
    ensures |r| <= |s|
  {
    var d := DropTrailingSlash(Trim(s));
    LowerIsLower(d);
    ToLower(d)
  }

  lemma {:induction false} DropSlashLower(s: string)
    ensures DropTrailingSlash(ToLower(s)) == ToLower(DropTrailingSlash(s))
  {
    if |s| > 0 && s[|s| - 1] == '/' {
      assert ToLower(s)[..|s| - 1] == ToLower(s[..|s| - 1]);
    }
  }

  /** Normalisation ignores case: an origin and its lower-case form
      normalise alike. */
  lemma NormalizeIgnoresCase(s: string)
    ensures NormalizeOrigin(ToLower(s)) == NormalizeOrigin(s)
  {
    TrimLower(s);
    DropSlashLower(Trim(s));
    var d := DropTrailingSlash(Trim(s));
    LowerIsLower(d);
    LowerOfLower(ToLower(d));
  }

  /** Normalisation ignores one trailing slash on an origin with no
      surrounding whitespace. */
  lemma NormalizeIgnoresTrailingSlash(s: string)
    requires s != "" && IsTrimmed(s) && s[|s| - 1] != '/'
    ensures NormalizeOrigin(s + "/") == NormalizeOrigin(s)
  {
    var t := s + "/";
    assert t[0] == s[0] && t[|t| - 1] == '/';
    TrimOfTrimmed(t);
    TrimOfTrimmed(s);
    assert t[..|t| - 1] == s;
  }

  // ------------------------------------------------------------ patterns

  /** A regular-expression atom of a compiled pattern: one literal character,
      or `.*`, a run of characters that are not line terminators. */
  datatype Token = Lit(c: char) | AnyRun

  /** The characters `escapeRegex` escapes. */
  predicate RegexSpecial(c: char) {
    || c == '|' || c == '\\' || c == '{' || c == '}' || c == '(' || c == ')' || c == '['
    || c == ']' || c == '^' || c == '$' || c == '+' || c == '*' || c == '?' || c == '.' || c == '-'
  }

  /** `escapeRegex` on one character. */
  function EscapeChar(c: char): (r: string)
    ensures RegexSpecial(c) ==> r == ['\\', c]
    ensures !RegexSpecial(c) ==> r == [c]
  {
    if RegexSpecial(c) then ['\\', c] else [c]
  }

  /** `escapeRegex`: every special character preceded by a backslash. */
  function Escape(s: string): (r: string)
    ensures r == [] || r[0] != '*'
  {
    if s == [] then [] else EscapeChar(s[0]) + Escape(s[1..])
  }

  /** The global replacement of an escaped star by `.*`: every backslash-star
      pair, scanning left to right, becomes `.*`. */
  function ReplaceEscapedStars(t: string): string {
    if |t| >= 2 && t[0] == '\\' && t[1] == '*' then ".*" + ReplaceEscapedStars(t[2..])
    else if t == [] then []
    else [t[0]] + ReplaceEscapedStars(t[1..])
  }

  /** The source text of the regular expression built from a wildcard entry. */
  function PatternText(entry: string): string {
    "^" + ReplaceEscapedStars(Escape(entry)) + "$"
  }

  function Prepend(t: Token, ts: Option<seq<Token>>): Option<seq<Token>> {
    match ts
    case Some(rest) => Some([t] + rest)
    case None => None
  }

  /** The atoms of a pattern body, for the fragment of regular-expression
      syntax the compiled patterns use: escaped special characters, `.*`, and
      plain characters. `None` for anything outside that fragment. */
  function ParseBody(t: string): Option<seq<Token>> {
    if t == [] then Some([])
    else if t[0] == '\\' then
      if |t| >= 2 && RegexSpecial(t[1]) then Prepend(Lit(t[1]), ParseBody(t[2..])) else None
    else if t[0] == '.' then
      if |t| >= 2 && t[1] == '*' then Prepend(AnyRun, ParseBody(t[2..])) else None
    else if RegexSpecial(t[0]) then None
    else Prepend(Lit(t[0]), ParseBody(t[1..]))
  }

  /** A whole pattern: `^`, a body, `$`. */
  function Parse(text: string): Option<seq<Token>> {
    if |text| >= 2 && text[0] == '^' && text[|text| - 1] == '$' then ParseBody(text[1..|text| - 1]) else None
  }

  /** The atoms an entry is meant to become: `*` any run, everything else
      itself. */
  function Glob(entry: string): seq<Token> {
    if entry == [] then []
    else [if entry[0] == '*' then AnyRun else Lit(entry[0])] + Glob(entry[1..])
  }

  /** The atoms one entry character turns into, as text. */
  function CompiledChar(c: char): (r: string)
    ensures c == '*' ==> r == ".*"
    ensures c != '*' ==> r == EscapeChar(c)
  {
    if c == '*' then ".*" else EscapeChar(c)
  }

  lemma ReplaceKeeps(x: char, rest: string)
    requires x != '\\' || rest == [] || rest[0] != '*'
    ensures ReplaceEscapedStars([x] + rest) == [x] + ReplaceEscapedStars(rest)
  {
    assert ([x] + rest)[1..] == rest;
  }

  lemma ReplaceStar(rest: string)
    ensures ReplaceEscapedStars(['\\', '*'] + rest) == ".*" + ReplaceEscapedStars(rest)
  {
    assert (['\\', '*'] + rest)[2..] == rest;
  }

  /** Replacing escaped stars works escape by escape. */
  lemma ReplaceUnit(c: char, s: string)
    ensures ReplaceEscapedStars(EscapeChar(c) + Escape(s)) == CompiledChar(c) + ReplaceEscapedStars(Escape(s))
  {
    var rest := Escape(s);
    if c == '*' {
      ReplaceStar(rest);
    } else if RegexSpecial(c) {
      assert EscapeChar(c) + rest == ['\\'] + ([c] + rest);
      ReplaceKeeps('\\', [c] + rest);
      ReplaceKeeps(c, rest);
    } else {
      ReplaceKeeps(c, rest);
    }
  }

  lemma ParseUnit(c: char, t: string)
    ensures ParseBody(CompiledChar(c) + t) == Prepend(if c == '*' then AnyRun else Lit(c), ParseBody(t))
  {
    var u := CompiledChar(c) + t;
    if c == '*' || RegexSpecial(c) {
      assert u[2..] == t;
    } else {
      assert u[1..] == t;
    }
  }

  /** The regular expression built from an entry is exactly the glob the
      entry spells: escaping makes every other character literal, and only the
      stars become `.*`. */
  lemma {:induction false} CompiledBodyIsGlob(entry: string)
    ensures ParseBody(ReplaceEscapedStars(Escape(entry))) == Some(Glob(entry))
  {
    if entry != [] {
      var c := entry[0];
      ReplaceUnit(c, entry[1..]);
      ParseUnit(c, ReplaceEscapedStars(Escape(entry[1..])));
      CompiledBodyIsGlob(entry[1..]);
    }
  }

  lemma CompiledIsGlob(entry: string)
    ensures Parse(PatternText(entry)) == Some(Glob(entry))
  {
    var body := ReplaceEscapedStars(Escape(entry));
    var text := PatternText(entry);
    assert text[1..|text| - 1] == body;
    CompiledBodyIsGlob(entry);
  }

  // ------------------------------------------------------------ matching

  /** `pattern.test(s)` for an anchored pattern: the atoms match the whole of
      `s`, `.*` taking any run of characters other than line terminators. */
  function Matches(ts: seq<Token>, s: string): bool
    decreases |ts|, |s|
  {
    if ts == [] then s == []
    else if ts[0] == AnyRun then
      Matches(ts[1..], s) || (|s| > 0 && !IsLineTerminator(s[0]) && Matches(ts, s[1..]))
    else |s| > 0 && s[0] == ts[0].c && Matches(ts[1..], s[1..])
  }

  /** How many stars an entry holds. */
  function Stars(entry: string): nat {
    if entry == [] then 0 else (if entry[0] == '*' then 1 else 0) + Stars(entry[1..])
  }

  predicate NoBreak(f: string) {
    forall j :: 0 <= j < |f| ==> !IsLineTerminator(f[j])
  }

  predicate AllNoBreak(fills: seq<string>) {
    forall i :: 0 <= i < |fills| ==> NoBreak(fills[i])
  }

  /** The entry with its stars replaced, in order, by `fills`. */
  function Fill(entry: string, fills: seq<string>): string
    requires |fills| == Stars(entry)
  {
    if entry == [] then []
    else if entry[0] == '*' then fills[0] + Fill(entry[1..], fills[1..])
    else [entry[0]] + Fill(entry[1..], fills)
  }

  /** `s` is the entry with each star replaced by a line-terminator-free
      string and every other character kept. */
  ghost predicate FilledBy(entry: string, s: string) {
    exists fills :: |fills| == Stars(entry) && AllNoBreak(fills) && Fill(entry, fills) == s
  }

  lemma {:induction false} RunThenMatch(ts: seq<Token>, f: string, t: string)
    requires NoBreak(f) && Matches(ts, t)
    ensures Matches([AnyRun] + ts, f + t)
  {
    var ts' := [AnyRun] + ts;
    assert ts'[1..] == ts;
    if f != [] {
      assert NoBreak(f[1..]) by {
        forall j | 0 <= j < |f[1..]|
          ensures !IsLineTerminator(f[1..][j])
        {
          assert f[1..][j] == f[j + 1];
        }
      }
      RunThenMatch(ts, f[1..], t);
      assert (f + t)[1..] == f[1..] + t;
    } else {
      assert f + t == t;
    }
  }

  /** Every filling of an entry matches the entry's glob. */
  lemma {:induction false} FillMatches(entry: string, fills: seq<string>)
    requires |fills| == Stars(entry) && AllNoBreak(fills)
    ensures Matches(Glob(entry), Fill(entry, fills))
  {
    if entry != [] {
      var g := Glob(entry);
      assert g[1..] == Glob(entry[1..]);
      if entry[0] == '*' {
        assert AllNoBreak(fills[1..]) by {
          forall i | 0 <= i < |fills[1..]|
            ensures NoBreak(fills[1..][i])
          {
            assert fills[1..][i] == fills[i + 1];
          }
        }
        assert NoBreak(fills[0]);
        FillMatches(entry[1..], fills[1..]);
        RunThenMatch(Glob(entry[1..]), fills[0], Fill(entry[1..], fills[1..]));
        assert g == [AnyRun] + Glob(entry[1..]);
      } else {
        FillMatches(entry[1..], fills);
        var s := Fill(entry, fills);
        assert s[1..] == Fill(entry[1..], fills);
      }
    }
  }

  /** Every string the glob matches is a filling of the entry. */
  lemma {:induction false} MatchFills(entry: string, s: string) returns (fills: seq<string>)
    requires Matches(Glob(entry), s)
    ensures |fills| == Stars(entry) && AllNoBreak(fills) && Fill(entry, fills) == s
    decreases |entry|, |s|
  {
    if entry == [] {
      fills := [];
    } else {
      var g := Glob(entry);
      assert g[1..] == Glob(entry[1..]);
      if entry[0] == '*' {
        if Matches(Glob(entry[1..]), s) {
          var rest := MatchFills(entry[1..], s);
          fills := [""] + rest;
          assert fills[1..] == rest;
          assert AllNoBreak(fills) by {
            forall i | 0 <= i < |fills|
              ensures NoBreak(fills[i])
            {
              if i > 0 {
                assert fills[i] == rest[i - 1];
              }
            }
          }
        } else {
          assert |s| > 0 && !IsLineTerminator(s[0]) && Matches(g, s[1..]);
          var more := MatchFills(entry, s[1..]);
          var first := [s[0]] + more[0];
          fills := [first] + more[1..];
          assert fills[1..] == more[1..];
          assert NoBreak(first) by {
            assert NoBreak(more[0]);
            forall j | 0 <= j < |first|
              ensures !IsLineTerminator(first[j])
            {
              if j > 0 {
                assert first[j] == more[0][j - 1];
              }
            }
          }
          assert AllNoBreak(fills) by {
            forall i | 0 <= i < |fills|
              ensures NoBreak(fills[i])
            {
              if i > 0 {
                assert fills[i] == more[i];
              }
            }
          }
          assert Fill(entry, more) == more[0] + Fill(entry[1..], more[1..]);
          assert s == [s[0]] + s[1..];
        }
      } else {
        var rest := MatchFills(entry[1..], s[1..]);
        fills := rest;
        assert s == [s[0]] + s[1..];
      }
    }
  }

  /** A compiled wildcard entry accepts exactly the fillings of the entry. */
  lemma PatternAcceptsFillings(entry: string, s: string)
    ensures Matches(Glob(entry), s) <==> FilledBy(entry, s)
  {
    if Matches(Glob(entry), s) {
      var fills := MatchFills(entry, s);
    }
    if FilledBy(entry, s) {
      var fills :| |fills| == Stars(entry) && AllNoBreak(fills) && Fill(entry, fills) == s;
      FillMatches(entry, fills);
    }
  }

  // ------------------------------------------------------------ allow-list

  /** The origins that are always allowed. */
  const DefaultOrigins: seq<string> := ["http://localhost:5173", "http://localhost:4173", "http://localhost:3000"]

  /** The entries, normalised. */
  function NormalizeAll(xs: seq<string>): (ys: seq<string>)
    ensures |ys| == |xs| && forall i :: 0 <= i < |xs| ==> ys[i] == NormalizeOrigin(xs[i])
  {
    seq(|xs|, i requires 0 <= i < |xs| => NormalizeOrigin(xs[i]))
  }

  /** `.filter(Boolean)` on strings. */
  function NonEmptyOnly(xs: seq<string>): (ys: seq<string>)
    ensures forall x :: x in ys <==> x in xs && x != ""
  {
    if xs == [] then []
    else (if xs[0] == "" then [] else [xs[0]]) + NonEmptyOnly(xs[1..])
  }

  /** The configured entries: the defaults, then the comma-separated pieces of
      `FRONTEND_URLS` (none when it is unset). */
  function Configured(frontendUrls: Option<string>): (all: seq<string>)
    ensures |all| > |DefaultOrigins| && all[..|DefaultOrigins|] == DefaultOrigins
  {
    var configured := match frontendUrls case Some(v) => v case None => "";
    DefaultOrigins + Split(configured, ',')
  }

  /** `rawOrigins`: the configured entries, normalised, empty ones dropped. */
  function RawOrigins(frontendUrls: Option<string>): (raw: seq<string>)
    ensures "" !in raw
    ensures forall o :: o in raw <==> o != "" && o in NormalizeAll(Configured(frontendUrls))
  {
    NonEmptyOnly(NormalizeAll(Configured(frontendUrls)))
  }

  /** `allowAllOrigins`. */
  predicate AllowAll(raw: seq<string>) {
    "*" in raw
  }

  /** `exactOrigins`: the entries without a star. */
  function ExactOrigins(raw: seq<string>): (exact: set<string>)
    ensures forall o :: o in exact <==> o in raw && '*' !in o
  {
    set o | o in raw && '*' !in o
  }

  /** The entries `wildcardOrigins` compiles: those with a star, other than a
      lone star. */
  function WildcardEntries(raw: seq<string>): (ws: seq<string>)
    ensures forall w :: w in ws <==> w in raw && '*' in w && w != "*"
  {
    if raw == [] then []
    else (if '*' in raw[0] && raw[0] != "*" then [raw[0]] else []) + WildcardEntries(raw[1..])
  }

  /** `pattern.test(s)` for the regular expression compiled from `entry`. */
  predicate Test(entry: string, s: string) {
    var p := Parse(PatternText(entry));
    p.Some? && Matches(p.value, s)
  }

  /** Some wildcard entry's compiled pattern accepts `n`. */
  predicate WildcardAccepts(raw: seq<string>, n: string) {
    exists w :: w in WildcardEntries(raw) && Test(w, n)
  }

  /** The decision of `isAllowedOrigin` against an already built list. */
  predicate AllowedIn(raw: seq<string>, origin: Option<string>) {
    if origin.None? || origin.value == "" || origin.value == "null" || AllowAll(raw) then true
    else
      var n := NormalizeOrigin(origin.value);
      n in ExactOrigins(raw) || WildcardAccepts(raw, n)
  }

  /** `isAllowedOrigin`: no origin, the literal `null` and an allow-all list
      pass; otherwise the normalised origin must be an exact entry or match a
      wildcard entry. */
  predicate IsAllowedOrigin(frontendUrls: Option<string>, origin: Option<string>) {
    AllowedIn(RawOrigins(frontendUrls), origin)
  }

  /** The compiled wildcard patterns accept exactly the fillings of their
      entries. */
  lemma WildcardAcceptsIff(raw: seq<string>, n: string)
    ensures WildcardAccepts(raw, n) <==> exists w :: w in WildcardEntries(raw) && FilledBy(w, n)
  {
    forall w | w in WildcardEntries(raw)
      ensures Test(w, n) <==> FilledBy(w, n)
    {
      CompiledIsGlob(w);
      PatternAcceptsFillings(w, n);
    }
  }

  /** A request origin passes exactly when it is absent, empty or `null`, when
      the list holds `*`, when its normalised form is an exact entry, or when
      that form is a filling of a wildcard entry. */
  lemma AllowedIff(frontendUrls: Option<string>, origin: string)
    ensures var raw := RawOrigins(frontendUrls);
      var n := NormalizeOrigin(origin);
      IsAllowedOrigin(frontendUrls, Some(origin)) <==>
        || origin == "" || origin == "null" || AllowAll(raw)
        || n in ExactOrigins(raw)
        || exists w :: w in WildcardEntries(raw) && FilledBy(w, n)
  {
    WildcardAcceptsIff(RawOrigins(frontendUrls), NormalizeOrigin(origin));
  }

  /** Against a list without star entries, an origin other than the empty
      string and `null` passes exactly when its normal form is listed. */
  lemma AllowedWithoutStars(raw: seq<string>, origin: string)
    requires forall i :: 0 <= i < |raw| ==> '*' !in raw[i]
    requires origin != "" && origin != "null"
    ensures AllowedIn(raw, Some(origin)) <==> NormalizeOrigin(origin) in raw
  {
    NoWildcards(raw);
  }

  /** With `FRONTEND_URLS` unset, exactly the three defaults pass. */
  lemma OnlyDefaultsWhenUnset(origin: string)
    requires origin != "" && origin != "null"
    ensures IsAllowedOrigin(None, Some(origin)) <==> NormalizeOrigin(origin) in DefaultOrigins
  {
    var raw := RawOrigins(None);
    UnsetRawIsDefaults();
    NoStarInDefaults();
    assert forall i :: 0 <= i < |raw| ==> '*' !in raw[i] by {
      forall i | 0 <= i < |raw|
        ensures '*' !in raw[i]
      {
        assert raw[i] in DefaultOrigins;
      }
    }
    AllowedWithoutStars(raw, origin);
    var n := NormalizeOrigin(origin);
    if n in DefaultOrigins {
      DefaultsInRaw(None);
      var i :| 0 <= i < |DefaultOrigins| && DefaultOrigins[i] == n;
    }
  }

  /** With `FRONTEND_URLS` unset, the list holds the defaults alone. */
  lemma UnsetRawIsDefaults()
    ensures forall o :: o in RawOrigins(None) ==> o in DefaultOrigins
  {
    var all := Configured(None);
    var n := NormalizeAll(all);
    assert Split("", ',') == [""];
    assert all == DefaultOrigins + [""];
    DefaultsNormal();
    assert n == DefaultOrigins + [""] by {
      forall i | 0 <= i < 4
        ensures n[i] == (DefaultOrigins + [""])[i]
      {
        assert all[i] == (DefaultOrigins + [""])[i];
      }
    }
  }

  /** An origin with no surrounding whitespace, no trailing slash and no
      upper-case letter is its own normal form. */
  lemma NormalOfNormal(d: string)
    requires IsTrimmed(d) && IsLower(d) && (d == [] || d[|d| - 1] != '/')
    ensures NormalizeOrigin(d) == d
  {
    TrimOfTrimmed(d);
    LowerOfLower(d);
  }

  lemma DefaultsNormal()
    ensures forall i :: 0 <= i < |DefaultOrigins| ==> DefaultOrigins[i] != "" && NormalizeOrigin(DefaultOrigins[i]) == DefaultOrigins[i]
  {
    forall i | 0 <= i < |DefaultOrigins|
      ensures DefaultOrigins[i] != "" && NormalizeOrigin(DefaultOrigins[i]) == DefaultOrigins[i]
    {
      var d := DefaultOrigins[i];
      assert d[0] == 'h' && d[20] != '/' && !IsSpace(d[20]) && |d| == 21;
      NormalOfNormal(d);
    }
  }

  lemma NoStarInDefaults()
    ensures forall o :: o in DefaultOrigins ==> '*' !in o
  {
  }

  /** A list without star entries compiles no wildcard pattern. */
  lemma NoWildcards(raw: seq<string>)
    requires forall i :: 0 <= i < |raw| ==> '*' !in raw[i]
    ensures WildcardEntries(raw) == []
  {
  }

  /** An entry whose normal form is not empty is listed in that form. */
  lemma EntryListed(all: seq<string>, i: int)
    requires 0 <= i < |all| && NormalizeOrigin(all[i]) != ""
    ensures NormalizeOrigin(all[i]) in NonEmptyOnly(NormalizeAll(all))
  {
    assert NormalizeAll(all)[i] == NormalizeOrigin(all[i]);
  }

  /** Every entry of a prefix of normal, non-empty origins is listed. */
  lemma PrefixListed(all: seq<string>, d: seq<string>)
    requires |d| <= |all| && all[..|d|] == d
    requires forall j :: 0 <= j < |d| ==> d[j] != "" && NormalizeOrigin(d[j]) == d[j]
    ensures forall i :: 0 <= i < |d| ==> d[i] in NonEmptyOnly(NormalizeAll(all))
  {
    forall i | 0 <= i < |d|
      ensures d[i] in NonEmptyOnly(NormalizeAll(all))
    {
      assert all[i] == d[i];
      EntryListed(all, i);
    }
  }

  lemma DefaultsInRaw(frontendUrls: Option<string>)
    ensures forall i :: 0 <= i < |DefaultOrigins| ==> DefaultOrigins[i] in RawOrigins(frontendUrls)
  {
    DefaultsNormal();
    PrefixListed(Configured(frontendUrls), DefaultOrigins);
  }

  /** The three local development origins pass whatever `FRONTEND_URLS` holds. */
  lemma DefaultsAllowed(frontendUrls: Option<string>, i: int)
    requires 0 <= i < |DefaultOrigins|
    ensures IsAllowedOrigin(frontendUrls, Some(DefaultOrigins[i]))
  {
    DefaultsInRaw(frontendUrls);
    DefaultsNormal();
    NoStarInDefaults();
    assert DefaultOrigins[i] in DefaultOrigins;
    assert NormalizeOrigin(DefaultOrigins[i]) == DefaultOrigins[i];
  }

  /** Each comma-separated piece of `FRONTEND_URLS` lands, normalised, in the
      list unless it normalises to the empty string. */
  lemma PieceInRaw(urls: string, i: int)
    requires 0 <= i < |Split(urls, ',')|
    requires NormalizeOrigin(Split(urls, ',')[i]) != ""
    ensures NormalizeOrigin(Split(urls, ',')[i]) in RawOrigins(Some(urls))
  {
    var all := Configured(Some(urls));
    var k := |DefaultOrigins| + i;
    assert all[k] == Split(urls, ',')[i];
    EntryListed(all, k);
  }

  /** An origin whose normal form is that of a configured star-free piece
      passes. */
  lemma ConfiguredOriginAllowed(urls: string, i: int, origin: string)
    requires 0 <= i < |Split(urls, ',')|
    requires NormalizeOrigin(origin) == NormalizeOrigin(Split(urls, ',')[i])
    requires NormalizeOrigin(origin) != "" && '*' !in NormalizeOrigin(origin)
    ensures IsAllowedOrigin(Some(urls), Some(origin))
  {
    PieceInRaw(urls, i);
    ExactAllowed(RawOrigins(Some(urls)), origin);
  }

  /** A star-free listed normal form passes. */
  lemma ExactAllowed(raw: seq<string>, origin: string)
    requires NormalizeOrigin(origin) in raw && '*' !in NormalizeOrigin(origin)
    ensures AllowedIn(raw, Some(origin))
  {
  }

  /** A configured piece that normalises to a lone star lets every origin
      through. */
  lemma StarAllowsAll(urls: string, i: int, origin: Option<string>)
    requires 0 <= i < |Split(urls, ',')|
    requires NormalizeOrigin(Split(urls, ',')[i]) == "*"
    ensures IsAllowedOrigin(Some(urls), origin)
  {
    PieceInRaw(urls, i);
  }

  /** Two request origins with the same normal form, neither empty nor `null`,
      get the same answer. */
  lemma SameNormalForm(raw: seq<string>, a: string, b: string)
    requires a != "" && a != "null" && b != "" && b != "null"
    requires NormalizeOrigin(a) == NormalizeOrigin(b)
    ensures AllowedIn(raw, Some(a)) == AllowedIn(raw, Some(b))
  {
  }

  /** Origins that differ only in letter case are treated alike, the literal
      `null` aside. */
  lemma CaseInsensitive(frontendUrls: Option<string>, origin: string)
    requires origin != "" && origin != "null" && ToLower(origin) != "null"
    ensures IsAllowedOrigin(frontendUrls, Some(ToLower(origin))) == IsAllowedOrigin(frontendUrls, Some(origin))
  {
    NormalizeIgnoresCase(origin);
    SameNormalForm(RawOrigins(frontendUrls), ToLower(origin), origin);
  }

  /** A trailing slash on a request origin makes no difference. */
  lemma TrailingSlashIgnored(frontendUrls: Option<string>, origin: string)
    requires origin != "" && origin != "null" && IsTrimmed(origin) && origin[|origin| - 1] != '/'
    ensures IsAllowedOrigin(frontendUrls, Some(origin + "/")) == IsAllowedOrigin(frontendUrls, Some(origin))
  {
    NormalizeIgnoresTrailingSlash(origin);
    assert origin + "/" != "null" by {
      assert (origin + "/")[|origin|] == '/';
    }
    SameNormalForm(RawOrigins(frontendUrls), origin + "/", origin);
  }
}

=== FILE: store.dfy ===
/** The persistence collaborator, reduced to what the controllers observe: one
    table per entity, each a map from record id to a row of column values, and
    the ownership lookups (`findFirst` with an `ownerId` filter) as pure
    predicates over it. */
module Store {
  import opened Wrappers
  import opened JsValue

  type Row = map<string, Value>
  type Table = map<string, Row>

  datatype Db = Db(
    clients: Table,
    opportunities: Table,
    transactions: Table,
    activities: Table,
    notes: Table,
    partners: Table)

  /** A column of a row; an absent column reads as `undefined`. */
  function Col(row: Row, key: string): Value {
    if key in row then row[key] else Undefined
  }

  /** `findFirst({ where: { id, ownerId: user } })` finds a row. Only a string
      id can name a row. */
  predicate Owned(t: Table, id: Value, user: string) {
    id.Str? && id.s in t && Col(t[id.s], "ownerId") == Str(user)
  }

  /** The entity a 404 reply names. */
  datatype Entity = ClientEntity | OpportunityEntity | TransactionEntity | ActivityEntity | NoteEntity

  /** Why a request was answered 400. */
  datatype Problem =
    | MissingRequired    // a required body field is falsy
    | NothingToUpdate    // a partial update that assigns no field
    | EmptyContent       // note content that trims to nothing
    | MissingClientId    // the route carries no client id

  /** The reply a controller sends; the message text is not modelled, only
      which message is chosen. */
  datatype Reply =
    | Created
    | Ok
    | NoContent
    | BadRequest(problem: Problem)
    | NotFound(what: Entity)
    | ServerError

  function Status(r: Reply): (code: nat)
    ensures 200 <= code < 600
  {
    match r
    case Created => 201
    case Ok => 200
    case NoContent => 204
    case BadRequest(_) => 400
    case NotFound(_) => 404
    case ServerError => 500
  }

  /** A controller's answer together with the database after the request. */
  datatype Outcome = Outcome(reply: Reply, db: Db)

  /** The row the store holds after writing `data`: keys whose value is
      `undefined` are skipped, as Prisma skips them. */
  function Defined(data: map<string, Value>): (row: Row)
    ensures forall k :: k in row <==> k in data && !data[k].Undefined?
    ensures forall k :: k in row ==> row[k] == data[k]
  {
    map k | k in data && !data[k].Undefined? :: data[k]
  }

  /** Prisma refuses to store an Invalid Date, and the controller answers 500. */
  predicate Storable(row: Row) {
    forall k :: k in row ==> !row[k].InvalidDate?
  }

  /** `create`: `None` when the store refuses the row (an id already taken, an
      Invalid Date), and the table with the new row otherwise. */
  function Insert(t: Table, id: string, row: Row): (r: Option<Table>)
    ensures r.Some? <==> id !in t && Storable(row)
    ensures r.Some? ==> r.value == t[id := row]
  {
    if id in t || !Storable(row) then None else Some(t[id := row])
  }

  /** `update({ where: { id }, data })`: the columns of `data` replace those of
      the row, every other column is kept. */
  function Merge(row: Row, data: Row): (r: Row)
    ensures r.Keys == row.Keys + data.Keys
    ensures forall k :: k in data ==> r[k] == data[k]
    ensures forall k :: k in row && k !in data ==> r[k] == row[k]
  {
    row + data
  }

  /** The columns a raw request body writes when passed as `data: req.body`. */
  function BodyData(body: Value): Row {
    Defined(Fields(body))
  }

  /** No row that `user` does not own was changed or removed. */
  ghost predicate OthersUntouched(t: Table, t': Table, user: string) {
    forall id :: id in t && Col(t[id], "ownerId") != Str(user) ==> id in t' && t'[id] == t[id]
  }

  /** No row that `user` did not own before is changed or removed, and no row
      appears that is not owned by `user`. */
  ghost predicate Isolated(t: Table, t': Table, user: string) {
    && OthersUntouched(t, t', user)
    && forall id :: id in t' && id !in t ==> Col(t'[id], "ownerId") == Str(user)
  }

  /** The rows a `findMany` filtered on `ownerId` returns: those the user owns. */
  function ListOwned(t: Table, user: string): (ids: set<string>)
    ensures forall id :: id in ids <==> Owned(t, Str(id), user)
  {
    set id | id in t && Col(t[id], "ownerId") == Str(user)
  }

  /** After a change confined to `user`'s rows, every row another user could
      list is still listed for them, unchanged. */
  lemma IsolatedKeepsOthersListed(t: Table, t': Table, user: string, other: string)
    requires Isolated(t, t', user) && other != user
    ensures ListOwned(t, other) <= ListOwned(t', other)
    ensures forall id :: id in ListOwned(t, other) ==> t'[id] == t[id]
  {
    forall id | id in ListOwned(t, other)
      ensures id in t' && t'[id] == t[id]
    {
      assert Col(t[id], "ownerId") != Str(user);
    }
  }

  /** Removing a row the caller owns keeps every other user's rows. */
  lemma RemovalIsolated(t: Table, id: string, user: string)
    requires Owned(t, Str(id), user)
    ensures Isolated(t, t - {id}, user)
  {
  }

  /** Rewriting a row the caller owns keeps every other user's rows, whatever
      the new row holds. */
  lemma RewriteIsolated(t: Table, id: string, row: Row, user: string)
    requires Owned(t, Str(id), user)
    ensures Isolated(t, t[id := row], user)
  {
  }

  /** Adding a row stamped with the caller's id keeps every other user's rows
      and adds nothing to theirs. */
  lemma AdditionIsolated(t: Table, id: string, row: Row, user: string)
    requires id !in t && Col(row, "ownerId") == Str(user)
    ensures Isolated(t, t[id := row], user)
  {
  }

  /** The record a row's `clientId` links to, as `include: { client: true }`
      joins it: the client's row as an object, or `null` when no stored client
      has that id. */
  function LinkedClient(db: Db, row: Row): (c: Value)
    ensures c.Obj? <==> Col(row, "clientId").Str? && Col(row, "clientId").s in db.clients
    ensures c.Obj? ==> c.fields == db.clients[Col(row, "clientId").s]
    ensures !c.Obj? ==> c == Null
  {
    var id := Col(row, "clientId");
    if id.Str? && id.s in db.clients then Obj(db.clients[id.s]) else Null
  }

  /** A row as a query with `include: { client: true }` returns it. */
  function WithClient(db: Db, row: Row): (r: Row)
    ensures r.Keys == row.Keys + {"client"}
    ensures r["client"] == LinkedClient(db, row)
    ensures forall k :: k in row && k != "client" ==> r[k] == row[k]
  {
    row["client" := LinkedClient(db, row)]
  }

  /** The client name a response should show for a stored row: the linked
      client's name when it is non-empty, else the name stored on the row when
      that is truthy, else the empty string. */
  function ShownClientName(db: Db, row: Row): Value {
    var c := LinkedClient(db, row);
    if c.Obj? && Truthy(Col(c.fields, "name")) then Col(c.fields, "name")
    else if Truthy(Col(row, "clientName")) then Col(row, "clientName")
    else Str("")
  }

  /** On a row read with its client joined, `clientName` is the shown name. */
  lemma JoinedNameIsShown(db: Db, row: Row)
    ensures JoinedClientName(WithClient(db, row)) == ShownClientName(db, row)
  {
    var r := WithClient(db, row);
    assert Col(r, "clientName") == Col(row, "clientName");
  }

  /** `record.client?.name || record.clientName || ''`: the joined client's
      name, else the name stored on the record, else the empty string. */
  function JoinedClientName(row: Row): (r: Value)
    ensures Truthy(Get(Col(row, "client"), "name")) ==> r == Get(Col(row, "client"), "name")
    ensures !Truthy(Get(Col(row, "client"), "name")) && Truthy(Col(row, "clientName")) ==> r == Col(row, "clientName")
    ensures !Truthy(Get(Col(row, "client"), "name")) && !Truthy(Col(row, "clientName")) ==> r == Str("")
    ensures Truthy(r) || r == Str("")
  {
    var client := Col(row, "client");
    var joined := if Nullish(client) then Undefined else Get(client, "name");
    Or(Or(joined, Col(row, "clientName")), Str(""))
  }
}

=== FILE: transactions.dfy ===
/** The transaction controller: response shaping and the owner-guarded create,
    update and delete transitions over the transaction table. Every transaction
    carries the id of the user who created it in `ownerId`. */
module Transactions {
  import opened Wrappers
  import opened JsValue
  import opened Store

  // ------------------------------------------------------------ response

  /** `buildTransactionResponse`: `None` for no record; otherwise the record
      with a numeric `value` (0 when missing), a numeric or `null` `unitValue`
      and a `clientName` that is never missing. */
  function BuildTransactionResponse(tx: Option<Row>, rt: Runtime): (r: Option<Row>)
    ensures r.None? <==> tx.None?
    ensures r.Some? ==> r.value.Keys == tx.value.Keys + {"value", "unitValue", "clientName"}
    ensures r.Some? ==> forall k :: k in tx.value && k !in {"value", "unitValue", "clientName"} ==> r.value[k] == tx.value[k]
  {
    match tx
    case None => None
    case Some(row) =>
      Some(row["value" := NumberOrZero(Col(row, "value"), rt)]
              ["unitValue" := ToNumberOrNull(Col(row, "unitValue"), rt)]
              ["clientName" := JoinedClientName(row)])
  }

  /** The three shaped columns: the value defaults to 0, a missing unit value
      stays `null`, and the client name falls back to the stored one and then
      to the empty string. */
  lemma ResponseColumns(row: Row, rt: Runtime)
    ensures var r := BuildTransactionResponse(Some(row), rt).value;
      && (r["value"].Num? || r["value"].NaN?)
      && (Nullish(Col(row, "value")) ==> r["value"] == Num(0.0))
      && (r["unitValue"].Null? <==> Nullish(Col(row, "unitValue")))
      && (Truthy(r["clientName"]) || r["clientName"] == Str(""))
      && r["clientName"] == JoinedClientName(row)
  {
  }

  /** `getAllTransactions`: the caller's transactions, each read with its
      client joined and then shaped; every listed record carries the caller's
      id, the linked client, and that client's name when it has one. */
  function GetAllTransactions(db: Db, user: string, rt: Runtime): (r: map<string, Row>)
    ensures r.Keys == ListOwned(db.transactions, user)
    ensures forall id :: id in r ==>
      && r[id].Keys == db.transactions[id].Keys + {"client", "value", "unitValue", "clientName"}
      && r[id]["ownerId"] == Str(user)
      && r[id]["client"] == LinkedClient(db, db.transactions[id])
      && r[id]["clientName"] == ShownClientName(db, db.transactions[id])
  {
    map id | id in ListOwned(db.transactions, user) :: ListedTransaction(db, id, rt)
  }

  /** One entry of the listing. */
  function ListedTransaction(db: Db, id: string, rt: Runtime): (r: Row)
    requires id in db.transactions
    ensures r.Keys == db.transactions[id].Keys + {"client", "value", "unitValue", "clientName"}
    ensures forall k :: k in db.transactions[id] && k !in {"client", "value", "unitValue", "clientName"} ==>
      r[k] == db.transactions[id][k]
    ensures r["client"] == LinkedClient(db, db.transactions[id])
    ensures r["clientName"] == ShownClientName(db, db.transactions[id])
  {
    var row := WithClient(db, db.transactions[id]);
    JoinedNameIsShown(db, db.transactions[id]);
    BuildTransactionResponse(Some(row), rt).value
  }

  // ------------------------------------------------------------ create

  /** The required body fields of `createTransaction`. */
  predicate HasRequired(body: Value) {
    Truthy(Get(body, "clientId")) && Truthy(Get(body, "type")) && Truthy(Get(body, "status"))
  }

  /** `v ? new Date(v) : null`. */
  function OptionalDate(v: Value, rt: Runtime): (r: Value)
    ensures !Truthy(v) ==> r == Null
    ensures Truthy(v) ==> r == NewDate(v, rt)
  {
    if Truthy(v) then NewDate(v, rt) else Null
  }

  /** The columns `createTransaction` writes, before `undefined` ones are
      dropped. */
  function TransactionData(body: Value, user: string, now: int, rt: Runtime): map<string, Value> {
    map[
      "clientId" := Get(body, "clientId"),
      "type" := Get(body, "type"),
      "product" := Or(Get(body, "product"), Null),
      "value" := Or(Get(body, "value"), Num(0.0)),
      "unitValue" := Or(Get(body, "unitValue"), Null),
      "quantity" := Or(Get(body, "quantity"), Null),
      "reservationDate" := OptionalDate(Get(body, "reservationDate"), rt),
      "liquidationDate" := OptionalDate(Get(body, "liquidationDate"), rt),
      "timestamp" := if Truthy(Get(body, "timestamp")) then NewDate(Get(body, "timestamp"), rt) else Date(now),
      "status" := Get(body, "status"),
      "institution" := Get(body, "institution"),
      "docRef" := Get(body, "docRef"),
      "ownerId" := Str(user)]
  }

  /** The row `createTransaction` stores. */
  function TransactionRow(body: Value, user: string, now: int, rt: Runtime): Row {
    Defined(TransactionData(body, user, now, rt))
  }

  /** The row is stamped with the caller and links the requested client. */
  lemma RowOwnerAndClient(body: Value, user: string, now: int, rt: Runtime)
    requires Truthy(Get(body, "clientId"))
    ensures var row := TransactionRow(body, user, now, rt);
      Col(row, "ownerId") == Str(user) && Col(row, "clientId") == Get(body, "clientId")
  {
    var data := TransactionData(body, user, now, rt);
    assert data["ownerId"] == Str(user);
    assert data["clientId"] == Get(body, "clientId");
  }

  /** Missing optional fields take their defaults: `null` for product, unit
      value and quantity, 0 for value, `null` for the two dates, and the
      current time for the timestamp. */
  lemma RowDefaults(body: Value, user: string, now: int, rt: Runtime)
    ensures var row := TransactionRow(body, user, now, rt);
      && Col(row, "product") == (if Truthy(Get(body, "product")) then Get(body, "product") else Null)
      && Col(row, "value") == (if Truthy(Get(body, "value")) then Get(body, "value") else Num(0.0))
      && Col(row, "unitValue") == (if Truthy(Get(body, "unitValue")) then Get(body, "unitValue") else Null)
      && Col(row, "quantity") == (if Truthy(Get(body, "quantity")) then Get(body, "quantity") else Null)
  {
    var data := TransactionData(body, user, now, rt);
    assert data["product"] == Or(Get(body, "product"), Null);
    assert data["value"] == Or(Get(body, "value"), Num(0.0));
    assert data["unitValue"] == Or(Get(body, "unitValue"), Null);
    assert data["quantity"] == Or(Get(body, "quantity"), Null);
  }

  lemma RowDates(body: Value, user: string, now: int, rt: Runtime)
    ensures var row := TransactionRow(body, user, now, rt);
      && (!Truthy(Get(body, "reservationDate")) ==> Col(row, "reservationDate") == Null)
      && (!Truthy(Get(body, "liquidationDate")) ==> Col(row, "liquidationDate") == Null)
      && (!Truthy(Get(body, "timestamp")) ==> Col(row, "timestamp") == Date(now))
      && (Truthy(Get(body, "timestamp")) ==> Col(row, "timestamp") == NewDate(Get(body, "timestamp"), rt))
  {
    var data := TransactionData(body, user, now, rt);
    assert data["reservationDate"] == OptionalDate(Get(body, "reservationDate"), rt);
    assert data["liquidationDate"] == OptionalDate(Get(body, "liquidationDate"), rt);
    assert data["timestamp"] == if Truthy(Get(body, "timestamp")) then NewDate(Get(body, "timestamp"), rt) else Date(now);
  }

  /** `createTransaction`: 400 before any lookup when `clientId`, `type` or
      `status` is falsy, 404 unless the caller owns the client, 500 when the
      store refuses the row, and otherwise the row is added under `newId`. */
  function CreateTransaction(db: Db, body: Value, user: string, newId: string, now: int, rt: Runtime): (o: Outcome)
    ensures o.reply in {Created, BadRequest(MissingRequired), NotFound(ClientEntity), ServerError}
    ensures o.reply != Created ==> o.db == db
    ensures o.reply == BadRequest(MissingRequired) <==> !HasRequired(body)
    ensures o.reply == NotFound(ClientEntity) <==> HasRequired(body) && !Owned(db.clients, Get(body, "clientId"), user)
    ensures o.reply == ServerError <==>
      HasRequired(body) && Owned(db.clients, Get(body, "clientId"), user)
      && (newId in db.transactions || !Storable(TransactionRow(body, user, now, rt)))
    ensures o.reply == Created ==>
      o.db == db.(transactions := db.transactions[newId := TransactionRow(body, user, now, rt)])
  {
    if !HasRequired(body) then Outcome(BadRequest(MissingRequired), db)
    else if !Owned(db.clients, Get(body, "clientId"), user) then Outcome(NotFound(ClientEntity), db)
    else
      match Insert(db.transactions, newId, TransactionRow(body, user, now, rt))
      case None => Outcome(ServerError, db)
      case Some(t) => Outcome(Created, db.(transactions := t))
  }

  /** A created transaction belongs to the caller and to a client the caller
      owns, and no other user's transaction is touched. */
  lemma CreateIsolated(db: Db, body: Value, user: string, newId: string, now: int, rt: Runtime)
    requires CreateTransaction(db, body, user, newId, now, rt).reply == Created
    ensures var db' := CreateTransaction(db, body, user, newId, now, rt).db;
      && Isolated(db.transactions, db'.transactions, user)
      && Owned(db'.transactions, Str(newId), user)
      && Owned(db.clients, Col(db'.transactions[newId], "clientId"), user)
  {
    RowOwnerAndClient(body, user, now, rt);
    AdditionIsolated(db.transactions, newId, TransactionRow(body, user, now, rt), user);
  }

  // ------------------------------------------------------------ update

  /** The client re-check of an update: it happens only when the body names a
      client and that is not the stored one; it fails when the caller does not
      own the named client. */
  predicate ClientRecheckFails(db: Db, existing: Row, body: Value, user: string) {
    var clientId := Get(body, "clientId");
    Truthy(clientId) && !StrictEquals(clientId, Col(existing, "clientId")) && !Owned(db.clients, clientId, user)
  }

  /** `updateTransaction`: 404 unless the caller owns the transaction, then
      404 when a newly named client is not the caller's; otherwise the body's
      fields are written over the row. */
  function UpdateTransaction(db: Db, id: string, body: Value, user: string): (o: Outcome)
    ensures o.reply in {Ok, NotFound(TransactionEntity), NotFound(ClientEntity)}
    ensures o.reply != Ok ==> o.db == db
    ensures o.reply == NotFound(TransactionEntity) <==> !Owned(db.transactions, Str(id), user)
    ensures o.reply == NotFound(ClientEntity) <==>
      Owned(db.transactions, Str(id), user) && ClientRecheckFails(db, db.transactions[id], body, user)
    ensures o.reply == Ok ==>
      o.db == db.(transactions := db.transactions[id := Merge(db.transactions[id], BodyData(body))])
  {
    if !Owned(db.transactions, Str(id), user) then Outcome(NotFound(TransactionEntity), db)
    else if ClientRecheckFails(db, db.transactions[id], body, user) then Outcome(NotFound(ClientEntity), db)
    else Outcome(Ok, db.(transactions := db.transactions[id := Merge(db.transactions[id], BodyData(body))]))
  }

  /** Naming the transaction's current client again is accepted even when the
      caller no longer owns that client: no lookup is made. */
  lemma SameClientNotRechecked(db: Db, id: string, body: Value, user: string)
    requires Owned(db.transactions, Str(id), user)
    requires Get(body, "clientId") == Col(db.transactions[id], "clientId")
    requires Get(body, "clientId").Str?
    ensures UpdateTransaction(db, id, body, user).reply == Ok
  {
  }

  /** An update changes only the caller's own transaction. */
  lemma UpdateIsolated(db: Db, id: string, body: Value, user: string)
    requires UpdateTransaction(db, id, body, user).reply == Ok
    ensures Isolated(db.transactions, UpdateTransaction(db, id, body, user).db.transactions, user)
  {
    RewriteIsolated(db.transactions, id, Merge(db.transactions[id], BodyData(body)), user);
  }

  /** The body is written as given, so a body carrying `ownerId` hands the
      transaction to another user. */
  lemma UpdateCanReassignOwner(db: Db, id: string, body: Value, user: string, other: string)
    requires Owned(db.transactions, Str(id), user)
    requires body == Obj(map["ownerId" := Str(other)])
    ensures UpdateTransaction(db, id, body, user).reply == Ok
    ensures Owned(UpdateTransaction(db, id, body, user).db.transactions, Str(id), other)
  {
    assert BodyData(body)["ownerId"] == Str(other);
  }

  // ------------------------------------------------------------ delete

  /** `deleteTransaction`: 404 unless the caller owns the transaction, and
      otherwise 204 removing exactly that row. */
  function DeleteTransaction(db: Db, id: string, user: string): (o: Outcome)
    ensures o.reply == NoContent <==> Owned(db.transactions, Str(id), user)
    ensures o.reply != NoContent ==> o == Outcome(NotFound(TransactionEntity), db)
    ensures o.reply == NoContent ==> o.db == db.(transactions := db.transactions - {id})
  {
    if Owned(db.transactions, Str(id), user) then Outcome(NoContent, db.(transactions := db.transactions - {id}))
    else Outcome(NotFound(TransactionEntity), db)
  }

  /** Deleting the same transaction twice answers 204 and then 404, and the
      first removal touches no other user's transaction. */
  lemma DeleteTwice(db: Db, id: string, user: string)
    requires Owned(db.transactions, Str(id), user)
    ensures DeleteTransaction(db, id, user).reply == NoContent
    ensures Isolated(db.transactions, DeleteTransaction(db, id, user).db.transactions, user)
    ensures var db' := DeleteTransaction(db, id, user).db;
      DeleteTransaction(db', id, user) == Outcome(NotFound(TransactionEntity), db')
  {
    RemovalIsolated(db.transactions, id, user);
  }
}

=== FILE: wrappers.dfy ===
/** The optional-value type used throughout the model. */
module Wrappers {

  /** A value that may be absent: JavaScript's `undefined`/`null` result of a
      lookup, or a parse that failed. */
  datatype Option<+T> = None | Some(value: T)
}
